=== FILE: README.md ===
# ocm-container, modelled in Dafny

ocm-container launches an SRE tools container with podman or docker. Before it runs the
engine it makes a series of pure decisions:

- It splits the command line at the first `--`.
- It reads the cluster and the command from the positional arguments.
- It checks the required flags and sets the log level.
- It maps OCM environment aliases to API URLs.
- It turns the configuration into `OCMC_` variables and cluster variables.
- It asks each feature module for the mounts, environment entries, published ports and
  post-start hooks it wants.
- It renders all of this into the `create` argument vector.

This project also models two other parts of the repository:

- `configure init`, which imports the legacy `env.source` file.
- `github_dl.py`, the build-time helper that downloads a release binary and checks its
  digest.

## How the model is built

Every side effect is an explicit input:

- the viper store (`Host.Store`: the keys that are set, plus string and bool values);
- the process environment (`Host.Env`);
- the filesystem (`Host.Fs`, a map from path to `File` or `Dir`);
- HTTP responses (`GithubDl.Fetch`);
- digests, UTF-8 decoding, PATH lookup and MkdirAll;
- the OCM cluster lookup, the XDG search and the container runtime's Inspect.

An OS error text is `Host.StatError(path)`. Go's random map iteration order is an explicit
key listing (`Maps.IsKeyOrder`). Where the result must not depend on that order, a lemma
proves it does not.

Each feature module (`pkg/features/*`) keeps the source's shape:

- `Defaults`, `ExitOnError`, `Validate`, `Configure`, `Enabled` and `Initialize`;
- `Initialize` returns an `Outcome` (the option set plus the error, as Go returns both);
- features whose ExitOnError depends on `criticalError` return that flag too (`Init`).

The shared steps live in `Features`:

- option-set accumulation;
- the configuration-section step;
- the as-given-then-under-HOME file lookup;
- the storage-directory lookup;
- the warn/debug error report.

The older constructor packages (`pkg/featureSet/*`, `pkg/backplane`, `pkg/pagerduty`,
`pkg/scratch`) are modelled in `featureset.dfy` and `hostpkgs.dfy`.

Python exceptions that `github_dl.py` does not catch are modelled as `Py.Raised`, and the
script's exit status for them is 1. That includes a transport error of `requests.get` (no
response at all), which the `Fetch` oracle returns as `Raised`; a response with a status
other than 200 is not an exception.

## Model

| member | source | states |
|---|---|---|
| GithubDl.NormalizeAlgorithm | utils/dockerfile_assets/github_dl.py:15-23 | sha256 exactly for case variants of "sha256", with or without one lower-case trailing "sum"; likewise md5 |
| GithubDl.NoSumSuffix | utils/dockerfile_assets/github_dl.py:15 | a case variant of "sha256" or "md5" never ends in "sum", so the suffix removal cannot change it |
| GithubDl.AlgorithmHintsAccepted | utils/dockerfile_assets/github_dl.py:15-20 | example: "sha256" and "SHA256" select SHA-256 |
| GithubDl.AlgorithmHintsSumSuffix | utils/dockerfile_assets/github_dl.py:15-20 | example: "sha256sum" selects SHA-256 and "MD5sum" selects MD5 |
| GithubDl.AlgorithmHintsRejected | utils/dockerfile_assets/github_dl.py:15-23 | example: "SHA256SUM" (upper-case suffix) and "sha1" are unsupported |
| GithubDl.ValidateBinary | utils/dockerfile_assets/github_dl.py:11-34 | raises unless the line has exactly two fields; true iff the algorithm is supported and its hex digest equals the first field |
| GithubDl.AuthHeaders | utils/dockerfile_assets/github_dl.py:37-43 | a bearer header only for a truthy token; the additional headers are all present and win on a clash |
| GithubDl.GetWithAuth | utils/dockerfile_assets/github_dl.py:37-51 | raises iff requests.get raises; otherwise the response iff its status is 200, else None |
| GithubDl.ListAssets | utils/dockerfile_assets/github_dl.py:54-64 | a transport error or a non-200 response raises; otherwise the release's assets, or [] without them |
| GithubDl.ExtractUrl | utils/dockerfile_assets/github_dl.py:67-78 | the URL of the first asset whose name equals the target exactly; "" when none does |
| GithubDl.Matching | utils/dockerfile_assets/github_dl.py:96 | a line is kept iff it contains the platform |
| GithubDl.MatchingCounts | utils/dockerfile_assets/github_dl.py:96 | each matching line is kept as many times as it occurs, and no other line is kept |
| GithubDl.MatchingSole | utils/dockerfile_assets/github_dl.py:96 | one line containing the platform gives a one-element match list |
| GithubDl.MatchingNone | utils/dockerfile_assets/github_dl.py:96-100 | no line containing the platform gives no match |
| GithubDl.ChecksumLine | utils/dockerfile_assets/github_dl.py:96-108 | "" unless exactly one line matches; a non-empty result is a matching line, stripped |
| GithubDl.ChecksumLineSole | utils/dockerfile_assets/github_dl.py:98-108 | a manifest with one matching line yields that line stripped |
| GithubDl.MatchingTwo | utils/dockerfile_assets/github_dl.py:96 | two different matching lines, even equal ones, give at least two matches |
| GithubDl.ChecksumLineAmbiguous | utils/dockerfile_assets/github_dl.py:96-106 | two different lines naming the platform make the result "" |
| GithubDl.GetChecksum | utils/dockerfile_assets/github_dl.py:81-108 | "" for a missing manifest asset; a found asset raises on a transport error, a non-200 response or an undecodable body, gives "" for an empty body, and otherwise gives the platform line of the decoded manifest |
| GithubDl.GetBinary | utils/dockerfile_assets/github_dl.py:111-128 | raises iff the line has fewer than two fields or the found asset's request has a transport error; otherwise the body fetched with status 200 for the asset named by the second field, and no bytes for a missing asset or another status |
| GithubDl.ZeroLimits | utils/dockerfile_assets/github_dl.py:147-156 | no more pairs than resources |
| GithubDl.ZeroLimitsSound | utils/dockerfile_assets/github_dl.py:147-151 | every reported pair is the name and detail of a resource whose limit is 0 |
| GithubDl.ZeroLimitsComplete | utils/dockerfile_assets/github_dl.py:147-151 | every resource whose limit is 0 is reported |
| GithubDl.ZeroLimitsEmpty | utils/dockerfile_assets/github_dl.py:150-156 | nothing is reported iff no limit is 0 |
| GithubDl.GetQuota | utils/dockerfile_assets/github_dl.py:131-156 | a raise on a transport error, None on a non-200 response, a raise without `resources`, and otherwise exactly the ZeroLimits list of the document, None when it is empty |
| GithubDl.GetQuotaReports | utils/dockerfile_assets/github_dl.py:131-156 | a reported list holds exactly the resources whose limit is 0, each with its detail text |
| GithubDl.TokenOf | utils/dockerfile_assets/github_dl.py:173-177 | the token is GITHUB_TOKEN when that is non-empty, else none |
| GithubDl.QuotaMain | utils/dockerfile_assets/github_dl.py:179-186 | writes nothing; exit 0 iff get_quota returned None, else 1 |
| GithubDl.QuotaFetchFailureExitsZero | utils/dockerfile_assets/github_dl.py:139-143 | a non-200 rate-limit response exits 0 |
| GithubDl.QuotaTransportErrorExitsOne | utils/dockerfile_assets/github_dl.py:131-186 | a transport error on the rate-limit request escapes main and exits 1 |
| GithubDl.QuotaZeroLimitExitsOne | utils/dockerfile_assets/github_dl.py:147-184 | with a fetched document, quota mode exits 1 iff some resource has limit 0 |
| GithubDl.DownloadMain | utils/dockerfile_assets/github_dl.py:188-206 | exit 0 iff a file is written; the written bytes are exactly what GetBinary downloaded, and their checksum line is (their digest, their name) |
| GithubDl.RunScript | utils/dockerfile_assets/github_dl.py:159-206 | exit status 0 or 1; quota mode never writes; download mode writes iff it exits 0 |
| GithubDl.DownloadSucceeds | utils/dockerfile_assets/github_dl.py:188-206 | assets found, a non-empty checksum line, a non-empty binary and a matching digest give exit 0 and the binary written under the line's file name |
| GithubDl.RunScriptDownloads | utils/dockerfile_assets/github_dl.py:159-206 | the same success, through the script entry point with the token taken from GITHUB_TOKEN |
| Engine.ImageFQDNShape | pkg/engine/engine.go:57-70 | `name:tag`, behind `repository/` when non-empty, behind `registry/` when non-empty |
| Engine.New | pkg/engine/engine.go:72-97 | success only for podman or docker found on PATH, and then the engine with the PATH binary and the two switches; an unsupported engine gets the whitelist error |
| Engine.NewRejectsBeforeLookup | pkg/engine/engine.go:82-85 | an unsupported engine fails whatever the PATH lookup would say |
| Engine.ValidateVolumes | pkg/engine/engine.go:259-271 | no error iff every volume has both sides and an existing source; an error names the first bad volume |
| Engine.ValidateContainerRef | pkg/engine/engine.go:258-272 | the same, over the reference's volumes |
| Engine.TtyArgs | pkg/engine/engine.go:314-326 | the tty flag iff tty; the interactive flag iff tty and interactive |
| Engine.TtyToString | pkg/engine/engine.go:314-326 | `--tty` iff tty, `--interactive` iff both, `--tty` first, at most two |
| Engine.EnvArgs | pkg/engine/engine.go:329-343 | two arguments per key |
| Engine.EnvArgsAt | pkg/engine/engine.go:333-340 | key i gives `--env` at 2i and its entry at 2i+1 |
| Engine.EnvsToString | pkg/engine/engine.go:329-343 | length 2·|envs| |
| Engine.EnvsToStringLayout | pkg/engine/engine.go:329-343 | `--env` then `k` or `k=v` per key; every entry of the map appears |
| Engine.HeadArgs | pkg/engine/engine.go:277-281 | `--privileged` first; `--publish-all` iff asked for |
| Engine.EntryArgs | pkg/engine/engine.go:297-299 | the entrypoint argument iff the entrypoint is non-empty |
| Engine.TailArgs | pkg/engine/engine.go:303-308 | the image, then the command iff it is non-empty |
| Engine.ArgList | pkg/engine/engine.go:275-311 | the argument list starts with `--privileged` |
| Engine.ArgListOrdered | pkg/engine/engine.go:279-308 | the segments come in the source's order: publish-all, envs, volumes, best-effort, entrypoint, tty, image, command |
| Engine.ArgListCarriesVolumes | pkg/engine/engine.go:287-291 | the volumes read back out of the list are the reference's, in order |
| Engine.ArgListCarriesBestEffort | pkg/engine/engine.go:293-295 | the best-effort arguments read back out of the list are the reference's, in order |
| Engine.ArgListCarriesEnvs | pkg/engine/engine.go:283-285 | every env entry is in the list |
| Engine.ArgListTail | pkg/engine/engine.go:301-308 | the image is last, or second to last before a non-empty command |
| Engine.ArgListPublishAll | pkg/engine/engine.go:279-281 | `--publish-all` is in the list iff asked for |
| Engine.ArgListEntrypoint | pkg/engine/engine.go:297-299 | the entrypoint argument is in the list iff the entrypoint is non-empty |
| Engine.ArgListTty | pkg/engine/engine.go:301 | the tty flags are in the list exactly as ttyToString emits them |
| Engine.ParseRefToArgs | pkg/engine/engine.go:275-311 | the rendering of the argument list, starting with `--privileged` |
| Engine.ParseRefToArgsEnvs | pkg/engine/engine.go:283-285 | every env entry is rendered |
| Engine.ParseRefToArgsVolumes | pkg/engine/engine.go:287-291 | every volume is rendered as `--volume=s:d:o` |
| Engine.ParseRefToArgsBestEffort | pkg/engine/engine.go:293-295 | every best-effort argument passes unchanged |
| Engine.ParseRefToArgsTail | pkg/engine/engine.go:303-308 | the image FQDN is followed only by the non-empty command |
| Engine.ParseRefToArgsFlags | pkg/engine/engine.go:279-299 | `--publish-all` and `--entrypoint=` are passed when asked for |
| Engine.ParseRefToArgsTerminal | pkg/engine/engine.go:301 | `--tty` and `--interactive` are passed when asked for |
| Engine.CreateArgs | pkg/engine/engine.go:165-175 | validation first: arguments iff validation passes, else its error |
| Root.SplitArgsShort | cmd/root.go:140-142 | fewer than two arguments give (nil, nil) |
| Root.SplitArgsNoDashes | cmd/root.go:144-151 | without `--`, (args[1:], nil) |
| Root.SplitArgsDashes | cmd/root.go:144-150 | both halves non-nil; cobra half, `--`, command half rebuild args[1:]; the cobra half has no `--`; the command is empty iff the first `--` is last |
| Root.DashesSplit | cmd/root.go:146-150 | with a `--` present, the list is the part before the first `--`, the `--`, then the rest |
| Root.FirstDashes | cmd/root.go:146-150 | the index of the first `--`, or the length |
| Root.ExitStatus | cmd/root.go:125-133 | a subprocess error exits with the failed process's own exit code, any other error with 1 |
| OcmContainer.ParseArgs | pkg/ocmcontainer/ocmcontainer.go:395-431 | each of the six cases of parseArgs; an error iff a cluster is given and args[0] is "_" |
| OcmContainer.DropDashes | pkg/ocmcontainer/ocmcontainer.go:422-426 | never longer than its input |
| OcmContainer.DropDashesMembers | pkg/ocmcontainer/ocmcontainer.go:422-426 | keeps exactly the arguments other than `--` |
| OcmContainer.DropDashesNone | pkg/ocmcontainer/ocmcontainer.go:422-426 | without `--` nothing is dropped |
| OcmContainer.LoneUnderscoreIsCluster | pkg/ocmcontainer/ocmcontainer.go:411-420 | example: a lone "_" is the cluster; with more arguments "_" means no cluster |
| OcmContainer.ParseArgsCommandWords | pkg/ocmcontainer/ocmcontainer.go:414-429 | without `--cluster-id` the command holds exactly the later arguments other than `--` |
| OcmContainer.NegativeName | pkg/ocmcontainer/ocmcontainer.go:538-540 | "no-" followed by the flag |
| OcmContainer.FeatureSwitch | pkg/ocmcontainer/ocmcontainer.go:519-534 | a feature is on while its `no-` flag is unset and off when it is true; the positive flag never affects it |
| Flags.ParseBool | cmd/flags.go:59-62 | strconv.ParseBool's true and false spellings; an error for any other |
| Flags.ParseFormatBool | cmd/flags.go:59-62 | ParseBool reads back FormatBool |
| Flags.BoolValue | cmd/flags.go:59-62 | true iff the default is a true spelling; false when it does not parse |
| Flags.HelpString | cmd/flags.go:64-66 | help then deprecation text, each character lower-cased, no upper-case letter left |
| Flags.HelpStringIdempotent | cmd/flags.go:64-66 | lower-casing the help string again changes nothing |
| Flags.FirstMissing | cmd/flags.go:242-246 | none iff no flag is missing; otherwise the first missing one |
| Flags.CheckFlags | cmd/flags.go:239-248 | no error for a command without requirements; otherwise an error iff a required flag is unset and empty, naming one |
| Flags.EngineCheckedFirst | cmd/flags.go:33-38 | a missing engine is reported before a missing OCM URL |
| Configure.Classify | cmd/configure.go:291-301 | skipped iff the line has no "=" or is a comment; imported iff the trimmed key is a legacy field with a value |
| Configure.ContainsChar | cmd/configure.go:292 | a one-character substring test is membership |
| Configure.TrimmedKeepsEquals | cmd/configure.go:292-294 | the export cutset never strips the "=" of a considered line |
| Configure.Scan | cmd/configure.go:290-303 | no more suspect lines than lines |
| Configure.ScanFields | cmd/configure.go:297-301 | a key is imported iff some line imports it; the last such line's value wins |
| Configure.ScanSuspect | cmd/configure.go:297-298 | a line is suspect iff some line is classified suspect with that text |
| Configure.ScanSuspectInOrder | cmd/configure.go:290-303 | the suspect list is the suspect lines in file order, each as often as it occurs (the forward filter SuspectsOf) |
| Configure.ScanFieldsLegacy | cmd/configure.go:297-301 | only legacy keys are imported |
| Configure.ParseErrorsKeyNotLegacy | cmd/configure.go:67-84 | the suspect-line key is not a legacy field |
| Configure.ReadLegacyConfig | cmd/configure.go:276-310 | the imported fields, plus the suspect key iff some line was suspect |
| Configure.ReadWellTyped | cmd/configure.go:276-310 | only the suspect key holds a list; every key is that key or a legacy field |
| Configure.ReadLegacyConfigLines | cmd/configure.go:290-307 | a key is imported iff a considered line names that field with a non-empty value; the suspect key holds exactly the other considered lines, trimmed |
| Configure.ReadLegacyConfigValue | cmd/configure.go:290-301 | the last considered line importing a key gives its value |
| Configure.ReadLegacyConfigSuspectOrder | cmd/configure.go:290-307 | the suspect key holds the suspect lines in file order, with repeats |
| Configure.SplitPair | cmd/configure.go:371-372 | the line is key, "=", value, with no "=" in the key |
| Configure.ScaryMapKeys | cmd/configure.go:369-374 | a key is scary iff a suspect line starts with it and "="; the last such line gives the value |
| Configure.ParseFields | cmd/configure.go:365-381 | the valid map is every other key, unchanged; the scary map is the split suspect lines |
| Configure.SensitiveOnlyToken | cmd/configure.go:67-84 | OFFLINE_ACCESS_TOKEN is the only sensitive legacy key |
| Configure.RedactSensitiveFields | cmd/configure.go:383-394 | same keys; exactly OFFLINE_ACCESS_TOKEN becomes "REDACTED" |
| Configure.Shown | cmd/configure.go:400-404 | the shown values keep the key set |
| Configure.EntriesAsMap | cmd/configure.go:406-408 | the entries are the entry function mapped over the walk |
| Configure.SortedEntriesMembers | cmd/configure.go:406-411 | the sorted entries are exactly the map's entries |
| Configure.FieldOptions | cmd/configure.go:396-412 | one option per field |
| Configure.FieldOptionsContents | cmd/configure.go:396-412 | sorted, and exactly the "k: v" entries with the token hidden unless shown |
| Configure.FieldOptionsOrderFree | cmd/configure.go:406-411 | the options do not depend on the map's walk order |
| Configure.RenameOnlyEngine | cmd/configure.go:612-617 | only CONTAINER_SUBSYS is renamed, to engine |
| Configure.LegacyKeysNoColon | cmd/configure.go:67-84 | no legacy key holds ":" or is "engine" |
| Configure.EntryKey | cmd/configure.go:607 | the key before the first ":" of "k: v" is k |
| Configure.Unquote | cmd/configure.go:632 | a slice of the value with only double quotes cut from either side, and no double quote left at either end |
| Strs.TrimSlice | cmd/configure.go:632 | strings.Trim keeps one slice of its input, with only cutset characters cut off around it |
| Configure.CreateConfigurationMap | cmd/configure.go:598-638 | the last option's renamed key holds that option's unquoted value; its keys and values in general are CreateConfigurationMapKeys and CreateConfigurationMapLast |
| Configure.CreateConfigurationMapKeys | cmd/configure.go:598-638 | the keys written are exactly the renamed keys of the options |
| Configure.CreateConfigurationMapLast | cmd/configure.go:612-634 | a key gets the value of the last option renaming to it (so a CONTAINER_SUBSYS option and an "engine" option collide, the later winning): valid map, then scary map, else "parseError", unquoted |
| Configure.CreateConfigurationMapValue | cmd/configure.go:623-634 | the special case of a key only one option renames to |
| Configure.SliceEntry | cmd/configure.go:527-535 | each option of the sorted slice is some valid field's entry and reads back its key |
| Configure.BuildNewConfigAssumeYes | cmd/configure.go:525-538 | no configuration iff no valid field; which keys and values it writes is AssumeYesImportsValid |
| Configure.AssumeYesImportsValid | cmd/configure.go:525-538 | with assume-yes exactly the valid fields are written, renamed, with their unquoted values |
| Configure.ViperGet | cmd/configure.go:265 | viper.Get folds the key to lower case before the lookup; an unset key prints "<nil>" |
| Configure.GetValueAsWritten | cmd/configure.go:250-274 | a single key prints REDACTED iff it is spelled exactly as a listed sensitive field (and values are hidden), otherwise its viper value |
| Configure.GetValueAsWrittenPrintsToken | cmd/configure.go:264-270 | as written, `Offline_Access_Token` prints the stored token's value |
| Configure.GetValueAsWrittenLeaks | cmd/configure.go:264-270 | as written, two stores differing only in the token give different output for `Offline_Access_Token` |
| Configure.GetValue | cmd/configure.go:250-274 | the corrected test: a single key prints REDACTED iff its lower-case fold is a sensitive field (and values are hidden), otherwise its viper value |
| Configure.GetValueHidesSensitive | cmd/configure.go:253-270 | corrected: without show-sensitive-values the output never depends on a sensitive value, whatever the key's case |
| Configure.GetValueRedacts | cmd/configure.go:264-268 | corrected: every case variant of a sensitive key on its own prints as REDACTED |
| Configure.GetValueAgrees | cmd/configure.go:264-270 | with show-sensitive-values, or for a key that is sensitive in no case variant, the corrected and as-written outputs agree |
| Logger.ParseLogLevel | pkg/log/logger.go:38-55 | the six names; any other gives Warn with the invalid-level error |
| Logger.ParseLevelName | pkg/log/logger.go:38-51 | every level's name parses back to it |
| Logger.SetLogLevel | pkg/log/logger.go:25-36 | `log-level` before `log.level`; Warn with neither |
| Logger.InitializeLogger | pkg/log/logger.go:10-23 | a level error leaves the logger unchanged; otherwise no timestamps, colours per NoColor, the level |
| Logger.DefaultLevelIsWarn | pkg/log/logger.go:34-35 | naming no level logs at Warn without error |
| Logger.FlagHidesConfig | pkg/log/logger.go:27-29 | any valid `log-level` sets the level it names, whatever `log.level` holds |
| Ocm.Url | pkg/ocm/ocm.go:193-195 | an alias maps to one of the four API URLs; anything else to "" |
| Ocm.Alias | pkg/ocm/ocm.go:199-201 | non-empty exactly for the four API URLs |
| Ocm.UrlFixesCanonical | pkg/ocm/ocm.go:51-67 | each API URL is its own alias |
| Ocm.AliasRoundTrip | pkg/ocm/ocm.go:36-67 | url(alias(u)) == u; each help-text alias resolves and is the short alias of its URL |
| Ocm.ShortUrlKeys | pkg/ocm/ocm.go:44-67 | the short-alias keys and the alias targets are exactly the four API URLs |
| Ocm.CachedConfigName | pkg/ocm/ocm.go:250 | the copy is named ocm.json.ocm-container.<short alias> beside the original |
| Ocm.ChooseUrl | pkg/ocm/ocm.go:95-105 | $OCM_CONFIG keeps the loaded URL; otherwise `--ocm-url` through the alias table |
| ContainerEnvs.EnvName | pkg/ocmcontainer/envs.go:46-47 | `OCMC_` in front, then each character of the key upper-cased, with dashes turned into underscores |
| ContainerEnvs.LoopKeys | pkg/ocmcontainer/envs.go:43-60 | the variables are the starting ones plus one per rendered key |
| ContainerEnvs.LoopLastWins | pkg/ocmcontainer/envs.go:43-60 | a variable holds the value of the last key that sets it |
| ContainerEnvs.LoopKeeps | pkg/ocmcontainer/envs.go:43-60 | a variable no key sets keeps its value |
| ContainerEnvs.OcmContainerEnvs | pkg/ocmcontainer/envs.go:26-66 | INITIAL_CLUSTER_LOGIN is always present |
| ContainerEnvs.EnvsKeys | pkg/ocmcontainer/envs.go:26-66 | the variables are exactly USER, INITIAL_CLUSTER_LOGIN and the names of the keys not skipped |
| ContainerEnvs.EnvsUser | pkg/ocmcontainer/envs.go:36 | USER is always present and empty |
| ContainerEnvs.NotPrefixed | pkg/ocmcontainer/envs.go:46 | no generated name is USER or INITIAL_CLUSTER_LOGIN |
| ContainerEnvs.EnvsValue | pkg/ocmcontainer/envs.go:51-59 | a key not skipped sets its variable to its bool or string text |
| ContainerEnvs.EnvsInitialLogin | pkg/ocmcontainer/envs.go:63 | INITIAL_CLUSTER_LOGIN copies OCMC_CLUSTER_ID, or is "" |
| ClusterEnv.Families | pkg/ocmcontainer/cluster.go:104-132 | base, hive and hosted-control-plane names are told apart |
| ClusterEnv.AwsEnv | pkg/ocmcontainer/cluster.go:111-116 | private link only on AWS; STS only "true", only on AWS with a role ARN |
| ClusterEnv.PlatformEnv | pkg/ocmcontainer/cluster.go:120-132 | hive details win; without them MC_ID, SC_ID, HC_NS, HCP_NS and KUBELET_NS carry the management cluster, service cluster, namespace, HCP namespace and kubelet namespace; nothing when both are empty |
| ClusterEnv.BaseEnv | pkg/ocmcontainer/cluster.go:104-118 | the seven base variables from the record, UID equal to ID |
| ClusterEnv.PlatformFamily | pkg/ocmcontainer/cluster.go:120-132 | platform variables never clash with base ones |
| ClusterEnv.PopulateClusterEnv | pkg/ocmcontainer/cluster.go:100-135 | the keys are the base, AWS and platform keys |
| ClusterEnv.PopulateBase | pkg/ocmcontainer/cluster.go:104-118 | the base variables keep the record's values |
| ClusterEnv.PopulateAws | pkg/ocmcontainer/cluster.go:111-116 | private link and STS as the AWS block says |
| ClusterEnv.PopulateHive | pkg/ocmcontainer/cluster.go:120-124 | a hive cluster gets HIVE_NAME/HIVE_NS and no HCP variable |
| ClusterEnv.PopulateHcp | pkg/ocmcontainer/cluster.go:125-132 | without a hive, the HCP variables appear iff some HCP detail is non-empty |
| ClusterEnv.PopulateHcpValues | pkg/ocmcontainer/cluster.go:125-132 | without a hive, each HCP variable of the cluster environment holds its HCP detail |
| ClusterEnv.MatchKeySpec | pkg/ocmcontainer/cluster.go:246 | `^(\w\|-)+$` holds iff non-empty and every character is a letter, digit, `_` or `-` |
| ClusterEnv.IsValidClusterKey | pkg/ocmcontainer/cluster.go:249-251 | true iff the key matches the pattern |
| Subprocess.ErrorText | pkg/subprocess/subprocess.go:21-30 | never longer than the standard error; unchanged when no affix matches |
| Subprocess.ErrorTextFraming | pkg/subprocess/subprocess.go:25-29 | the standard error is "Error: ", "error: ", the text and "\n", each affix present iff it was there to remove, taken in that order |
| Subprocess.DoubleFraming | pkg/subprocess/subprocess.go:26-28 | example: "Error: error: x\n" reports "x" |
| Features.NewOptionSet | pkg/features/feature.go:13-18 | no mounts, envs, ports or hooks |
| Features.AddVolumeMount | pkg/features/feature.go:20-22 | one more mount, last; the earlier ones and the rest unchanged |
| Features.AddVolumeMountsInOrder | pkg/features/feature.go:20-22 | repeated additions append in order |
| Features.AddEnvKey | pkg/features/jira/jira.go:125 | appends a pass-through entry; nothing else changes |
| Features.AddEnvKeyVal | pkg/features/jira/jira.go:129 | appends a fixed-value entry; nothing else changes |
| Features.AddEnv | pkg/features/persistent-histories/persistent-histories.go:122-139 | appends one entry, last; nothing else changes |
| Features.RegisterPortMap | pkg/features/ports/ports.go:122-125 | the new ports are added and win on a name clash |
| Features.RegisterPostStartExecHook | pkg/features/ports/ports.go:127 | appends one hook, last; nothing else changes |
| Features.Configure | pkg/features/jira/jira.go:93-113 | defaults without the section; with it userHasConfig, then the decoder's error or the validated configuration |
| Features.FlagEnabled | pkg/features/gcloud/gcloud.go:60-68 | on iff enabled and the flag is not set, whatever its value |
| Features.StatFileLocations | pkg/features/jira/jira.go:165-187 | empty path error; as given, then HOME+"/"+path; else "could not find" listing both |
| Features.StatStorageDir | pkg/features/image-cache/image-cache.go:115-147 | empty path error; the first existing candidate must be a directory; else "could not find" listing both |
| Features.MountExisting | pkg/features/legacy-aws-credentials/legacy-aws-credentials.go:88-100 | each mount is read-only with an existing source; no more mounts than files |
| Features.MountExistingTwo | pkg/features/legacy-aws-credentials/legacy-aws-credentials.go:88-100 | each of two files is mounted iff it exists, in order |
| Features.HandleError | pkg/features/gcloud/gcloud.go:114-119 | a warning iff the user configured the feature; the debug line always, last |
| JiraFeature.Validate | pkg/features/jira/jira.go:48-57 | accepts exactly ro and rw |
| JiraFeature.Configure | pkg/features/jira/jira.go:93-113 | defaults (true, .config/.jira/.config.yml, ro) without the section; an accepted configuration is ro or rw |
| JiraFeature.Enabled | pkg/features/jira/jira.go:71-79 | enabled and no `no-jira` flag |
| JiraFeature.Mounting | pkg/features/jira/jira.go:119-143 | the token entries as the host environment has them, even on a failed lookup; one mount iff the file is found |
| JiraFeature.InitializeAsWritten | pkg/features/jira/jira.go:133-140 | a mount with empty options |
| JiraFeature.MountOptionsDropped | pkg/features/jira/jira.go:137-140 | a configured "rw" does not reach the mount |
| JiraFeature.Initialize | pkg/features/jira/jira.go:119-143 | success iff the file is found; one mount at the jira config path, with the configured options |
| JiraFeature.AcceptedMountsRoOrRw | pkg/features/jira/jira.go:48-57 | after an accepted Configure every mount is ro or rw |
| OsdctlFeature.Validate | pkg/features/osdctl/osdctl.go:40-48 | both options ro or rw, config checked first, each with its message |
| OsdctlFeature.Configure | pkg/features/osdctl/osdctl.go:83-104 | defaults (.config/osdctl, .vault-token, ro, rw); an accepted configuration is valid |
| OsdctlFeature.Enabled | pkg/features/osdctl/osdctl.go:58-77 | enabled, no flag, user configuration and a config file |
| OsdctlFeature.Initialize | pkg/features/osdctl/osdctl.go:106-139 | a missing config file errors with no mounts and is critical for a configuring user; config mount first, token mount only when found |
| OsdctlFeature.CriticalIffUserConfig | pkg/features/osdctl/osdctl.go:109-118 | from a fresh feature, critical iff Initialize failed and the user configured it |
| BackplaneFeature.Configure | pkg/features/backplane/backplane.go:62-83 | defaults (true, .config/backplane/config.json); never a validation error |
| BackplaneFeature.Enabled | pkg/features/backplane/backplane.go:46-56 | enabled and no `no-backplane` flag |
| BackplaneFeature.ConfigPath | pkg/features/backplane/backplane.go:91-102 | a non-empty BACKPLANE_CONFIG as is, else the file lookup |
| BackplaneFeature.Initialize | pkg/features/backplane/backplane.go:85-120 | success iff the chosen file exists; then one env entry and one rw mount at /root/.config/backplane/config.json; a failure adds nothing |
| ImageCacheFeature.Configure | pkg/features/image-cache/image-cache.go:64-85 | defaults (false, .config/ocm-container/images) |
| ImageCacheFeature.Enabled | pkg/features/image-cache/image-cache.go:48-58 | enabled and no `no-image-cache` flag |
| ImageCacheFeature.Initialize | pkg/features/image-cache/image-cache.go:87-103 | one rw mount of the found directory; a failure is wrapped and is critical iff the candidate is not a directory |
| ImageCacheFeature.NotFoundNotCritical | pkg/features/image-cache/image-cache.go:144-146 | neither candidate existing names both and leaves the flag as it was |
| HistoriesFeature.Configure | pkg/features/persistent-histories/persistent-histories.go:72-93 | defaults (false, .config/ocm-container/per-cluster-persistent) |
| HistoriesFeature.Enabled | pkg/features/persistent-histories/persistent-histories.go:50-66 | enabled, no flag, and a set, non-empty cluster-id |
| HistoriesFeature.Initialize | pkg/features/persistent-histories/persistent-histories.go:95-142 | an empty cluster-id fails first; only a mkdir failure is critical; success gives the rw per-cluster mount and HISTFILE |
| HistoriesFeature.NotDirNotCritical | pkg/features/persistent-histories/persistent-histories.go:154-185 | a non-directory storage path is an ordinary error |
| PersonalizationFeature.Validate | pkg/features/personalization/personalization.go:34-39 | accepts exactly ro and rw |
| PersonalizationFeature.Configure | pkg/features/personalization/personalization.go:73-94 | defaults (true, "", ro); an accepted configuration is ro or rw |
| PersonalizationFeature.Enabled | pkg/features/personalization/personalization.go:48-67 | enabled, no flag, user configuration and a source |
| PersonalizationFeature.IsDirectory | pkg/features/personalization/personalization.go:133-139 | an error iff the path is missing; true iff it is a directory |
| PersonalizationFeature.Initialize | pkg/features/personalization/personalization.go:96-122 | a directory goes to personalizations.d, a file to its personalizations.sh; a missing source adds nothing |
| GcloudFeature.Validate | pkg/features/gcloud/gcloud.go:36-51 | accepts exactly the eight listed options |
| GcloudFeature.Configure | pkg/features/gcloud/gcloud.go:74-95 | defaults (true, .config/gcloud, ro); an accepted configuration has a valid option |
| GcloudFeature.Enabled | pkg/features/gcloud/gcloud.go:60-68 | enabled and no `no-gcloud` flag |
| GcloudFeature.Initialize | pkg/features/gcloud/gcloud.go:97-112 | one mount of the found directory, always at /root/.config/gcloud |
| OpsUtilsFeature.Validate | pkg/features/ops-utils/ops-utils.go:34-39 | accepts exactly ro and rw |
| OpsUtilsFeature.Configure | pkg/features/ops-utils/ops-utils.go:73-94 | defaults (true, "", ro); an accepted configuration is ro or rw |
| OpsUtilsFeature.Enabled | pkg/features/ops-utils/ops-utils.go:48-67 | enabled, no flag, user configuration and a source directory |
| OpsUtilsFeature.Initialize | pkg/features/ops-utils/ops-utils.go:96-114 | the directory as configured, no HOME fallback; one mount at /root/ops-utils |
| PagerdutyFeature.Validate | pkg/features/pagerduty/pagerduty.go:36-45 | accepts exactly ro and rw |
| PagerdutyFeature.StatConfigFileLocations | pkg/features/pagerduty/pagerduty.go:89-114 | as given, under HOME, then the XDG search; the error lists all three |
| PagerdutyFeature.Initialize | pkg/features/pagerduty/pagerduty.go:57-80 | validation before lookup; one mount of the found file with the configured option |
| CertificateAuthoritiesFeature.Configure | pkg/features/certificate-authorities/certificate-authorities.go:58-79 | defaults (true, the anchors path) |
| CertificateAuthoritiesFeature.Enabled | pkg/features/certificate-authorities/certificate-authorities.go:44-52 | enabled and no flag |
| CertificateAuthoritiesFeature.Initialize | pkg/features/certificate-authorities/certificate-authorities.go:81-97 | success iff the source exists; one ro mount at the anchors path |
| LegacyAwsFeature.Configure | pkg/features/legacy-aws-credentials/legacy-aws-credentials.go:57-78 | defaults (true) |
| LegacyAwsFeature.Enabled | pkg/features/legacy-aws-credentials/legacy-aws-credentials.go:43-51 | enabled and no flag |
| LegacyAwsFeature.Initialize | pkg/features/legacy-aws-credentials/legacy-aws-credentials.go:80-103 | only an empty HOME fails; credentials then config, each iff it exists, read-only |
| PortsFeature.Configure | pkg/features/ports/ports.go:87-113 | defaults (true, console on port 9999) |
| PortsFeature.Enabled | pkg/features/ports/ports.go:65-73 | enabled and no flag |
| PortsFeature.Initialize | pkg/features/ports/ports.go:119-147 | never fails; the port map is exactly console and the port; exactly one hook |
| PortsFeature.RunHook | pkg/features/ports/ports.go:127-143 | an Inspect failure is passed on; otherwise the /tmp/portmap command with the host port |
| PortsFeature.HandleError | pkg/features/ports/ports.go:152-165 | one line: a warning iff the user configured the feature |
| ClusterEnvsFeature.Configure | pkg/features/additional-cluster-envs/additional-cluster-envs.go:80-101 | defaults (true); userHasConfig iff the section is set |
| ClusterEnvsFeature.Enabled | pkg/features/additional-cluster-envs/additional-cluster-envs.go:52-66 | off without cluster-id; otherwise enabled and no flag |
| FeatureSet.BoolToMountOpt | pkg/featureSet/jira/jira.go:91-96 | rw iff true, ro iff false |
| LegacyJira.New | pkg/featureSet/jira/jira.go:27-86 | the jira directory mount always; both variables copied; else the token file, bearer, and an error for any failure or empty token |
| LegacyPersonalization.New | pkg/featureSet/personalization/personalization.go:18-44 | a missing source errors with no mounts; a directory or a file mount with the switch's option |
| LegacyAws.New | pkg/featureSet/aws/aws.go:20-39 | never an error; each file mounted read-only iff it exists, credentials first |
| LegacyCertificateAuthorities.New | pkg/featureSet/certificateAuthorities/certificateAuthorities.go:18-42 | an empty path means the anchors path; one ro mount at the anchors path iff it exists |
| LegacyGcloud.New | pkg/featureSet/gcloud/gcloud.go:20-41 | never an error; no mounts, or config ro then logs rw |
| LegacyPagerduty.New | pkg/featureSet/pagerduty/pagerduty.go:20-39 | the token path always; one mount iff it exists |
| LegacyOsdctl.New | pkg/featureSet/osdctl/osdctl.go:13-24 | the osdctl directory, read-only, never an error |
| LegacyHistories.NewAsWritten | pkg/featureSet/persistentHistories/persistentHistories.go:22-42 | a mkdir error is returned; otherwise the call panics |
| LegacyHistories.New | pkg/featureSet/persistentHistories/persistentHistories.go:22-42 | always returns mkdir's error; success gives HISTFILE and the rw mount |
| LegacyHistories.SuccessPanics | pkg/featureSet/persistentHistories/persistentHistories.go:39 | when mkdir succeeds the code as written panics and the corrected one returns |
| LegacyHistories.DeprecatedConfig | pkg/featureSet/persistentHistories/persistentHistories.go:44-53 | on iff PERSISTENT_CLUSTER_HISTORIES is non-empty |
| LegacyImages.New | pkg/featureSet/persistentImages/persistentImages.go:21-45 | the client error first, then mkdir's; success gives the rw image-store mount |
| BackplanePkg.Source | pkg/backplane/backplane.go:23-26 | a non-empty BACKPLANE_CONFIG, else the file under HOME |
| BackplanePkg.New | pkg/backplane/backplane.go:20-42 | failure: nil env, no mounts; success: the relative BACKPLANE_CONFIG and one rw mount |
| PagerdutyPkg.New | pkg/pagerduty/pagerduty.go:20-39 | the token path always; the ro mount iff it exists |
| Scratch.New | pkg/scratch/scratch.go:18-35 | a missing source errors with no mounts; else one mount at /root/scratch with the switch's option |

## Findings

| source | as written | input that shows it | evidently intended | confidence | as-written member | corrected member |
|---|---|---|---|---|---|---|
| pkg/features/jira/jira.go:137-140 | the config-file mount is built with only Source and Destination, so its options are empty although `validate` accepts only ro or rw | config_file "/cfg.yml" (an existing file), config_mount "rw" | the mount carries the validated config_mount | medium, not executed | JiraFeature.InitializeAsWritten, JiraFeature.MountOptionsDropped | JiraFeature.Initialize |
| pkg/featureSet/persistentHistories/persistentHistories.go:39 | HISTFILE is stored into `config.Env`, a map that was never allocated (line 25), which is a runtime panic | any HOME and cluster id for which MkdirAll succeeds | return the rw mount and HISTFILE in an allocated map | high, not executed | LegacyHistories.NewAsWritten, LegacyHistories.SuccessPanics | LegacyHistories.New |
| cmd/configure.go:265-266 | `viper.Get(k)` looks the key up case-insensitively, but the redaction test compares `k` verbatim with the two listed spellings | `configure get Offline_Access_Token` with a stored offline_access_token | a key is redacted in every spelling viper resolves to a sensitive field | medium, not executed | Configure.GetValueAsWritten, Configure.GetValueAsWrittenLeaks | Configure.GetValue, Configure.GetValueHidesSensitive |

## Left out

- Process execution: `Engine.exec`, Start/Attach/Exec/Copy/Inspect/Run/Version, the subprocess runners and dry-run printing, and `cmd/build.go`. These are I/O plumbing. The container runtime's Inspect is a parameter of `PortsFeature.RunHook`.
- Goroutines and channels: `ExecPostRunNonBlockingCmds` and `BackgroundExecWithChan`.
- The configure TUI: the huh prompts, the interactive `buildNewConfig` loop and `viper.WriteConfig`.
- `os.ExpandEnv` in configure: lines are taken as already expanded. The "="/"#" filter is applied to the expanded line, while the source filters before expanding.
- The OCM SDK and network: `ocm.New` beyond its URL choice (`Ocm.ChooseUrl`), NewClient, GetCluster, GetClusterId, `save`'s file I/O (only its file name is modelled), GetHcp, GetHive, getCluster, and `pkg/utils/version.go`.
- `ClusterEnvsFeature`: its `Initialize`, `findHyperShiftInfo` and `HandleError` need OCM.
- HTTP, JSON and hashing in `github_dl.py`: responses, parsed bodies, UTF-8 decoding and digests are oracles.
- The algorithm hint in `github_dl.py` follows the code: only a lower-case "sum" is removed before lower-casing. The specification describes the suffix removal as case-insensitive.
- `pkg/engine/engineCommands.go`: it redefines methods of `engine.go` with symbols that exist nowhere else, and it is process wrappers only.
- `pkg/persistentHistories/persistentHistories.go` (the OCM-backed variant), `pkg/jira/jira.go`, `pkg/gcloud/gcloud.go` and `pkg/osdctl/osdctl.go`. They need OCM, depend on a discarded decode error, or are constant literals. Their `featureSet` counterparts are modelled.
- The feature registrar's flag table, `deprecation.Print`/`Message`, and the flags' `deprecationMsg` printing. These are console output only.
- cobra and viper wiring: `init`, `initConfig`, and checkFlags' flag binding with `os.Exit`. Viper is a flat store of set keys with string and bool values. Its keys are case-insensitive: viper folds a key to lower case when it stores or looks it up, so the settings that `configure get` reads are a lower-keyed map (`Configure.LowerKeyed`).
- Logging everywhere (`log.*`, `fmt.Print*`), including the warnings of the legacy gcloud and aws constructors.
- `AddEnvKey`, `AddEnvKeyVal`, `AddEnv`, `RegisterPortMap` and `RegisterPostStartExecHook` are modelled from their use by the features. They are not defined in `pkg/features/feature.go`.
- A hook is only the ports feature's console-port lookup, because that is the only hook registered.
- Decoding of a feature's configuration section is an input (`Result<Config>`): the defaults overlaid with the section's values, or the decoder's error.
- The pagerduty feature's XDG lookup is an oracle.
- Host.PathJoin: a simplified filepath.Join (join with "/" and drop an empty side, no Clean).
- LegacyHistories.SourceDir and LegacyImages.SourceDir: the cleaned join of HOME with the slashed subdirectory constants is written out for a HOME and a cluster id that are already clean; a HOME ending in "/" or holding "..", and a cluster id holding "/", "." or ".." (the raw positional cluster argument reaches this path unchecked), are not cleaned further.
- Strs.ToLower and Strs.ToUpper: ASCII only, where Go and Python map all of Unicode.
- Go's map iteration order: an explicit key listing.
- Panics that the code can reach are preconditions: a non-bool, non-string configuration value in ocmContainerEnvs, and a legacy-data value of the wrong type.
- `LegacyJira.New`: does not model the panic when the token file's "token" is missing or is not a string.
- `GcloudFeature.Validate`: does not state the rejection message, only that there is one.
- Test files from another revision: where they disagree with the source, the source is followed. Examples are the jira z/Z options, the ports `port` key and the engine test's empty vector.

=== FILE: clusterenv.dfy ===
/** The cluster variables handed to the container, from the cluster record and the hive
    or hosted-control-plane details, and the check on a cluster identifier typed by the
    user. Fetching these from OCM is not modelled. */
module ClusterEnv {
  import opened Wrappers
  import opened Strs

  datatype Aws = Aws(privateLink: bool, stsRoleArn: string)

  /** The fields of the OCM cluster record that are read. */
  datatype ClusterInfo = ClusterInfo(
    id: string,
    name: string,
    baseDomain: string,
    externalId: string,
    cloudProvider: string,
    aws: Option<Aws>,
    ccs: bool)

  datatype Hcp = Hcp(managementCluster: string, serviceCluster: string, namespace: string, hcpNamespace: string, kubeletNamespace: string)

  datatype Hive = Hive(name: string, namespace: string)

  const BaseKeys: set<string> :=
    {"CLUSTER_ID", "CLUSTER_UID", "CLUSTER_NAME", "CLUSTER_BASEDOMAIN", "CLUSTER_UUID", "CLUSTER_CLOUD_PROVIDER", "CLUSTER_CCS"}
  const HiveKeys: set<string> := {"HIVE_NAME", "HIVE_NS"}
  const HcpKeys: set<string> := {"MC_ID", "SC_ID", "HC_NS", "HCP_NS", "KUBELET_NS"}

  /** Which group a variable name belongs to, told apart by its first letters: cluster
      variables, hive variables, hosted-control-plane variables. */
  function Family(k: string): nat {
    if |k| > 0 && k[0] == 'C' then 0
    else if |k| > 1 && k[0] == 'H' && k[1] == 'I' then 1
    else 2
  }

  lemma Families()
    ensures forall k :: k in BaseKeys ==> Family(k) == 0
    ensures Family("CLUSTER_PRIVATE_LINK") == 0 && Family("CLUSTER_STS") == 0
    ensures forall k :: k in HiveKeys ==> Family(k) == 1
    ensures forall k :: k in HcpKeys ==> Family(k) == 2
  {
  }

  /** The AWS block is read only for clusters on AWS. */
  predicate OnAws(c: ClusterInfo) {
    c.cloudProvider == "aws" && c.aws.Some?
  }

  function AwsEnv(c: ClusterInfo): (m: map<string, string>)
    ensures m.Keys <= {"CLUSTER_PRIVATE_LINK", "CLUSTER_STS"}
    ensures "CLUSTER_PRIVATE_LINK" in m <==> OnAws(c)
    ensures "CLUSTER_STS" in m <==> OnAws(c) && c.aws.value.stsRoleArn != ""
    ensures "CLUSTER_STS" in m ==> m["CLUSTER_STS"] == "true"
    ensures OnAws(c) ==> m["CLUSTER_PRIVATE_LINK"] == FormatBool(c.aws.value.privateLink)
  {
    if OnAws(c) then
      map["CLUSTER_PRIVATE_LINK" := FormatBool(c.aws.value.privateLink)] +
      (if c.aws.value.stsRoleArn != "" then map["CLUSTER_STS" := "true"] else map[])
    else map[]
  }

  /** Hive details win over hosted-control-plane ones; all-empty details add nothing. */
  function PlatformEnv(hcp: Hcp, hive: Hive): (m: map<string, string>)
    ensures hive != Hive("", "") ==> m == map["HIVE_NAME" := hive.name, "HIVE_NS" := hive.namespace]
    ensures hive == Hive("", "") && hcp != Hcp("", "", "", "", "") ==> m.Keys == HcpKeys
    ensures hive == Hive("", "") && hcp != Hcp("", "", "", "", "") ==>
      && m["MC_ID"] == hcp.managementCluster && m["SC_ID"] == hcp.serviceCluster
      && m["HC_NS"] == hcp.namespace && m["HCP_NS"] == hcp.hcpNamespace
      && m["KUBELET_NS"] == hcp.kubeletNamespace
    ensures hive == Hive("", "") && hcp == Hcp("", "", "", "", "") ==> m == map[]
  {
    if hive != Hive("", "") then map["HIVE_NAME" := hive.name, "HIVE_NS" := hive.namespace]
    else if hcp != Hcp("", "", "", "", "") then
      map["MC_ID" := hcp.managementCluster, "SC_ID" := hcp.serviceCluster, "HC_NS" := hcp.namespace,
          "HCP_NS" := hcp.hcpNamespace, "KUBELET_NS" := hcp.kubeletNamespace]
    else map[]
  }

  /** The variables every cluster gets; UID repeats the ID and UUID is the external ID. */
  function BaseEnv(c: ClusterInfo): (m: map<string, string>)
    ensures m.Keys == BaseKeys
    ensures m["CLUSTER_ID"] == c.id && m["CLUSTER_UID"] == c.id
    ensures m["CLUSTER_NAME"] == c.name && m["CLUSTER_BASEDOMAIN"] == c.baseDomain
    ensures m["CLUSTER_UUID"] == c.externalId && m["CLUSTER_CLOUD_PROVIDER"] == c.cloudProvider
    ensures m["CLUSTER_CCS"] == FormatBool(c.ccs)
  {
    map["CLUSTER_ID" := c.id, "CLUSTER_UID" := c.id, "CLUSTER_NAME" := c.name,
        "CLUSTER_BASEDOMAIN" := c.baseDomain, "CLUSTER_UUID" := c.externalId,
        "CLUSTER_CLOUD_PROVIDER" := c.cloudProvider, "CLUSTER_CCS" := FormatBool(c.ccs)]
  }

  lemma PlatformFamily(hcp: Hcp, hive: Hive)
    ensures forall k :: k in PlatformEnv(hcp, hive) ==> Family(k) != 0
  {
    Families();
  }

  /** populateClusterEnv */
  function PopulateClusterEnv(c: ClusterInfo, hcp: Hcp, hive: Hive): (m: map<string, string>)
    ensures BaseKeys <= m.Keys
    ensures m.Keys == BaseKeys + AwsEnv(c).Keys + PlatformEnv(hcp, hive).Keys
  {
    BaseEnv(c) + AwsEnv(c) + PlatformEnv(hcp, hive)
  }

  /** The base variables always carry the record's values: nothing added later overwrites them. */
  lemma PopulateBase(c: ClusterInfo, hcp: Hcp, hive: Hive)
    ensures var m := PopulateClusterEnv(c, hcp, hive);
      forall k :: k in BaseKeys ==> m[k] == BaseEnv(c)[k]
  {
    PlatformFamily(hcp, hive);
    Families();
    assert AwsEnv(c).Keys !! BaseKeys;
  }

  /** Private-link and STS appear only for AWS clusters, STS only as "true" and only with a
      role ARN. */
  lemma PopulateAws(c: ClusterInfo, hcp: Hcp, hive: Hive)
    ensures var m := PopulateClusterEnv(c, hcp, hive);
      && ("CLUSTER_PRIVATE_LINK" in m <==> OnAws(c))
      && ("CLUSTER_STS" in m <==> OnAws(c) && c.aws.value.stsRoleArn != "")
      && ("CLUSTER_STS" in m ==> m["CLUSTER_STS"] == "true")
  {
    PlatformFamily(hcp, hive);
    assert Family("CLUSTER_STS") == 0 && Family("CLUSTER_PRIVATE_LINK") == 0;
  }

  /** A hive cluster gets the hive variables and never hosted-control-plane ones. */
  lemma PopulateHive(c: ClusterInfo, hcp: Hcp, hive: Hive)
    requires hive != Hive("", "")
    ensures var m := PopulateClusterEnv(c, hcp, hive);
      m.Keys !! HcpKeys && HiveKeys <= m.Keys && m["HIVE_NAME"] == hive.name && m["HIVE_NS"] == hive.namespace
  {
    var p := PlatformEnv(hcp, hive);
    var m := PopulateClusterEnv(c, hcp, hive);
    assert p.Keys == HiveKeys;
    assert m == (BaseEnv(c) + AwsEnv(c)) + p;
    assert m["HIVE_NAME"] == p["HIVE_NAME"] && m["HIVE_NS"] == p["HIVE_NS"];
    Families();
    assert m.Keys == BaseKeys + AwsEnv(c).Keys + HiveKeys;
  }

  /** Without a hive, the hosted-control-plane variables appear exactly when some plane
      detail is set, and the hive variables never do. */
  lemma PopulateHcp(c: ClusterInfo, hcp: Hcp, hive: Hive)
    requires hive == Hive("", "")
    ensures var m := PopulateClusterEnv(c, hcp, hive);
      && m.Keys !! HiveKeys
      && (hcp != Hcp("", "", "", "", "") <==> HcpKeys <= m.Keys)
  {
    Families();
    assert "MC_ID" in HcpKeys;
  }

  /** Without a hive, each hosted-control-plane variable carries its detail into the
      cluster environment. */
  lemma PopulateHcpValues(c: ClusterInfo, hcp: Hcp, hive: Hive)
    requires hive == Hive("", "") && hcp != Hcp("", "", "", "", "")
    ensures var m := PopulateClusterEnv(c, hcp, hive);
      && m["MC_ID"] == hcp.managementCluster && m["SC_ID"] == hcp.serviceCluster
      && m["HC_NS"] == hcp.namespace && m["HCP_NS"] == hcp.hcpNamespace
      && m["KUBELET_NS"] == hcp.kubeletNamespace
  {
    var p := PlatformEnv(hcp, hive);
    assert p.Keys == HcpKeys;
    assert PopulateClusterEnv(c, hcp, hive) == (BaseEnv(c) + AwsEnv(c)) + p;
  }

  /** The characters of `\w` in Go's regexp, plus the dash. */
  predicate KeyChar(ch: char) {
    ('0' <= ch <= '9') || ('A' <= ch <= 'Z') || ('a' <= ch <= 'z') || ch == '_' || ch == '-'
  }

  /** Matching `^(\w|-)+$`: one or more key characters, scanned left to right. */
  function MatchKey(s: string): (r: bool)
    decreases |s|
  {
    |s| > 0 && KeyChar(s[0]) && (|s| == 1 || MatchKey(s[1..]))
  }

  /** isValidClusterKey holds exactly for non-empty keys made only of letters, digits,
      underscores and dashes. */
  lemma {:induction false} MatchKeySpec(s: string)
    ensures MatchKey(s) <==> |s| > 0 && forall i :: 0 <= i < |s| ==> KeyChar(s[i])
    decreases |s|
  {
    if |s| > 1 {
      MatchKeySpec(s[1..]);
      assert forall i :: 1 <= i < |s| ==> s[1..][i - 1] == s[i];
    }
  }

  function IsValidClusterKey(key: string): (r: bool)
    ensures r ==> |key| > 0
    ensures r <==> MatchKey(key)
  {
    MatchKey(key)
  }
}

=== FILE: configure.dfy ===
/** Importing the legacy `env.source` file into the new configuration: classifying its
    `KEY=value` lines, splitting valid from suspect fields, redaction, the sorted option
    lists, and the configuration map built in the non-interactive (assume-yes) run. The
    interactive prompts are not modelled. */
module Configure {
  import opened Wrappers
  import opened Strs
  import Sorting
  import opened Maps

  /** What the program knows about a key of the legacy file. */
  datatype LegacyField = LegacyField(name: string, sensitive: bool, deprecated: bool)

  const LegacyFields: map<string, LegacyField> := map[
    "BACKPLANE_CONFIG_DIR" := LegacyField("BACKPLANE_CONFIG_DIR", false, true),
    "CA_SOURCE_ANCHORS" := LegacyField("CA_SOURCE_ANCHORS", false, false),
    "CLI" := LegacyField("CLI", false, true),
    "CONTAINER_SUBSYS" := LegacyField("engine", false, false),
    "DISABLE_SSH_MULTIPLEXING" := LegacyField("DISABLE_SSH_MULTIPLEXING", false, true),
    "OCM_URL" := LegacyField("OCM_URL", false, true),
    "OCM_USER" := LegacyField("OCM_USER", false, true),
    "OFFLINE_ACCESS_TOKEN" := LegacyField("OFFLINE_ACCESS_TOKEN", true, false),
    "OPS_UTILS_DIR" := LegacyField("OPS_UTILS_DIR", false, false),
    "OPS_UTILS_DIR_RW" := LegacyField("OPS_UTILS_DIR_RW", false, false),
    "PATH" := LegacyField("PATH", false, false),
    "PERSISTENT_CLUSTER_HISTORIES" := LegacyField("PERSISTENT_CLUSTER_HISTORIES", false, false),
    "PERSONALIZATION_FILE" := LegacyField("PERSONALIZATION_FILE", false, false),
    "SCRATCH_DIR" := LegacyField("SCRATCH_DIR", false, false),
    "SSH_AUTH_SOCK" := LegacyField("SSH_AUTH_SOCK", false, true)]

  /** The keys whose values `configure get` hides. */
  const SensitiveDataFields: seq<string> := ["offline_access_token", "OFFLINE_ACCESS_TOKEN"]

  /** The key under which the suspect lines are kept in the legacy data. */
  const ParseErrorsKey := "potentialParseErrors"

  const Redacted := "REDACTED"

  /** A value of Go's `map[string]any` as the legacy data uses it. */
  datatype Any = Str(s: string) | Lines(lines: seq<string>)

  /** The characters `strings.TrimLeft(line, "export ")` strips: a cutset, not a prefix. */
  const ExportCutset: set<char> := {'e', 'x', 'p', 'o', 'r', 't', ' '}

  /** A line is looked at only if it holds an "=" and is not a comment. */
  predicate Considered(line: string) {
    Contains(line, "=") && !HasPrefix(line, "#")
  }

  function Trimmed(line: string): string {
    TrimLeft(line, ExportCutset)
  }

  /** The part before the first "=", and the part after it ("" when there is no "="). */
  function KeyOf(line: string): string {
    Cut(Trimmed(line), '=').0
  }

  function ValueOf(line: string): string {
    Cut(Trimmed(line), '=').1.GetOr("")
  }

  /** A considered line is imported when its key is a legacy field and its value is set. */
  predicate Accepted(line: string) {
    KeyOf(line) in LegacyFields && ValueOf(line) != ""
  }

  lemma {:induction false} ContainsChar(s: string, c: char)
    ensures Contains(s, [c]) <==> c in s
    decreases |s|
  {
    if |s| > 0 {
      ContainsChar(s[1..], c);
      assert s == [s[0]] + s[1..];
    }
  }

  /** Trimming the export cutset never removes the "=" of a considered line. */
  lemma TrimmedKeepsEquals(line: string)
    requires Considered(line)
    ensures '=' in Trimmed(line)
  {
    ContainsChar(line, '=');
    var t := Trimmed(line);
    var i :| 0 <= i < |line| && line[i] == '=';
    assert '=' !in ExportCutset;
    assert i >= |line| - |t|;
    assert t[i - (|line| - |t|)] == '=';
  }

  /** What the scanner loop does with one line. */
  datatype LineKind = Skipped | Imported(key: string, value: string) | Suspect(line: string)

  function Classify(line: string): (r: LineKind)
    ensures r.Skipped? <==> !Considered(line)
    ensures r.Imported? <==> Considered(line) && Accepted(line)
    ensures r.Imported? ==> r.key in LegacyFields && r.value != "" && Trimmed(line) == r.key + "=" + r.value
    ensures r.Suspect? ==> r.line == Trimmed(line) && '=' in r.line
  {
    if !Considered(line) then Skipped
    else if Accepted(line) then
      TrimmedKeepsEquals(line);
      Imported(KeyOf(line), ValueOf(line))
    else
      TrimmedKeepsEquals(line);
      Suspect(Trimmed(line))
  }

  /** The result of reading the file's lines: imported fields and suspect lines. */
  datatype Scanned = Scanned(fields: map<string, string>, suspect: seq<string>)

  /** The scanner loop of readLegacyConfig over the classified lines; a later line for the
      same key overwrites an earlier one. */
  function Scan(kinds: seq<LineKind>): (r: Scanned)
    ensures |r.suspect| <= |kinds|
    decreases |kinds|
  {
    if |kinds| == 0 then Scanned(map[], [])
    else
      var prev := Scan(kinds[..|kinds| - 1]);
      match kinds[|kinds| - 1]
      case Skipped => prev
      case Imported(k, v) => prev.(fields := prev.fields[k := v])
      case Suspect(t) => prev.(suspect := prev.suspect + [t])
  }

  /** A key is imported iff some line imports it, and its value comes from the last such
      line. */
  lemma {:induction false} ScanFields(kinds: seq<LineKind>, k: string)
    ensures k in Scan(kinds).fields <==> exists i :: 0 <= i < |kinds| && kinds[i].Imported? && kinds[i].key == k
    ensures forall i :: (0 <= i < |kinds| && kinds[i].Imported? && kinds[i].key == k &&
      (forall j :: i < j < |kinds| ==> !(kinds[j].Imported? && kinds[j].key == k))) ==>
      k in Scan(kinds).fields && Scan(kinds).fields[k] == kinds[i].value
    decreases |kinds|
  {
    if |kinds| > 0 {
      var init := kinds[..|kinds| - 1];
      ScanFields(init, k);
      assert forall i :: 0 <= i < |init| ==> init[i] == kinds[i];
    }
  }

  /** A text is a suspect line iff some line is of the Suspect kind with that text
      (ScanSuspectInOrder gives the order and the repeats). */
  lemma {:induction false} ScanSuspect(kinds: seq<LineKind>, x: string)
    ensures x in Scan(kinds).suspect <==> exists i :: 0 <= i < |kinds| && kinds[i] == Suspect(x)
    decreases |kinds|
  {
    if |kinds| > 0 {
      var init := kinds[..|kinds| - 1];
      ScanSuspect(init, x);
      assert forall i :: 0 <= i < |init| ==> init[i] == kinds[i];
    }
  }

  /** The Suspect lines of the classified file, first to last, each as often as it occurs. */
  function SuspectsOf(kinds: seq<LineKind>): seq<string>
    decreases |kinds|
  {
    if |kinds| == 0 then []
    else (if kinds[0].Suspect? then [kinds[0].line] else []) + SuspectsOf(kinds[1..])
  }

  lemma {:induction false} SuspectsOfSnoc(kinds: seq<LineKind>, x: LineKind)
    ensures SuspectsOf(kinds + [x]) == SuspectsOf(kinds) + (if x.Suspect? then [x.line] else [])
    decreases |kinds|
  {
    if |kinds| > 0 {
      assert (kinds + [x])[1..] == kinds[1..] + [x];
      SuspectsOfSnoc(kinds[1..], x);
    }
  }

  /** The scanner keeps the suspect lines in file order and with their multiplicity, which
      is what decides the scary map's last-wins value. */
  lemma {:induction false} ScanSuspectInOrder(kinds: seq<LineKind>)
    ensures Scan(kinds).suspect == SuspectsOf(kinds)
    decreases |kinds|
  {
    if |kinds| > 0 {
      var init := kinds[..|kinds| - 1];
      ScanSuspectInOrder(init);
      assert kinds == init + [kinds[|kinds| - 1]];
      SuspectsOfSnoc(init, kinds[|kinds| - 1]);
    }
  }

  lemma {:induction false} ScanFieldsLegacy(kinds: seq<LineKind>)
    requires forall i :: 0 <= i < |kinds| && kinds[i].Imported? ==> kinds[i].key in LegacyFields
    ensures Scan(kinds).fields.Keys <= LegacyFields.Keys
    decreases |kinds|
  {
    if |kinds| > 0 {
      ScanFieldsLegacy(kinds[..|kinds| - 1]);
    }
  }

  function Classified(lines: seq<string>): (r: seq<LineKind>)
    ensures |r| == |lines|
    ensures forall i :: 0 <= i < |lines| ==> r[i] == Classify(lines[i])
  {
    seq(|lines|, i requires 0 <= i < |lines| => Classify(lines[i]))
  }

  /** The shape parseFieldsToValidAndScary relies on: only the parse-error key holds the
      list of lines, each with an "="; every other key holds a string. */
  predicate WellTyped(data: map<string, Any>) {
    forall k :: k in data ==> ((data[k].Lines? <==> k == ParseErrorsKey) &&
      (data[k].Lines? ==> forall e :: e in data[k].lines ==> '=' in e))
  }

  lemma ParseErrorsKeyNotLegacy()
    ensures ParseErrorsKey !in LegacyFields
  {
  }

  /** readLegacyConfig on the file's lines, with `$VAR` expansion already applied. The
      parse-error key is present exactly when some line was suspect. */
  function ReadLegacyConfig(lines: seq<string>): (data: map<string, Any>)
    ensures var sc := Scan(Classified(lines));
      && (ParseErrorsKey in data <==> |sc.suspect| > 0)
      && (ParseErrorsKey in data ==> data[ParseErrorsKey] == Lines(sc.suspect))
      && (forall k :: k in sc.fields ==> k in data && data[k] == Str(sc.fields[k]))
      && (forall k :: k in data ==> k == ParseErrorsKey || k in sc.fields)
  {
    var sc := Scan(Classified(lines));
    ScanFieldsLegacy(Classified(lines));
    ParseErrorsKeyNotLegacy();
    var m := map k | k in sc.fields :: Str(sc.fields[k]);
    if |sc.suspect| > 0 then m[ParseErrorsKey := Lines(sc.suspect)] else m
  }

  /** What readLegacyConfig returns is what parseFieldsToValidAndScary expects, and its
      other keys are all legacy fields. */
  lemma ReadWellTyped(lines: seq<string>)
    ensures WellTyped(ReadLegacyConfig(lines))
    ensures forall k :: k in ReadLegacyConfig(lines) ==> k == ParseErrorsKey || k in LegacyFields
  {
    var kinds := Classified(lines);
    ScanFieldsLegacy(kinds);
    ParseErrorsKeyNotLegacy();
    forall e | e in Scan(kinds).suspect
      ensures '=' in e
    {
      ScanSuspect(kinds, e);
      var i :| 0 <= i < |kinds| && kinds[i] == Suspect(e);
    }
  }

  /** Reading the file: a key is imported iff some considered line names that legacy field
      with a non-empty value (ReadLegacyConfigValue gives the value); every other considered
      line is kept, trimmed, as a suspect line. */
  lemma ReadLegacyConfigLines(lines: seq<string>, k: string, x: string)
    ensures var data := ReadLegacyConfig(lines);
      && (k != ParseErrorsKey ==> (k in data <==> exists i :: 0 <= i < |lines| && Considered(lines[i]) && Accepted(lines[i]) && KeyOf(lines[i]) == k))
      && (ParseErrorsKey in data ==> (x in data[ParseErrorsKey].lines <==> exists i :: 0 <= i < |lines| && Considered(lines[i]) && !Accepted(lines[i]) && Trimmed(lines[i]) == x))
  {
    var kinds := Classified(lines);
    ScanFields(kinds, k);
    ScanSuspect(kinds, x);
    if exists i :: 0 <= i < |lines| && Considered(lines[i]) && Accepted(lines[i]) && KeyOf(lines[i]) == k {
      var i :| 0 <= i < |lines| && Considered(lines[i]) && Accepted(lines[i]) && KeyOf(lines[i]) == k;
      assert kinds[i].Imported? && kinds[i].key == k;
    }
    if exists i :: 0 <= i < |lines| && Considered(lines[i]) && !Accepted(lines[i]) && Trimmed(lines[i]) == x {
      var i :| 0 <= i < |lines| && Considered(lines[i]) && !Accepted(lines[i]) && Trimmed(lines[i]) == x;
      assert kinds[i] == Suspect(x);
    }
  }

  /** The last considered line that imports a key gives its value. */
  lemma ReadLegacyConfigValue(lines: seq<string>, k: string, i: nat)
    requires i < |lines| && Considered(lines[i]) && Accepted(lines[i]) && KeyOf(lines[i]) == k
    requires forall j :: i < j < |lines| ==> !(Considered(lines[j]) && Accepted(lines[j]) && KeyOf(lines[j]) == k)
    ensures k in ReadLegacyConfig(lines) && ReadLegacyConfig(lines)[k] == Str(ValueOf(lines[i]))
  {
    var kinds := Classified(lines);
    ScanFields(kinds, k);
    assert kinds[i].Imported? && kinds[i].key == k && kinds[i].value == ValueOf(lines[i]);
    forall j | i < j < |kinds|
      ensures !(kinds[j].Imported? && kinds[j].key == k)
    {
      assert kinds[j] == Classify(lines[j]);
    }
  }

  /** The parse-error list of the data is the file's suspect lines, trimmed, in file order. */
  lemma ReadLegacyConfigSuspectOrder(lines: seq<string>)
    requires ParseErrorsKey in ReadLegacyConfig(lines)
    ensures ReadLegacyConfig(lines)[ParseErrorsKey] == Lines(SuspectsOf(Classified(lines)))
  {
    ScanSuspectInOrder(Classified(lines));
  }

  /** A suspect line split at its first "=". */
  function SplitPair(e: string): (p: (string, string))
    requires '=' in e
    ensures e == p.0 + "=" + p.1 && '=' !in p.0
  {
    var c := Cut(e, '=');
    (c.0, c.1.value)
  }

  function SplitPairs(lines: seq<string>): (r: seq<(string, string)>)
    requires forall e :: e in lines ==> '=' in e
    ensures |r| == |lines|
    ensures forall i :: 0 <= i < |lines| ==> r[i] == SplitPair(lines[i])
  {
    seq(|lines|, i requires 0 <= i < |lines| => SplitPair(lines[i]))
  }

  /** The scary map: each suspect line's key before its first "=", a later line for the
      same key winning. */
  function ScaryMap(lines: seq<string>): map<string, string>
    requires forall e :: e in lines ==> '=' in e
  {
    FromPairs(SplitPairs(lines))
  }

  /** A key is in the scary map iff some suspect line starts with it and an "="; the last
      such line is rebuilt by the key, "=" and the value. */
  lemma ScaryMapKeys(lines: seq<string>, k: string)
    requires forall e :: e in lines ==> '=' in e
    ensures k in ScaryMap(lines) <==> exists i :: 0 <= i < |lines| && SplitPair(lines[i]).0 == k
    ensures forall i :: (0 <= i < |lines| && SplitPair(lines[i]).0 == k &&
      (forall j :: i < j < |lines| ==> SplitPair(lines[j]).0 != k)) ==>
      k + "=" + ScaryMap(lines)[k] == lines[i]
  {
    var ps := SplitPairs(lines);
    FromPairsKeys(ps, k);
    forall i | 0 <= i < |lines| && SplitPair(lines[i]).0 == k &&
      (forall j :: i < j < |lines| ==> SplitPair(lines[j]).0 != k)
      ensures k + "=" + ScaryMap(lines)[k] == lines[i]
    {
      FromPairsLast(ps, i);
    }
  }

  /** parseFieldsToValidAndScary: string-valued keys go to the valid map unchanged; the
      suspect lines become the scary map. */
  function ParseFields(data: map<string, Any>): (r: (map<string, string>, map<string, string>))
    requires WellTyped(data)
    ensures r.0.Keys == data.Keys - {ParseErrorsKey}
    ensures forall k :: k in r.0 ==> data[k] == Str(r.0[k])
    ensures ParseErrorsKey !in data ==> r.1 == map[]
    ensures ParseErrorsKey in data ==> r.1 == ScaryMap(data[ParseErrorsKey].lines)
  {
    var valid := map k | k in data && k != ParseErrorsKey :: data[k].s;
    var scary := if ParseErrorsKey in data then ScaryMap(data[ParseErrorsKey].lines) else map[];
    (valid, scary)
  }

  /** A key reads as sensitive only when the legacy table says so; unknown keys are not. */
  predicate Sensitive(k: string) {
    k in LegacyFields && LegacyFields[k].sensitive
  }

  lemma SensitiveOnlyToken(k: string)
    ensures Sensitive(k) <==> k == "OFFLINE_ACCESS_TOKEN"
  {
  }

  /** redactSensitiveFields */
  function RedactSensitiveFields(fields: map<string, string>): (r: map<string, string>)
    ensures r.Keys == fields.Keys
    ensures forall k :: k in r ==> r[k] == (if k == "OFFLINE_ACCESS_TOKEN" then Redacted else fields[k])
  {
    assert forall k :: Sensitive(k) <==> k == "OFFLINE_ACCESS_TOKEN" by {
      forall k ensures Sensitive(k) <==> k == "OFFLINE_ACCESS_TOKEN" { SensitiveOnlyToken(k); }
    }
    map k | k in fields :: if Sensitive(k) then Redacted else fields[k]
  }

  /** The values an option list shows. */
  function Shown(fields: map<string, string>, showSensitive: bool): (r: map<string, string>)
    ensures r.Keys == fields.Keys
  {
    if showSensitive then fields else RedactSensitiveFields(fields)
  }

  /** One option line as shown to the user: the key, a colon and a space, then the value. */
  function Entry(k: string, v: string): string {
    k + ": " + v
  }

  /** A map read with Go's zero value for a missing key. */
  function Lookup(m: map<string, string>, k: string): string {
    if k in m then m[k] else ""
  }

  /** The "k: v" entry of a key. */
  function EntryOf(fields: map<string, string>): string -> string {
    k => Entry(k, Lookup(fields, k))
  }

  /** One "k: v" entry per key of `order`, in that order. */
  function Entries(fields: map<string, string>, order: seq<string>): (r: seq<string>)
    requires forall k :: k in order ==> k in fields
    ensures |r| == |order|
    ensures forall i :: 0 <= i < |order| ==> r[i] == Entry(order[i], fields[order[i]])
  {
    seq(|order|, i requires 0 <= i < |order| => Entry(order[i], fields[order[i]]))
  }

  lemma EntriesAsMap(fields: map<string, string>, order: seq<string>)
    requires forall k :: k in order ==> k in fields
    ensures Entries(fields, order) == Sorting.MapSeq(EntryOf(fields), order)
  {
    var a := Entries(fields, order);
    var b := Sorting.MapSeq(EntryOf(fields), order);
    forall i | 0 <= i < |order|
      ensures a[i] == b[i]
    {
      assert order[i] in order;
      assert b[i] == EntryOf(fields)(order[i]);
    }
  }

  /** The entries of a walk of a map, sorted, are exactly the map's entries. */
  lemma SortedEntriesMembers(fields: map<string, string>, order: seq<string>, x: string)
    requires IsKeyOrder(order, fields)
    ensures x in Sorting.Sort(Entries(fields, order)) <==> exists k :: k in fields && x == Entry(k, fields[k])
  {
    var es := Entries(fields, order);
    Sorting.SortMembers(es, x);
    if exists k :: k in fields && x == Entry(k, fields[k]) {
      var k :| k in fields && x == Entry(k, fields[k]);
      var i :| 0 <= i < |order| && order[i] == k;
      assert es[i] == x;
    }
  }

  /** convertFieldMapToOptions: one "k: v" option per field, sorted, sensitive values
      hidden unless asked for. */
  function FieldOptions(fields: map<string, string>, order: seq<string>, showSensitive: bool): (r: seq<string>)
    requires IsKeyOrder(order, fields)
    ensures |r| == |fields|
  {
    KeyOrderLength(order, fields);
    Sorting.Sort(Entries(Shown(fields, showSensitive), order))
  }

  /** The options are sorted and are exactly the fields' entries, with the token hidden
      unless sensitive values are shown. */
  lemma FieldOptionsContents(fields: map<string, string>, order: seq<string>, showSensitive: bool, x: string)
    requires IsKeyOrder(order, fields)
    ensures Sorting.Sorted(FieldOptions(fields, order, showSensitive))
    ensures x in FieldOptions(fields, order, showSensitive) <==>
      exists k :: k in fields && x == Entry(k, Shown(fields, showSensitive)[k])
  {
    var shown := Shown(fields, showSensitive);
    Sorting.SortSorted(Entries(shown, order));
    SortedEntriesMembers(shown, order, x);
  }

  /** The options do not depend on the order the map was walked in. */
  lemma FieldOptionsOrderFree(fields: map<string, string>, o1: seq<string>, o2: seq<string>, showSensitive: bool)
    requires IsKeyOrder(o1, fields) && IsKeyOrder(o2, fields)
    ensures FieldOptions(fields, o1, showSensitive) == FieldOptions(fields, o2, showSensitive)
  {
    var shown := Shown(fields, showSensitive);
    KeyOrdersPermute(o1, o2, fields);
    EntriesAsMap(shown, o1);
    EntriesAsMap(shown, o2);
    Sorting.MapSeqPermute(EntryOf(shown), o1, o2);
    Sorting.SortPermutationFree(Entries(Shown(fields, showSensitive), o1), Entries(Shown(fields, showSensitive), o2));
  }

  /** The name a legacy key is imported under; keys outside the table keep their name. */
  function Rename(k: string): string {
    if k in LegacyFields then LegacyFields[k].name else k
  }

  /** Only CONTAINER_SUBSYS is renamed, to engine. */
  lemma RenameOnlyEngine(k: string)
    ensures Rename(k) == if k == "CONTAINER_SUBSYS" then "engine" else k
  {
  }

  /** The legacy keys are upper-case words: no colon, and none is "engine". */
  lemma LegacyKeysNoColon()
    ensures forall k :: k in LegacyFields ==> ':' !in k && k != "engine"
  {
    NoColon1();
    NoColon2();
    NoColon3();
    assert LegacyFields.Keys <= {"BACKPLANE_CONFIG_DIR", "CA_SOURCE_ANCHORS", "CLI", "CONTAINER_SUBSYS", "DISABLE_SSH_MULTIPLEXING"} + {"OCM_URL", "OCM_USER", "OFFLINE_ACCESS_TOKEN", "OPS_UTILS_DIR", "OPS_UTILS_DIR_RW"} + {"PATH", "PERSISTENT_CLUSTER_HISTORIES", "PERSONALIZATION_FILE", "SCRATCH_DIR", "SSH_AUTH_SOCK"};
  }

  lemma NoColon1()
    ensures forall k :: k in {"BACKPLANE_CONFIG_DIR", "CA_SOURCE_ANCHORS", "CLI", "CONTAINER_SUBSYS", "DISABLE_SSH_MULTIPLEXING"} ==> ':' !in k && k != "engine"
  {
  }

  lemma NoColon2()
    ensures forall k :: k in {"OCM_URL", "OCM_USER", "OFFLINE_ACCESS_TOKEN", "OPS_UTILS_DIR", "OPS_UTILS_DIR_RW"} ==> ':' !in k && k != "engine"
  {
  }

  lemma NoColon3()
    ensures forall k :: k in {"PATH", "PERSISTENT_CLUSTER_HISTORIES", "PERSONALIZATION_FILE", "SCRATCH_DIR", "SSH_AUTH_SOCK"} ==> ':' !in k && k != "engine"
  {
  }

  /** The key of a confirmed option: the text before its first ":". */
  function OptionKey(x: string): string {
    Cut(x, ':').0
  }

  lemma EntryKey(k: string, v: string)
    requires ':' !in k
    ensures OptionKey(Entry(k, v)) == k
  {
    var x := Entry(k, v);
    assert forall j :: 0 <= j < |k| ==> x[j] == k[j];
    assert x[|k|] == ':';
    assert IndexOf(x, ':') == |k|;
    assert x[..|k|] == k;
  }

  /** Where createConfigurationMap takes a key's value from: the valid map, then the
      scary map, else the placeholder "parseError". */
  function Resolve(valid: map<string, string>, scary: map<string, string>, k: string): string {
    if k in valid then valid[k] else if k in scary then scary[k] else "parseError"
  }

  /** `strings.Trim(v, "\"")`: every leading and trailing double quote goes. */
  function Unquote(v: string): (r: string)
    ensures |r| == 0 || (r[0] != '"' && r[|r| - 1] != '"')
    ensures exists i, j ::
      && 0 <= i <= j <= |v| && r == v[i..j]
      && (forall p :: 0 <= p < i ==> v[p] == '"')
      && (forall p :: j <= p < |v| ==> v[p] == '"')
  {
    var r := Trim(v, {'"'});
    TrimSlice(v, {'"'});
    r
  }

  function ConfigPairs(valid: map<string, string>, scary: map<string, string>, slice: seq<string>): (r: seq<(string, string)>)
    ensures |r| == |slice|
    ensures forall i :: 0 <= i < |slice| ==>
      r[i] == (Rename(OptionKey(slice[i])), Unquote(Resolve(valid, scary, OptionKey(slice[i]))))
  {
    seq(|slice|, i requires 0 <= i < |slice| =>
      (Rename(OptionKey(slice[i])), Unquote(Resolve(valid, scary, OptionKey(slice[i])))))
  }

  /** createConfigurationMap: each confirmed option becomes its renamed key, with the
      unquoted value looked up again in the legacy data (the option text may be redacted). */
  function CreateConfigurationMap(data: map<string, Any>, slice: seq<string>): (cm: map<string, string>)
    requires WellTyped(data)
    ensures |slice| > 0 ==>
      var last := OptionKey(slice[|slice| - 1]);
      Rename(last) in cm && cm[Rename(last)] == Unquote(Resolve(ParseFields(data).0, ParseFields(data).1, last))
  {
    var p := ParseFields(data);
    FromPairs(ConfigPairs(p.0, p.1, slice))
  }

  /** The keys written are exactly the renamed keys of the confirmed options. */
  lemma CreateConfigurationMapKeys(data: map<string, Any>, slice: seq<string>, k: string)
    requires WellTyped(data)
    ensures k in CreateConfigurationMap(data, slice) <==> exists i :: 0 <= i < |slice| && Rename(OptionKey(slice[i])) == k
  {
    var p := ParseFields(data);
    FromPairsKeys(ConfigPairs(p.0, p.1, slice), k);
  }

  /** A key whose options all resolve to the same value gets that value, unquoted. */
  lemma CreateConfigurationMapValue(data: map<string, Any>, slice: seq<string>, k: string, key: string)
    requires WellTyped(data)
    requires forall i :: 0 <= i < |slice| && Rename(OptionKey(slice[i])) == k ==> OptionKey(slice[i]) == key
    ensures k in CreateConfigurationMap(data, slice) ==>
      CreateConfigurationMap(data, slice)[k] == Unquote(Resolve(ParseFields(data).0, ParseFields(data).1, key))
  {
    var p := ParseFields(data);
    FromPairsUniform(ConfigPairs(p.0, p.1, slice), k, Unquote(Resolve(p.0, p.1, key)));
  }

  /** Options that rename to the same key (CONTAINER_SUBSYS and a suspect "engine" line, say)
      overwrite each other: the last of them gives the value. */
  lemma CreateConfigurationMapLast(data: map<string, Any>, slice: seq<string>, i: nat)
    requires WellTyped(data)
    requires i < |slice|
    requires forall j :: i < j < |slice| ==> Rename(OptionKey(slice[j])) != Rename(OptionKey(slice[i]))
    ensures var cm := CreateConfigurationMap(data, slice);
      && Rename(OptionKey(slice[i])) in cm
      && cm[Rename(OptionKey(slice[i]))] == Unquote(Resolve(ParseFields(data).0, ParseFields(data).1, OptionKey(slice[i])))
  {
    var p := ParseFields(data);
    FromPairsLast(ConfigPairs(p.0, p.1, slice), i);
  }

  /** buildNewConfig with assume-yes: no prompts; the valid fields, as sorted options, are
      turned into the configuration map. */
  function BuildNewConfigAssumeYes(data: map<string, Any>, order: seq<string>): (cm: map<string, string>)
    requires WellTyped(data)
    requires IsKeyOrder(order, ParseFields(data).0)
    ensures |cm| == 0 <==> |ParseFields(data).0| == 0
  {
    var valid := ParseFields(data).0;
    KeyOrderLength(order, valid);
    CreateConfigurationMap(data, Sorting.Sort(Entries(valid, order)))
  }

  /** The option of the sorted slice at `i` is the entry of some valid field, and reads back
      as that field's key. */
  lemma SliceEntry(data: map<string, Any>, order: seq<string>, i: nat) returns (k: string)
    requires WellTyped(data)
    requires forall k :: k in data ==> k == ParseErrorsKey || k in LegacyFields
    requires IsKeyOrder(order, ParseFields(data).0)
    requires i < |order|
    ensures k in ParseFields(data).0 && k in LegacyFields
    ensures OptionKey(Sorting.Sort(Entries(ParseFields(data).0, order))[i]) == k
  {
    var valid := ParseFields(data).0;
    var es := Entries(valid, order);
    var slice := Sorting.Sort(es);
    var x := slice[i];
    Sorting.SortMembers(es, x);
    var j :| 0 <= j < |es| && es[j] == x;
    k := order[j];
    assert x == Entry(k, valid[k]);
    LegacyKeysNoColon();
    EntryKey(k, valid[k]);
  }

  /** With assume-yes, exactly the valid fields are imported, under their new names and with
      their own unquoted values; suspect lines are ignored. */
  lemma AssumeYesImportsValid(data: map<string, Any>, order: seq<string>, k: string)
    requires WellTyped(data)
    requires forall k :: k in data ==> k == ParseErrorsKey || k in LegacyFields
    requires IsKeyOrder(order, ParseFields(data).0)
    ensures var valid := ParseFields(data).0; var cm := BuildNewConfigAssumeYes(data, order);
      && (k in valid ==> Rename(k) in cm && cm[Rename(k)] == Unquote(valid[k]))
      && (k in cm ==> exists k0 :: k0 in valid && Rename(k0) == k)
  {
    var p := ParseFields(data);
    var valid := p.0;
    var es := Entries(valid, order);
    var slice := Sorting.Sort(es);
    var cm := CreateConfigurationMap(data, slice);
    LegacyKeysNoColon();
    if k in valid {
      var j :| 0 <= j < |order| && order[j] == k;
      Sorting.SortMembers(es, es[j]);
      var i :| 0 <= i < |slice| && slice[i] == es[j];
      assert es[j] == Entry(k, valid[k]);
      EntryKey(k, valid[k]);
      CreateConfigurationMapKeys(data, slice, Rename(k));
      forall i' | 0 <= i' < |slice| && Rename(OptionKey(slice[i'])) == Rename(k)
        ensures OptionKey(slice[i']) == k
      {
        var k' := SliceEntry(data, order, i');
        RenameOnlyEngine(k);
        RenameOnlyEngine(k');
      }
      CreateConfigurationMapValue(data, slice, Rename(k), k);
    }
    if k in cm {
      CreateConfigurationMapKeys(data, slice, k);
      var i :| 0 <= i < |slice| && Rename(OptionKey(slice[i])) == k;
      var k' := SliceEntry(data, order, i);
    }
  }

  /** The settings as viper holds them: every key lower-case, since viper folds the keys it
      stores and `AllSettings` returns them that way. */
  predicate LowerKeyed(settings: map<string, string>) {
    forall k :: k in settings ==> ToLower(k) == k
  }

  /** viper.Get: the key is folded to lower case before the lookup; an unset key gives nil,
      which prints as "<nil>". */
  function ViperGet(settings: map<string, string>, k: string): (v: string)
    ensures ToLower(k) in settings ==> v == settings[ToLower(k)]
    ensures ToLower(k) !in settings ==> v == "<nil>"
  {
    if ToLower(k) in settings then settings[ToLower(k)] else "<nil>"
  }

  /** One printed line: the key as typed, a colon and a space, the value or REDACTED. */
  function ValueLine(k: string, v: string, hidden: bool): string {
    k + ": " + (if hidden then Redacted else v) + "\n"
  }

  function Concat(ls: seq<string>): string
    decreases |ls|
  {
    if |ls| == 0 then "" else ls[0] + Concat(ls[1..])
  }

  /** getValue as written: every setting for "all" (in the map's walk order), otherwise the
      one key through viper.Get; a key is hidden only when it is spelled exactly like an
      entry of the sensitive list. */
  function GetValueAsWritten(k: string, settings: map<string, string>, order: seq<string>, showSensitive: bool): (out: string)
    requires LowerKeyed(settings)
    requires IsKeyOrder(order, settings)
    ensures k != "all" && !showSensitive && k in SensitiveDataFields ==> out == k + ": REDACTED\n"
    ensures k != "all" && (showSensitive || k !in SensitiveDataFields) ==> out == k + ": " + ViperGet(settings, k) + "\n"
  {
    if k == "all" then
      Concat(seq(|order|, i requires 0 <= i < |order| =>
        ValueLine(order[i], settings[order[i]], order[i] in SensitiveDataFields && !showSensitive)))
    else ValueLine(k, ViperGet(settings, k), k in SensitiveDataFields && !showSensitive)
  }

  /** A key counts as sensitive in any spelling that viper folds onto a sensitive field. */
  predicate FoldsToSensitive(k: string) {
    ToLower(k) in SensitiveDataFields
  }

  /** getValue with the sensitive test made case-insensitive, like viper's own lookup. */
  function GetValue(k: string, settings: map<string, string>, order: seq<string>, showSensitive: bool): (out: string)
    requires LowerKeyed(settings)
    requires IsKeyOrder(order, settings)
    ensures k != "all" && !showSensitive && FoldsToSensitive(k) ==> out == k + ": REDACTED\n"
    ensures k != "all" && (showSensitive || !FoldsToSensitive(k)) ==> out == k + ": " + ViperGet(settings, k) + "\n"
  {
    if k == "all" then
      Concat(seq(|order|, i requires 0 <= i < |order| =>
        ValueLine(order[i], settings[order[i]], FoldsToSensitive(order[i]) && !showSensitive)))
    else ValueLine(k, ViperGet(settings, k), FoldsToSensitive(k) && !showSensitive)
  }

  /** How the spellings of the token's key fold, one character at a time. */
  lemma TokenFoldsLower()
    ensures ToLower("offline_access_token") == "offline_access_token"
  {
    assert "offline_access_token" == ['o', 'f', 'f', 'l', 'i', 'n', 'e', '_', 'a', 'c', 'c', 'e', 's', 's', '_', 't', 'o', 'k', 'e', 'n'];
    assert "offline_access_token" == ['o', 'f', 'f', 'l', 'i', 'n', 'e', '_', 'a', 'c', 'c', 'e', 's', 's', '_', 't', 'o', 'k', 'e', 'n'];
    assert ToLower("offline_access_token") == [LowerChar('o'), LowerChar('f'), LowerChar('f'), LowerChar('l'), LowerChar('i'), LowerChar('n'), LowerChar('e'), LowerChar('_'), LowerChar('a'), LowerChar('c'), LowerChar('c'), LowerChar('e'), LowerChar('s'), LowerChar('s'), LowerChar('_'), LowerChar('t'), LowerChar('o'), LowerChar('k'), LowerChar('e'), LowerChar('n')];
  }

  lemma TokenFoldsUpper()
    ensures ToLower("OFFLINE_ACCESS_TOKEN") == "offline_access_token"
  {
    assert "OFFLINE_ACCESS_TOKEN" == ['O', 'F', 'F', 'L', 'I', 'N', 'E', '_', 'A', 'C', 'C', 'E', 'S', 'S', '_', 'T', 'O', 'K', 'E', 'N'];
    assert "offline_access_token" == ['o', 'f', 'f', 'l', 'i', 'n', 'e', '_', 'a', 'c', 'c', 'e', 's', 's', '_', 't', 'o', 'k', 'e', 'n'];
    assert ToLower("OFFLINE_ACCESS_TOKEN") == [LowerChar('O'), LowerChar('F'), LowerChar('F'), LowerChar('L'), LowerChar('I'), LowerChar('N'), LowerChar('E'), LowerChar('_'), LowerChar('A'), LowerChar('C'), LowerChar('C'), LowerChar('E'), LowerChar('S'), LowerChar('S'), LowerChar('_'), LowerChar('T'), LowerChar('O'), LowerChar('K'), LowerChar('E'), LowerChar('N')];
  }

  lemma TokenFoldsMixed()
    ensures ToLower("Offline_Access_Token") == "offline_access_token"
  {
    assert "Offline_Access_Token" == ['O', 'f', 'f', 'l', 'i', 'n', 'e', '_', 'A', 'c', 'c', 'e', 's', 's', '_', 'T', 'o', 'k', 'e', 'n'];
    assert "offline_access_token" == ['o', 'f', 'f', 'l', 'i', 'n', 'e', '_', 'a', 'c', 'c', 'e', 's', 's', '_', 't', 'o', 'k', 'e', 'n'];
    assert ToLower("Offline_Access_Token") == [LowerChar('O'), LowerChar('f'), LowerChar('f'), LowerChar('l'), LowerChar('i'), LowerChar('n'), LowerChar('e'), LowerChar('_'), LowerChar('A'), LowerChar('c'), LowerChar('c'), LowerChar('e'), LowerChar('s'), LowerChar('s'), LowerChar('_'), LowerChar('T'), LowerChar('o'), LowerChar('k'), LowerChar('e'), LowerChar('n')];
  }

  /** Two stores that differ only in the values of sensitive keys. */
  predicate AgreeOffSensitive(s1: map<string, string>, s2: map<string, string>) {
    s1.Keys == s2.Keys && forall k :: k in s1 && k !in SensitiveDataFields ==> s1[k] == s2[k]
  }

  /** As written, a mixed-case spelling of the token's key is looked up (viper folds it) but
      not hidden (the list holds only two spellings), so the stored token is printed. */
  lemma GetValueAsWrittenPrintsToken(settings: map<string, string>, order: seq<string>)
    requires LowerKeyed(settings) && IsKeyOrder(order, settings)
    requires "offline_access_token" in settings
    ensures GetValueAsWritten("Offline_Access_Token", settings, order, false)
      == "Offline_Access_Token: " + settings["offline_access_token"] + "\n"
  {
    TokenFoldsMixed();
    assert "Offline_Access_Token"[0] == 'O';
  }

  /** Hence two stores that differ only in the token give different output. */
  lemma GetValueAsWrittenLeaks()
    ensures var s1 := map["offline_access_token" := "secret"];
      var s2 := map["offline_access_token" := "other"];
      var order := ["offline_access_token"];
      && LowerKeyed(s1) && LowerKeyed(s2) && AgreeOffSensitive(s1, s2)
      && IsKeyOrder(order, s1) && IsKeyOrder(order, s2)
      && GetValueAsWritten("Offline_Access_Token", s1, order, false) != GetValueAsWritten("Offline_Access_Token", s2, order, false)
  {
    var s1 := map["offline_access_token" := "secret"];
    var s2 := map["offline_access_token" := "other"];
    var order := ["offline_access_token"];
    TokenFoldsLower();
    assert LowerKeyed(s1) && LowerKeyed(s2);
    GetValueAsWrittenPrintsToken(s1, order);
    GetValueAsWrittenPrintsToken(s2, order);
    assert ("Offline_Access_Token: " + "secret" + "\n")[22] == 's';
    assert ("Offline_Access_Token: " + "other" + "\n")[22] == 'o';
  }

  /** Without show-sensitive-values, the corrected output never depends on a sensitive value,
      whatever the spelling of the key asked for. */
  lemma GetValueHidesSensitive(k: string, s1: map<string, string>, s2: map<string, string>, order: seq<string>)
    requires LowerKeyed(s1)
    requires AgreeOffSensitive(s1, s2)
    requires IsKeyOrder(order, s1)
    ensures GetValue(k, s1, order, false) == GetValue(k, s2, order, false)
  {
    if k == "all" {
      var l1 := seq(|order|, i requires 0 <= i < |order| => ValueLine(order[i], s1[order[i]], FoldsToSensitive(order[i]) && !false));
      var l2 := seq(|order|, i requires 0 <= i < |order| => ValueLine(order[i], s2[order[i]], FoldsToSensitive(order[i]) && !false));
      forall i | 0 <= i < |order|
        ensures l1[i] == l2[i]
      {
        assert order[i] in s1 && ToLower(order[i]) == order[i];
      }
      assert l1 == l2;
    }
  }

  /** Every spelling of a sensitive key asked for on its own prints as REDACTED. */
  lemma GetValueRedacts(k: string, settings: map<string, string>, order: seq<string>)
    requires FoldsToSensitive(k) && k != "all"
    requires LowerKeyed(settings) && IsKeyOrder(order, settings)
    ensures GetValue(k, settings, order, false) == k + ": REDACTED\n"
  {
  }

  /** The correction changes only what is hidden: with show-sensitive-values, or for a key
      that is not sensitive in any spelling, both versions print the same. */
  lemma GetValueAgrees(k: string, settings: map<string, string>, order: seq<string>, showSensitive: bool)
    requires LowerKeyed(settings) && IsKeyOrder(order, settings)
    requires k != "all" && (showSensitive || !FoldsToSensitive(k))
    ensures GetValue(k, settings, order, showSensitive) == GetValueAsWritten(k, settings, order, showSensitive)
  {
    TokenFoldsLower();
    TokenFoldsUpper();
    assert !showSensitive ==> k !in SensitiveDataFields;
  }
}

=== FILE: containerenvs.dfy ===
/** The standard environment every container gets: `USER` passed through, one `OCMC_`
    variable per configuration key, and the deprecated `INITIAL_CLUSTER_LOGIN`. The
    configuration's key listing and values are inputs. */
module ContainerEnvs {
  import opened Strs

  /** A configuration value as `viper.Get` returns it. Only bools and strings can be
      rendered; any other type makes the source's type assertion panic. */
  datatype Value = BoolVal(b: bool) | StrVal(s: string) | OtherVal

  const SkippedKeys: set<string> := {"env", "environment", "volume", "volumes", "volumemounts", "vols"}

  /** The variable name for a key: upper-cased behind `OCMC_`, dashes as underscores. */
  function EnvName(k: string): (n: string)
    ensures HasPrefix(n, "OCMC_")
    ensures |n| == 5 + |k|
    ensures '-' !in n
    ensures forall i :: 0 <= i < |k| ==> n[5 + i] == (if k[i] == '-' then '_' else UpperChar(k[i]))
  {
    var u := ToUpper("OCMC_" + k);
    var n := ReplaceChar(u, '-', '_');
    forall i | 0 <= i < |k|
      ensures n[5 + i] == (if k[i] == '-' then '_' else UpperChar(k[i]))
    {
      assert ("OCMC_" + k)[5 + i] == k[i];
    }
    assert n[..5] == "OCMC_" by {
      forall i | 0 <= i < 5 ensures n[i] == "OCMC_"[i] {
        assert ("OCMC_" + k)[i] == "OCMC_"[i];
      }
    }
    n
  }

  /** Bools as "true"/"false", strings as they are. */
  function ValueText(v: Value): string
    requires !v.OtherVal?
  {
    match v
    case BoolVal(b) => FormatBool(b)
    case StrVal(s) => s
  }

  /** Every key that gets rendered has a bool or string value. */
  predicate Renderable(keys: seq<string>, vals: map<string, Value>) {
    forall i :: 0 <= i < |keys| && keys[i] !in SkippedKeys ==> keys[i] in vals && !vals[keys[i]].OtherVal?
  }

  /** Key `keys[i]` sets variable `n`. */
  predicate Sets(keys: seq<string>, i: int, n: string) {
    0 <= i < |keys| && keys[i] !in SkippedKeys && EnvName(keys[i]) == n
  }

  /** The loop over the configuration keys, in the order given; a later key with the same
      variable name overwrites an earlier one. */
  function Loop(keys: seq<string>, vals: map<string, Value>, acc: map<string, string>): map<string, string>
    requires Renderable(keys, vals)
    decreases |keys|
  {
    if |keys| == 0 then acc
    else
      var acc' := if keys[0] in SkippedKeys then acc else acc[EnvName(keys[0]) := ValueText(vals[keys[0]])];
      assert Renderable(keys[1..], vals) by {
        forall i | 0 <= i < |keys[1..]| && keys[1..][i] !in SkippedKeys
          ensures keys[1..][i] in vals && !vals[keys[1..][i]].OtherVal?
        {
          assert keys[1..][i] == keys[i + 1];
        }
      }
      Loop(keys[1..], vals, acc')
  }

  /** The loop's variables are those it started with plus one per rendered key. */
  lemma {:induction false} LoopKeys(keys: seq<string>, vals: map<string, Value>, acc: map<string, string>, n: string)
    requires Renderable(keys, vals)
    ensures n in Loop(keys, vals, acc) <==> n in acc || exists i :: Sets(keys, i, n)
    decreases |keys|
  {
    if |keys| > 0 {
      var acc' := if keys[0] in SkippedKeys then acc else acc[EnvName(keys[0]) := ValueText(vals[keys[0]])];
      assert Renderable(keys[1..], vals) by {
        forall i | 0 <= i < |keys[1..]| && keys[1..][i] !in SkippedKeys
          ensures keys[1..][i] in vals && !vals[keys[1..][i]].OtherVal?
        {
          assert keys[1..][i] == keys[i + 1];
        }
      }
      LoopKeys(keys[1..], vals, acc', n);
      if keys[0] !in SkippedKeys && EnvName(keys[0]) == n {
        assert Sets(keys, 0, n);
      }
      if exists i :: Sets(keys, i, n) {
        var i :| Sets(keys, i, n);
        if i > 0 {
          assert Sets(keys[1..], i - 1, n);
        }
      }
      if exists i :: Sets(keys[1..], i, n) {
        var i :| Sets(keys[1..], i, n);
        assert Sets(keys, i + 1, n);
      }
    }
  }

  /** A variable keeps the value of the last key that sets it. */
  lemma {:induction false} LoopLastWins(keys: seq<string>, vals: map<string, Value>, acc: map<string, string>, i: nat)
    requires Renderable(keys, vals)
    requires i < |keys| && Sets(keys, i, EnvName(keys[i]))
    requires forall j :: i < j < |keys| ==> !Sets(keys, j, EnvName(keys[i]))
    ensures EnvName(keys[i]) in Loop(keys, vals, acc)
    ensures Loop(keys, vals, acc)[EnvName(keys[i])] == ValueText(vals[keys[i]])
    decreases |keys|
  {
    var acc' := if keys[0] in SkippedKeys then acc else acc[EnvName(keys[0]) := ValueText(vals[keys[0]])];
    assert Renderable(keys[1..], vals) by {
      forall j | 0 <= j < |keys[1..]| && keys[1..][j] !in SkippedKeys
        ensures keys[1..][j] in vals && !vals[keys[1..][j]].OtherVal?
      {
        assert keys[1..][j] == keys[j + 1];
      }
    }
    if i == 0 {
      forall j | 0 <= j < |keys[1..]|
        ensures !Sets(keys[1..], j, EnvName(keys[0]))
      {
        assert !Sets(keys, j + 1, EnvName(keys[0]));
      }
      LoopKeeps(keys[1..], vals, acc', EnvName(keys[0]));
    } else {
      assert keys[1..][i - 1] == keys[i];
      forall j | i - 1 < j < |keys[1..]|
        ensures !Sets(keys[1..], j, EnvName(keys[i]))
      {
        assert !Sets(keys, j + 1, EnvName(keys[i]));
      }
      LoopLastWins(keys[1..], vals, acc', i - 1);
    }
  }

  /** A variable no key sets keeps its starting value. */
  lemma {:induction false} LoopKeeps(keys: seq<string>, vals: map<string, Value>, acc: map<string, string>, n: string)
    requires Renderable(keys, vals)
    requires n in acc
    requires forall j :: 0 <= j < |keys| ==> !Sets(keys, j, n)
    ensures n in Loop(keys, vals, acc) && Loop(keys, vals, acc)[n] == acc[n]
    decreases |keys|
  {
    if |keys| > 0 {
      var acc' := if keys[0] in SkippedKeys then acc else acc[EnvName(keys[0]) := ValueText(vals[keys[0]])];
      assert Renderable(keys[1..], vals) by {
        forall j | 0 <= j < |keys[1..]| && keys[1..][j] !in SkippedKeys
          ensures keys[1..][j] in vals && !vals[keys[1..][j]].OtherVal?
        {
          assert keys[1..][j] == keys[j + 1];
        }
      }
      assert !Sets(keys, 0, n);
      forall j | 0 <= j < |keys[1..]|
        ensures !Sets(keys[1..], j, n)
      {
        assert !Sets(keys, j + 1, n);
      }
      LoopKeeps(keys[1..], vals, acc', n);
    }
  }

  /** ocmContainerEnvs, over the key listing `keys` and their values. */
  function OcmContainerEnvs(keys: seq<string>, vals: map<string, Value>): (e: map<string, string>)
    requires Renderable(keys, vals)
    ensures "INITIAL_CLUSTER_LOGIN" in e
  {
    var e := Loop(keys, vals, map["USER" := ""]);
    e["INITIAL_CLUSTER_LOGIN" := if "OCMC_CLUSTER_ID" in e then e["OCMC_CLUSTER_ID"] else ""]
  }

  /** The variables are exactly USER, INITIAL_CLUSTER_LOGIN and the names of the keys that
      are not skipped; USER is always empty, so the container inherits the caller's. */
  lemma EnvsKeys(keys: seq<string>, vals: map<string, Value>, n: string)
    requires Renderable(keys, vals)
    ensures n in OcmContainerEnvs(keys, vals) <==>
      n == "USER" || n == "INITIAL_CLUSTER_LOGIN" || exists i :: Sets(keys, i, n)
  {
    LoopKeys(keys, vals, map["USER" := ""], n);
  }

  lemma EnvsUser(keys: seq<string>, vals: map<string, Value>)
    requires Renderable(keys, vals)
    ensures "USER" in OcmContainerEnvs(keys, vals) && OcmContainerEnvs(keys, vals)["USER"] == ""
  {
    forall j | 0 <= j < |keys|
      ensures !Sets(keys, j, "USER")
    {
      NotPrefixed("USER", EnvName(keys[j]));
    }
    LoopKeeps(keys, vals, map["USER" := ""], "USER");
  }

  /** No generated name can be a name that does not start like `OCMC_`. */
  lemma NotPrefixed(s: string, n: string)
    requires |s| == 0 || s[0] != 'O'
    requires HasPrefix(n, "OCMC_")
    ensures s != n
  {
    assert n[0] == "OCMC_"[0];
  }

  /** A key that is not skipped sets its variable to its rendered value, unless a later
      key maps to the same name. */
  lemma EnvsValue(keys: seq<string>, vals: map<string, Value>, i: nat)
    requires Renderable(keys, vals)
    requires i < |keys| && Sets(keys, i, EnvName(keys[i]))
    requires forall j :: i < j < |keys| ==> !Sets(keys, j, EnvName(keys[i]))
    ensures EnvName(keys[i]) in OcmContainerEnvs(keys, vals)
    ensures OcmContainerEnvs(keys, vals)[EnvName(keys[i])] == ValueText(vals[keys[i]])
  {
    LoopLastWins(keys, vals, map["USER" := ""], i);
    NotPrefixed("INITIAL_CLUSTER_LOGIN", EnvName(keys[i]));
  }

  /** INITIAL_CLUSTER_LOGIN copies OCMC_CLUSTER_ID, or is empty without it. */
  lemma EnvsInitialLogin(keys: seq<string>, vals: map<string, Value>)
    requires Renderable(keys, vals)
    ensures var e := OcmContainerEnvs(keys, vals);
      e["INITIAL_CLUSTER_LOGIN"] == (if "OCMC_CLUSTER_ID" in e then e["OCMC_CLUSTER_ID"] else "")
  {
  }
}

=== FILE: engine.dfy ===
/** The container-engine front end: the image reference, the checks made before creating a
    container, and the argument vector handed to `podman create` / `docker create`.
    Process execution is not modelled; PATH lookup is the `lookPath` oracle and the
    filesystem is a `Host.Fs`. Go iterates the env map in an unspecified order, which
    the model takes as an explicit key order. */
module Engine {
  import opened Wrappers
  import opened Strs
  import Host
  import opened Maps

  const SupportedEngines: seq<string> := ["podman", "docker"]

  datatype ContainerImage = ContainerImage(registry: string, repository: string, name: string, tag: string, hash: string)

  datatype VolumeMount = VolumeMount(source: string, destination: string, mountOptions: string)

  /** Everything `create` needs. A nil slice or map and an empty one give the same
      arguments, so both are plain collections here. */
  datatype ContainerRef = ContainerRef(
    image: ContainerImage,
    tag: string,
    volumes: seq<VolumeMount>,
    envs: map<string, string>,
    tty: bool,
    publishAll: bool,
    interactive: bool,
    entrypoint: string,
    command: string,
    bestEffortArgs: seq<string>)

  datatype Engine = Engine(engine: string, binary: string, dryRun: bool, verbose: bool)

  /** `registry/repository/name:tag`, each leading part only when non-empty. */
  function ImageFQDN(c: ContainerRef): string {
    var i := c.image.name + ":" + c.image.tag;
    var i' := if c.image.repository != "" then c.image.repository + "/" + i else i;
    if c.image.registry != "" then c.image.registry + "/" + i' else i'
  }

  /** The image reference is `name:tag`, with `repository/` in front when the
      repository is non-empty and `registry/` in front of that when the registry is. */
  lemma ImageFQDNShape(c: ContainerRef)
    ensures ImageFQDN(c) == (if c.image.registry == "" then "" else c.image.registry + "/") +
                            (if c.image.repository == "" then "" else c.image.repository + "/") +
                            (c.image.name + ":" + c.image.tag)
  {
    var i := c.image.name + ":" + c.image.tag;
    var p := if c.image.repository == "" then "" else c.image.repository + "/";
    var q := if c.image.registry == "" then "" else c.image.registry + "/";
    assert ImageFQDN(c) == q + (p + i);
  }

  /** New: an engine outside the supported list is refused before the PATH lookup. */
  function New(engine: string, dryRun: bool, verbose: bool, lookPath: string -> Result<string>): (r: Result<Engine>)
    ensures r.Ok? ==> engine in SupportedEngines && lookPath(engine) == Ok(r.value.binary) && r.value.engine == engine
    ensures engine !in SupportedEngines ==>
      r == Err("error: engine " + engine + " not in supported engines: " + Join(SupportedEngines, ", "))
    ensures engine in SupportedEngines && lookPath(engine).Err? ==>
      r == Err("error: engine not found in $PATH: " + lookPath(engine).msg)
    ensures engine in SupportedEngines && lookPath(engine).Ok? ==>
      r == Ok(Engine(engine, lookPath(engine).value, dryRun, verbose))
  {
    if engine !in SupportedEngines then
      Err("error: engine " + engine + " not in supported engines: " + Join(SupportedEngines, ", "))
    else
      match lookPath(engine)
      case Err(e) => Err("error: engine not found in $PATH: " + e)
      case Ok(bin) => Ok(Engine(engine, bin, dryRun, verbose))
  }

  /** The outcome for an unsupported engine does not depend on PATH at all. */
  lemma NewRejectsBeforeLookup(engine: string, dryRun: bool, verbose: bool, p1: string -> Result<string>, p2: string -> Result<string>)
    requires engine !in SupportedEngines
    ensures New(engine, dryRun, verbose, p1) == New(engine, dryRun, verbose, p2)
    ensures New(engine, dryRun, verbose, p1).Err?
  {
  }

  /** fmt's `%v` of a VolumeMount. */
  function VolumeString(v: VolumeMount): string {
    "{" + v.source + " " + v.destination + " " + v.mountOptions + "}"
  }

  predicate VolumeOk(v: VolumeMount, fs: Host.Fs) {
    v.source != "" && v.destination != "" && Host.Exists(fs, v.source)
  }

  /** The error for the first bad volume: an empty side, or a source that cannot be
      stat'ed. The `Clean` calls in the loop work on a copy and change nothing. */
  function ValidateContainerRef(c: ContainerRef, fs: Host.Fs): (r: Option<string>)
    ensures r.None? <==> forall i :: 0 <= i < |c.volumes| ==> VolumeOk(c.volumes[i], fs)
    ensures r.Some? ==> exists i :: 0 <= i < |c.volumes| && !VolumeOk(c.volumes[i], fs) && r == Some(VolumeError(c.volumes[i]))
  {
    ValidateVolumes(c.volumes, fs)
  }

  function VolumeError(v: VolumeMount): string {
    if v.source == "" || v.destination == "" then "error: invalid volume mount: " + VolumeString(v)
    else "error: problem reading source volume: " + v.source + ": " + Host.StatError(v.source)
  }

  function ValidateVolumes(vs: seq<VolumeMount>, fs: Host.Fs): (r: Option<string>)
    ensures r.None? <==> forall i :: 0 <= i < |vs| ==> VolumeOk(vs[i], fs)
    ensures r.Some? ==>
      exists i :: 0 <= i < |vs| && !VolumeOk(vs[i], fs) && r == Some(VolumeError(vs[i])) && forall j :: 0 <= j < i ==> VolumeOk(vs[j], fs)
    decreases |vs|
  {
    if |vs| == 0 then None
    else if !VolumeOk(vs[0], fs) then Some(VolumeError(vs[0]))
    else
      var r := ValidateVolumes(vs[1..], fs);
      assert forall i :: 1 <= i < |vs| ==> vs[1..][i - 1] == vs[i];
      r
  }

  /** One argument of the `create` vector, before rendering; the rank is its segment's
      place in the vector. */
  datatype Arg =
    | Privileged
    | PublishAll
    | EnvFlag
    | EnvEntry(key: string, val: string)
    | Volume(v: VolumeMount)
    | BestEffort(arg: string)
    | Entrypoint(entry: string)
    | TtyFlag
    | InteractiveFlag
    | Image(fqdn: string)
    | Command(cmd: string)
  {
    function Rank(): nat {
      match this
      case Privileged => 0
      case PublishAll => 1
      case EnvFlag => 2
      case EnvEntry(_, _) => 2
      case Volume(_) => 3
      case BestEffort(_) => 4
      case Entrypoint(_) => 5
      case TtyFlag => 6
      case InteractiveFlag => 7
      case Image(_) => 8
      case Command(_) => 9
    }
  }

  /** One env entry: the bare key when the value is empty, else `key=value`. */
  function EnvPair(k: string, v: string): string {
    if v == "" then k else k + "=" + v
  }

  /** `--volume=source:destination:options` */
  function VolumeArg(v: VolumeMount): string {
    "--volume=" + v.source + ":" + v.destination + ":" + v.mountOptions
  }

  /** The command-line text of one argument. */
  function Render(a: Arg): string {
    match a
    case Privileged => "--privileged"
    case PublishAll => "--publish-all"
    case EnvFlag => "--env"
    case EnvEntry(k, v) => EnvPair(k, v)
    case Volume(v) => VolumeArg(v)
    case BestEffort(s) => s
    case Entrypoint(e) => "--entrypoint=" + e
    case TtyFlag => "--tty"
    case InteractiveFlag => "--interactive"
    case Image(s) => s
    case Command(s) => s
  }

  function RenderAll(ts: seq<Arg>): (r: seq<string>)
    ensures |r| == |ts|
    ensures forall i :: 0 <= i < |ts| ==> r[i] == Render(ts[i])
  {
    seq(|ts|, i requires 0 <= i < |ts| => Render(ts[i]))
  }

  /** Each rank lies between `lo` and `hi`. */
  predicate RanksIn(ts: seq<Arg>, lo: nat, hi: nat)
    decreases |ts|
  {
    |ts| == 0 || (lo <= ts[0].Rank() <= hi && RanksIn(ts[1..], lo, hi))
  }

  /** No rank is lower than the one before it. */
  predicate Ordered(ts: seq<Arg>)
    decreases |ts|
  {
    |ts| <= 1 || (ts[0].Rank() <= ts[1].Rank() && Ordered(ts[1..]))
  }

  lemma {:induction false} RanksInAt(ts: seq<Arg>, lo: nat, hi: nat, i: nat)
    requires RanksIn(ts, lo, hi) && i < |ts|
    ensures lo <= ts[i].Rank() <= hi
    decreases i
  {
    if i > 0 {
      RanksInAt(ts[1..], lo, hi, i - 1);
    }
  }

  /** A run whose every argument has rank `k`. */
  lemma {:induction false} FlatRun(ts: seq<Arg>, k: nat)
    requires forall i :: 0 <= i < |ts| ==> ts[i].Rank() == k
    ensures RanksIn(ts, k, k) && Ordered(ts)
    decreases |ts|
  {
    if |ts| > 0 {
      FlatRun(ts[1..], k);
      if |ts| > 1 {
        assert ts[1..][0] == ts[1];
      }
    }
  }

  /** Ordered in the pairwise sense: any earlier argument ranks no higher than any later one. */
  lemma {:induction false} OrderedPairwise(ts: seq<Arg>, i: nat, j: nat)
    requires Ordered(ts) && i < j < |ts|
    ensures ts[i].Rank() <= ts[j].Rank()
    decreases j
  {
    if i > 0 {
      OrderedPairwise(ts[1..], i - 1, j - 1);
    } else if j > 1 {
      OrderedPairwise(ts[1..], 0, j - 1);
    }
  }

  /** Two ordered runs, the first ranked no higher than the second, make an ordered run. */
  lemma {:induction false} OrderedConcat(a: seq<Arg>, b: seq<Arg>, lo: nat, m1: nat, m2: nat, hi: nat)
    requires lo <= m1 <= m2 <= hi
    requires Ordered(a) && Ordered(b) && RanksIn(a, lo, m1) && RanksIn(b, m2, hi)
    ensures Ordered(a + b) && RanksIn(a + b, lo, hi)
    decreases |a|
  {
    if |a| == 0 {
      assert a + b == b;
      RanksWiden(b, m2, hi, lo, hi);
    } else {
      assert (a + b)[1..] == a[1..] + b;
      OrderedConcat(a[1..], b, lo, m1, m2, hi);
      if |a| == 1 && |b| > 0 {
        RanksInAt(b, m2, hi, 0);
      }
    }
  }

  lemma {:induction false} RanksWiden(ts: seq<Arg>, lo: nat, hi: nat, lo': nat, hi': nat)
    requires RanksIn(ts, lo, hi) && lo' <= lo && hi <= hi'
    ensures RanksIn(ts, lo', hi')
    decreases |ts|
  {
    if |ts| > 0 {
      RanksWiden(ts[1..], lo, hi, lo', hi');
    }
  }

  function TtyArgs(tty: bool, interactive: bool): (r: seq<Arg>)
    ensures (TtyFlag in r) <==> tty
    ensures (InteractiveFlag in r) <==> tty && interactive
    ensures forall a :: a in r ==> a == TtyFlag || a == InteractiveFlag
  {
    (if tty then [TtyFlag] else []) + (if interactive && tty then [InteractiveFlag] else [])
  }

  /** ttyToString: `--tty` iff tty, and `--interactive` only when tty is also set. */
  function TtyToString(tty: bool, interactive: bool): (r: seq<string>)
    ensures ("--tty" in r) <==> tty
    ensures ("--interactive" in r) <==> tty && interactive
    ensures |r| > 0 ==> r[0] == "--tty"
    ensures |r| <= 2
  {
    var r := RenderAll(TtyArgs(tty, interactive));
    assert |r| > 0 ==> r[0] == Render(TtyArgs(tty, interactive)[0]);
    assert |r| > 1 ==> r[1] == Render(TtyArgs(tty, interactive)[1]);
    r
  }

  /** A listing of the map's keys, each exactly once: the order Go's range happened to use. */

  /** `--env` and the entry, for each key of `order` in turn. */
  function EnvArgs(envs: map<string, string>, order: seq<string>): (r: seq<Arg>)
    requires forall k :: k in order ==> k in envs
    ensures |r| == 2 * |order|
    decreases |order|
  {
    if |order| == 0 then []
    else [EnvFlag, EnvEntry(order[0], envs[order[0]])] + EnvArgs(envs, order[1..])
  }

  lemma {:induction false} EnvArgsRanked(envs: map<string, string>, order: seq<string>)
    requires forall k :: k in order ==> k in envs
    ensures forall i :: 0 <= i < |EnvArgs(envs, order)| ==> EnvArgs(envs, order)[i].Rank() == 2
    decreases |order|
  {
    if |order| > 0 {
      var rest := EnvArgs(envs, order[1..]);
      var r := EnvArgs(envs, order);
      EnvArgsRanked(envs, order[1..]);
      forall i | 0 <= i < |r| ensures r[i].Rank() == 2 {
        if i >= 2 { assert r[i] == rest[i - 2]; }
      }
    }
  }

  lemma {:induction false} EnvArgsAt(envs: map<string, string>, order: seq<string>, i: nat)
    requires forall k :: k in order ==> k in envs
    requires i < |order|
    ensures EnvArgs(envs, order)[2 * i] == EnvFlag
    ensures EnvArgs(envs, order)[2 * i + 1] == EnvEntry(order[i], envs[order[i]])
    decreases i
  {
    if i > 0 {
      EnvArgsAt(envs, order[1..], i - 1);
      assert order[1..][i - 1] == order[i];
    }
  }

  /** envsToString: `--env` then the entry, once per key. */
  function EnvsToString(envs: map<string, string>, order: seq<string>): (r: seq<string>)
    requires IsKeyOrder(order, envs)
    ensures |r| == 2 * |order| == 2 * |envs|
  {
    KeyOrderLength(order, envs);
    RenderAll(EnvArgs(envs, order))
  }

  /** The layout of envsToString's output, and every entry of the map appears in it. */
  lemma EnvsToStringLayout(envs: map<string, string>, order: seq<string>)
    requires IsKeyOrder(order, envs)
    ensures forall i :: 0 <= i < |order| ==>
      EnvsToString(envs, order)[2 * i] == "--env" && EnvsToString(envs, order)[2 * i + 1] == EnvPair(order[i], envs[order[i]])
    ensures forall k :: k in envs ==> EnvPair(k, envs[k]) in EnvsToString(envs, order)
  {
    var r := EnvsToString(envs, order);
    forall i | 0 <= i < |order|
      ensures r[2 * i] == "--env" && r[2 * i + 1] == EnvPair(order[i], envs[order[i]])
    {
      EnvArgsAt(envs, order, i);
    }
    forall k | k in envs
      ensures EnvPair(k, envs[k]) in r
    {
      var i :| 0 <= i < |order| && order[i] == k;
      EnvArgsAt(envs, order, i);
      assert r[2 * i + 1] == EnvPair(k, envs[k]);
    }
  }

  function VolumeArgs(vs: seq<VolumeMount>): (r: seq<Arg>)
    ensures |r| == |vs|
    ensures forall i :: 0 <= i < |vs| ==> r[i] == Volume(vs[i])
  {
    seq(|vs|, i requires 0 <= i < |vs| => Volume(vs[i]))
  }

  function BestEffortArgs(xs: seq<string>): (r: seq<Arg>)
    ensures |r| == |xs|
    ensures forall i :: 0 <= i < |xs| ==> r[i] == BestEffort(xs[i])
  {
    seq(|xs|, i requires 0 <= i < |xs| => BestEffort(xs[i]))
  }

  /** `--privileged`, then `--publish-all` when asked for. */
  function HeadArgs(c: ContainerRef): (r: seq<Arg>)
    ensures |r| > 0 && r[0] == Privileged
    ensures (PublishAll in r) <==> c.publishAll
  {
    [Privileged] + (if c.publishAll then [PublishAll] else [])
  }

  /** The entrypoint override, when one is given. */
  function EntryArgs(c: ContainerRef): (r: seq<Arg>)
    ensures |r| <= 1 && (|r| == 1 <==> c.entrypoint != "")
    ensures |r| == 1 ==> r[0] == Entrypoint(c.entrypoint)
  {
    if c.entrypoint != "" then [Entrypoint(c.entrypoint)] else []
  }

  /** The image, then the command when one is given. */
  function TailArgs(c: ContainerRef): (r: seq<Arg>)
    ensures |r| > 0 && r[0] == Image(ImageFQDN(c))
    ensures |r| == (if c.command != "" then 2 else 1)
    ensures |r| == 2 ==> r[1] == Command(c.command)
  {
    [Image(ImageFQDN(c))] + (if c.command != "" then [Command(c.command)] else [])
  }

  /** The arguments of a reference, in parseRefToArgs's order. */
  function ArgList(c: ContainerRef, order: seq<string>): (r: seq<Arg>)
    requires IsKeyOrder(order, c.envs)
    ensures |r| > 0 && r[0] == Privileged
  {
    FrontArgs(c, order) + TailArgs(c)
  }

  /** Everything before the image. */
  function FrontArgs(c: ContainerRef, order: seq<string>): seq<Arg>
    requires IsKeyOrder(order, c.envs)
  {
    HeadArgs(c) + (EnvArgs(c.envs, order) + (VolumeArgs(c.volumes) + (BestEffortArgs(c.bestEffortArgs) +
      (EntryArgs(c) + TtyArgs(c.tty, c.interactive)))))
  }

  lemma HeadRanked(c: ContainerRef)
    ensures Ordered(HeadArgs(c)) && RanksIn(HeadArgs(c), 0, 1)
  {
    var h := HeadArgs(c);
    if |h| > 1 { assert h[1..] == [PublishAll]; }
  }

  lemma TtyRanked(tty: bool, interactive: bool)
    ensures Ordered(TtyArgs(tty, interactive)) && RanksIn(TtyArgs(tty, interactive), 6, 7)
  {
    var t := TtyArgs(tty, interactive);
    if |t| > 1 { assert t[1..] == [InteractiveFlag]; }
  }

  lemma TailRanked(c: ContainerRef)
    ensures Ordered(TailArgs(c)) && RanksIn(TailArgs(c), 8, 9)
  {
    var t := TailArgs(c);
    if |t| > 1 { assert t[1..] == [Command(c.command)]; }
  }

  lemma FlatSegmentsRanked(c: ContainerRef, order: seq<string>)
    requires IsKeyOrder(order, c.envs)
    ensures Ordered(EnvArgs(c.envs, order)) && RanksIn(EnvArgs(c.envs, order), 2, 2)
    ensures Ordered(VolumeArgs(c.volumes)) && RanksIn(VolumeArgs(c.volumes), 3, 3)
    ensures Ordered(BestEffortArgs(c.bestEffortArgs)) && RanksIn(BestEffortArgs(c.bestEffortArgs), 4, 4)
    ensures Ordered(EntryArgs(c)) && RanksIn(EntryArgs(c), 5, 5)
  {
    EnvArgsRanked(c.envs, order);
    FlatRun(EnvArgs(c.envs, order), 2);
    FlatRun(VolumeArgs(c.volumes), 3);
    FlatRun(BestEffortArgs(c.bestEffortArgs), 4);
    FlatRun(EntryArgs(c), 5);
  }

  /** The segments come in rank order, so the whole list is ordered. */
  lemma ArgListOrdered(c: ContainerRef, order: seq<string>)
    requires IsKeyOrder(order, c.envs)
    ensures Ordered(ArgList(c, order))
  {
    var head := HeadArgs(c);
    var envs := EnvArgs(c.envs, order);
    var vols := VolumeArgs(c.volumes);
    var best := BestEffortArgs(c.bestEffortArgs);
    var entry := EntryArgs(c);
    var tty := TtyArgs(c.tty, c.interactive);
    var tail := TailArgs(c);
    HeadRanked(c);
    FlatSegmentsRanked(c, order);
    TtyRanked(c.tty, c.interactive);
    TailRanked(c);
    var s5 := entry + tty;
    OrderedConcat(entry, tty, 5, 5, 6, 7);
    var s4 := best + s5;
    OrderedConcat(best, s5, 4, 4, 5, 7);
    var s3 := vols + s4;
    OrderedConcat(vols, s4, 3, 3, 4, 7);
    var s2 := envs + s3;
    OrderedConcat(envs, s3, 2, 2, 3, 7);
    OrderedConcat(head, s2, 0, 1, 2, 7);
    OrderedConcat(head + s2, tail, 0, 7, 8, 9);
  }

  /** parseRefToArgs: the rendered argument list. It never fails. */
  function ParseRefToArgs(c: ContainerRef, order: seq<string>): (r: seq<string>)
    requires IsKeyOrder(order, c.envs)
    ensures |r| == |ArgList(c, order)|
    ensures r[0] == "--privileged"
  {
    RenderAll(ArgList(c, order))
  }

  function AsVolume(a: Arg): Option<VolumeMount> {
    if a.Volume? then Some(a.v) else None
  }

  function AsBestEffort(a: Arg): Option<string> {
    if a.BestEffort? then Some(a.arg) else None
  }

  /** The payloads `f` picks out of the arguments, in their order. */
  function Pick<T>(ts: seq<Arg>, f: Arg -> Option<T>): (r: seq<T>)
    ensures |r| <= |ts|
    decreases |ts|
  {
    if |ts| == 0 then []
    else (match f(ts[0]) case Some(x) => [x] case None => []) + Pick(ts[1..], f)
  }

  lemma {:induction false} PickConcat<T>(a: seq<Arg>, b: seq<Arg>, f: Arg -> Option<T>)
    ensures Pick(a + b, f) == Pick(a, f) + Pick(b, f)
    decreases |a|
  {
    if |a| == 0 {
      assert a + b == b;
    } else {
      assert (a + b)[0] == a[0];
      assert (a + b)[1..] == a[1..] + b;
      PickConcat(a[1..], b, f);
    }
  }

  lemma {:induction false} PickNone<T>(ts: seq<Arg>, f: Arg -> Option<T>)
    requires forall i :: 0 <= i < |ts| ==> f(ts[i]).None?
    ensures Pick(ts, f) == []
    decreases |ts|
  {
    if |ts| > 0 {
      PickNone(ts[1..], f);
    }
  }

  lemma {:induction false} PickVolumes(vs: seq<VolumeMount>)
    ensures Pick(VolumeArgs(vs), AsVolume) == vs
    decreases |vs|
  {
    if |vs| > 0 {
      assert VolumeArgs(vs)[1..] == VolumeArgs(vs[1..]);
      PickVolumes(vs[1..]);
    }
  }

  lemma {:induction false} PickBestEffort(xs: seq<string>)
    ensures Pick(BestEffortArgs(xs), AsBestEffort) == xs
    decreases |xs|
  {
    if |xs| > 0 {
      assert BestEffortArgs(xs)[1..] == BestEffortArgs(xs[1..]);
      PickBestEffort(xs[1..]);
    }
  }

  /** Picking from the argument list is picking from each segment in turn. */
  lemma PickSegments<T>(c: ContainerRef, order: seq<string>, f: Arg -> Option<T>)
    requires IsKeyOrder(order, c.envs)
    ensures Pick(ArgList(c, order), f) ==
      Pick(HeadArgs(c), f) + (Pick(EnvArgs(c.envs, order), f) + (Pick(VolumeArgs(c.volumes), f) +
      (Pick(BestEffortArgs(c.bestEffortArgs), f) + (Pick(EntryArgs(c), f) +
      Pick(TtyArgs(c.tty, c.interactive), f))))) + Pick(TailArgs(c), f)
  {
    var head := HeadArgs(c);
    var envs := EnvArgs(c.envs, order);
    var vols := VolumeArgs(c.volumes);
    var best := BestEffortArgs(c.bestEffortArgs);
    var entry := EntryArgs(c);
    var tty := TtyArgs(c.tty, c.interactive);
    var s5 := entry + tty;
    var s4 := best + s5;
    var s3 := vols + s4;
    var s2 := envs + s3;
    PickConcat(entry, tty, f);
    PickConcat(best, s5, f);
    PickConcat(vols, s4, f);
    PickConcat(envs, s3, f);
    PickConcat(head, s2, f);
    PickConcat(head + s2, TailArgs(c), f);
  }

  /** None of the fixed segments, nor the env arguments, holds a volume or a best-effort
      argument. */
  lemma PickOthers<T>(c: ContainerRef, order: seq<string>, f: Arg -> Option<T>)
    requires IsKeyOrder(order, c.envs)
    requires forall a: Arg :: !a.Volume? && !a.BestEffort? ==> f(a).None?
    ensures Pick(HeadArgs(c), f) == [] && Pick(EnvArgs(c.envs, order), f) == []
    ensures Pick(EntryArgs(c), f) == [] && Pick(TtyArgs(c.tty, c.interactive), f) == []
    ensures Pick(TailArgs(c), f) == []
  {
    PickEnvNone(c.envs, order, f);
    PickHeadNone(c, f);
    PickEntryNone(c, f);
    PickTtyNone(c.tty, c.interactive, f);
    PickTailNone(c, f);
  }

  lemma PickEnvNone<T>(envs: map<string, string>, order: seq<string>, f: Arg -> Option<T>)
    requires forall k :: k in order ==> k in envs
    requires forall a: Arg :: !a.Volume? && !a.BestEffort? ==> f(a).None?
    ensures Pick(EnvArgs(envs, order), f) == []
  {
    EnvArgsRanked(envs, order);
    PickNone(EnvArgs(envs, order), f);
  }

  lemma PickHeadNone<T>(c: ContainerRef, f: Arg -> Option<T>)
    requires forall a: Arg :: !a.Volume? && !a.BestEffort? ==> f(a).None?
    ensures Pick(HeadArgs(c), f) == []
  {
    PickNone(HeadArgs(c), f);
  }

  lemma PickEntryNone<T>(c: ContainerRef, f: Arg -> Option<T>)
    requires forall a: Arg :: !a.Volume? && !a.BestEffort? ==> f(a).None?
    ensures Pick(EntryArgs(c), f) == []
  {
    PickNone(EntryArgs(c), f);
  }

  lemma PickTtyNone<T>(tty: bool, interactive: bool, f: Arg -> Option<T>)
    requires forall a: Arg :: !a.Volume? && !a.BestEffort? ==> f(a).None?
    ensures Pick(TtyArgs(tty, interactive), f) == []
  {
    PickNone(TtyArgs(tty, interactive), f);
  }

  lemma PickTailNone<T>(c: ContainerRef, f: Arg -> Option<T>)
    requires forall a: Arg :: !a.Volume? && !a.BestEffort? ==> f(a).None?
    ensures Pick(TailArgs(c), f) == []
  {
    PickNone(TailArgs(c), f);
  }

  /** Reading the volumes back out of the argument list gives the reference's own, in the
      same order. */
  lemma ArgListCarriesVolumes(c: ContainerRef, order: seq<string>)
    requires IsKeyOrder(order, c.envs)
    ensures Pick(ArgList(c, order), AsVolume) == c.volumes
  {
    PickSegments(c, order, AsVolume);
    PickOthers(c, order, AsVolume);
    PickNone(BestEffortArgs(c.bestEffortArgs), AsVolume);
    PickVolumes(c.volumes);
  }

  /** Likewise the best-effort arguments. */
  lemma ArgListCarriesBestEffort(c: ContainerRef, order: seq<string>)
    requires IsKeyOrder(order, c.envs)
    ensures Pick(ArgList(c, order), AsBestEffort) == c.bestEffortArgs
  {
    PickSegments(c, order, AsBestEffort);
    PickOthers(c, order, AsBestEffort);
    PickNone(VolumeArgs(c.volumes), AsBestEffort);
    PickBestEffort(c.bestEffortArgs);
  }

  /** An argument is in the list exactly when it is in one of the segments. */
  lemma ArgListMember(c: ContainerRef, order: seq<string>, x: Arg)
    requires IsKeyOrder(order, c.envs)
    ensures x in ArgList(c, order) <==>
      x in HeadArgs(c) || x in EnvArgs(c.envs, order) || x in VolumeArgs(c.volumes) ||
      x in BestEffortArgs(c.bestEffortArgs) || x in EntryArgs(c) ||
      x in TtyArgs(c.tty, c.interactive) || x in TailArgs(c)
  {
  }

  /** The env segment holds only `--env` and entries. */
  lemma EnvArgsOnlyEnv(envs: map<string, string>, order: seq<string>, x: Arg)
    requires forall k :: k in order ==> k in envs
    requires x in EnvArgs(envs, order)
    ensures x.Rank() == 2
  {
    EnvArgsRanked(envs, order);
  }

  /** Every entry of the env map is passed. */
  lemma ArgListCarriesEnvs(c: ContainerRef, order: seq<string>)
    requires IsKeyOrder(order, c.envs)
    ensures forall k :: k in c.envs ==> EnvEntry(k, c.envs[k]) in ArgList(c, order)
  {
    forall k | k in c.envs
      ensures EnvEntry(k, c.envs[k]) in ArgList(c, order)
    {
      var i :| 0 <= i < |order| && order[i] == k;
      EnvArgsAt(c.envs, order, i);
      assert EnvArgs(c.envs, order)[2 * i + 1] == EnvEntry(k, c.envs[k]);
      ArgListMember(c, order, EnvEntry(k, c.envs[k]));
    }
  }

  /** The image comes right before the optional command, which is last. */
  lemma ArgListTail(c: ContainerRef, order: seq<string>)
    requires IsKeyOrder(order, c.envs)
    ensures var t := ArgList(c, order);
      && |t| >= (if c.command != "" then 2 else 1)
      && t[|t| - 1 - (if c.command != "" then 1 else 0)] == Image(ImageFQDN(c))
      && (c.command != "" ==> t[|t| - 1] == Command(c.command))
  {
    var tail := TailArgs(c);
    var front := FrontArgs(c, order);
    var t := ArgList(c, order);
    assert t[|front|] == tail[0];
    if c.command != "" {
      assert t[|front| + 1] == tail[1];
    }
  }

  /** A flag outside the env, volume and best-effort segments is in the list exactly when
      its own segment holds it. */
  lemma ArgListFlag(c: ContainerRef, order: seq<string>, x: Arg)
    requires IsKeyOrder(order, c.envs)
    requires x.Rank() !in {2, 3, 4}
    ensures x in ArgList(c, order) <==>
      x in HeadArgs(c) || x in EntryArgs(c) || x in TtyArgs(c.tty, c.interactive) || x in TailArgs(c)
  {
    ArgListMember(c, order, x);
    if x in EnvArgs(c.envs, order) {
      EnvArgsOnlyEnv(c.envs, order, x);
    }
  }

  /** Each optional flag is present exactly when asked for. */
  lemma ArgListPublishAll(c: ContainerRef, order: seq<string>)
    requires IsKeyOrder(order, c.envs)
    ensures (PublishAll in ArgList(c, order)) <==> c.publishAll
  {
    ArgListFlag(c, order, PublishAll);
  }

  lemma ArgListEntrypoint(c: ContainerRef, order: seq<string>)
    requires IsKeyOrder(order, c.envs)
    ensures (Entrypoint(c.entrypoint) in ArgList(c, order)) <==> c.entrypoint != ""
  {
    ArgListFlag(c, order, Entrypoint(c.entrypoint));
  }

  lemma ArgListTty(c: ContainerRef, order: seq<string>)
    requires IsKeyOrder(order, c.envs)
    ensures (TtyFlag in ArgList(c, order)) <==> c.tty
    ensures (InteractiveFlag in ArgList(c, order)) <==> c.tty && c.interactive
  {
    ArgListFlag(c, order, TtyFlag);
    ArgListFlag(c, order, InteractiveFlag);
  }

  /** An argument in the list shows up rendered in the string vector. */
  lemma RenderedIn(ts: seq<Arg>, x: Arg)
    requires x in ts
    ensures Render(x) in RenderAll(ts)
  {
    var i :| 0 <= i < |ts| && ts[i] == x;
    assert RenderAll(ts)[i] == Render(x);
  }

  /** The string vector: every env entry is passed. */
  lemma ParseRefToArgsEnvs(c: ContainerRef, order: seq<string>)
    requires IsKeyOrder(order, c.envs)
    ensures forall k :: k in c.envs ==> EnvPair(k, c.envs[k]) in ParseRefToArgs(c, order)
  {
    ArgListCarriesEnvs(c, order);
    forall k | k in c.envs
      ensures EnvPair(k, c.envs[k]) in ParseRefToArgs(c, order)
    {
      RenderedIn(ArgList(c, order), EnvEntry(k, c.envs[k]));
    }
  }

  /** Every volume is passed as its `--volume=` argument. */
  lemma ParseRefToArgsVolumes(c: ContainerRef, order: seq<string>)
    requires IsKeyOrder(order, c.envs)
    ensures forall v :: v in c.volumes ==> VolumeArg(v) in ParseRefToArgs(c, order)
  {
    var t := ArgList(c, order);
    ArgListCarriesVolumes(c, order);
    forall v | v in c.volumes
      ensures VolumeArg(v) in ParseRefToArgs(c, order)
    {
      PickedVolume(t, v);
      RenderedIn(t, Volume(v));
    }
  }

  /** Every best-effort argument is passed unchanged. */
  lemma ParseRefToArgsBestEffort(c: ContainerRef, order: seq<string>)
    requires IsKeyOrder(order, c.envs)
    ensures forall x :: x in c.bestEffortArgs ==> x in ParseRefToArgs(c, order)
  {
    var t := ArgList(c, order);
    ArgListCarriesBestEffort(c, order);
    forall x | x in c.bestEffortArgs
      ensures x in ParseRefToArgs(c, order)
    {
      PickedBestEffort(t, x);
      RenderedIn(t, BestEffort(x));
    }
  }

  /** The string vector ends with the image reference and then the command, if any. */
  lemma ParseRefToArgsTail(c: ContainerRef, order: seq<string>)
    requires IsKeyOrder(order, c.envs)
    ensures var r := ParseRefToArgs(c, order);
      && |r| >= (if c.command != "" then 2 else 1)
      && r[|r| - 1 - (if c.command != "" then 1 else 0)] == ImageFQDN(c)
      && (c.command != "" ==> r[|r| - 1] == c.command)
  {
    ArgListTail(c, order);
    RenderedTail(ArgList(c, order), ImageFQDN(c), c.command);
  }

  /** Rendering keeps an image-then-optional-command tail. */
  lemma RenderedTail(ts: seq<Arg>, image: string, command: string)
    requires |ts| >= (if command != "" then 2 else 1)
    requires ts[|ts| - 1 - (if command != "" then 1 else 0)] == Image(image)
    requires command != "" ==> ts[|ts| - 1] == Command(command)
    ensures var r := RenderAll(ts);
      && |r| >= (if command != "" then 2 else 1)
      && r[|r| - 1 - (if command != "" then 1 else 0)] == image
      && (command != "" ==> r[|r| - 1] == command)
  {
  }

  /** The flags asked for are passed. Their spellings may also occur among the best-effort
      arguments, so only presence is stated for the strings. */
  lemma ParseRefToArgsFlags(c: ContainerRef, order: seq<string>)
    requires IsKeyOrder(order, c.envs)
    ensures c.publishAll ==> "--publish-all" in ParseRefToArgs(c, order)
    ensures c.entrypoint != "" ==> "--entrypoint=" + c.entrypoint in ParseRefToArgs(c, order)
  {
    ArgListPublishAll(c, order);
    ArgListEntrypoint(c, order);
    RenderedFlags(ArgList(c, order), c.publishAll, c.entrypoint);
  }

  lemma RenderedFlags(ts: seq<Arg>, publishAll: bool, entrypoint: string)
    requires (PublishAll in ts) <==> publishAll
    requires (Entrypoint(entrypoint) in ts) <==> entrypoint != ""
    ensures publishAll ==> "--publish-all" in RenderAll(ts)
    ensures entrypoint != "" ==> "--entrypoint=" + entrypoint in RenderAll(ts)
  {
    RenderedWhen(ts, PublishAll, publishAll);
    RenderedWhen(ts, Entrypoint(entrypoint), entrypoint != "");
  }

  /** The terminal flags asked for are passed. */
  lemma ParseRefToArgsTerminal(c: ContainerRef, order: seq<string>)
    requires IsKeyOrder(order, c.envs)
    ensures c.tty ==> "--tty" in ParseRefToArgs(c, order)
    ensures c.tty && c.interactive ==> "--interactive" in ParseRefToArgs(c, order)
  {
    ArgListTty(c, order);
    RenderedTerminal(ArgList(c, order), c.tty, c.interactive);
  }

  lemma RenderedTerminal(ts: seq<Arg>, tty: bool, interactive: bool)
    requires (TtyFlag in ts) <==> tty
    requires (InteractiveFlag in ts) <==> tty && interactive
    ensures tty ==> "--tty" in RenderAll(ts)
    ensures tty && interactive ==> "--interactive" in RenderAll(ts)
  {
    RenderedWhen(ts, TtyFlag, tty);
    RenderedWhen(ts, InteractiveFlag, tty && interactive);
  }

  /** An argument present whenever `b` holds is rendered whenever `b` holds. */
  lemma RenderedWhen(ts: seq<Arg>, x: Arg, b: bool)
    requires b ==> x in ts
    ensures b ==> Render(x) in RenderAll(ts)
  {
    if b { RenderedIn(ts, x); }
  }

  lemma PickedVolume(ts: seq<Arg>, v: VolumeMount)
    requires v in Pick(ts, AsVolume)
    ensures Volume(v) in ts
  {
    PickMember(ts, AsVolume, v);
    var i :| 0 <= i < |ts| && AsVolume(ts[i]) == Some(v);
    assert ts[i] == Volume(v);
  }

  lemma PickedBestEffort(ts: seq<Arg>, x: string)
    requires x in Pick(ts, AsBestEffort)
    ensures BestEffort(x) in ts
  {
    PickMember(ts, AsBestEffort, x);
    var i :| 0 <= i < |ts| && AsBestEffort(ts[i]) == Some(x);
    assert ts[i] == BestEffort(x);
  }

  /** Whatever `Pick` returns came from some argument. */
  lemma {:induction false} PickMember<T>(ts: seq<Arg>, f: Arg -> Option<T>, x: T)
    requires x in Pick(ts, f)
    ensures exists i :: 0 <= i < |ts| && f(ts[i]) == Some(x)
    decreases |ts|
  {
    if f(ts[0]) == Some(x) {
      assert f(ts[0]) == Some(x);
    } else {
      assert x in Pick(ts[1..], f);
      PickMember(ts[1..], f, x);
      var i :| 0 <= i < |ts[1..]| && f(ts[1..][i]) == Some(x);
      assert f(ts[i + 1]) == Some(x);
    }
  }

  /** Create's argument preparation: validation first, then the argument vector. */
  function CreateArgs(c: ContainerRef, order: seq<string>, fs: Host.Fs): (r: Result<seq<string>>)
    requires IsKeyOrder(order, c.envs)
    ensures r.Ok? <==> ValidateContainerRef(c, fs).None?
    ensures r.Ok? ==> r.value == ParseRefToArgs(c, order)
    ensures r.Err? ==> Some(r.msg) == ValidateContainerRef(c, fs)
  {
    match ValidateContainerRef(c, fs)
    case Some(e) => Err(e)
    case None => Ok(ParseRefToArgs(c, order))
  }
}

=== FILE: feat_aws.dfy ===
/** The legacy-aws-credentials feature: mounts the host's AWS credentials and config files
    read-only, each only when it exists. */
module LegacyAwsFeature {
  import opened Wrappers
  import Host
  import Engine
  import opened Features

  const FlagName := "no-legacy-aws"
  const Section := "features.legacy_aws_credentials"
  const Credentials := ".aws/credentials"
  const AwsConfig := ".aws/config"

  /** The feature's section: enabled. */
  datatype Config = Config(enabled: bool)

  const Defaults := Config(true)

  const ExitOnError := false

  function Configure(st: Host.Store, decoded: Result<Config>): (r: Configured<Config>)
    ensures r.userHasConfig <==> Host.IsSet(st, "features.legacy_aws_credentials")
    ensures !r.userHasConfig ==> r.config == Some(Config(true)) && r.err == None
    ensures r.userHasConfig ==> (r.err == None <==> decoded.Ok?)
  {
    Features.Configure(st, Section, Defaults, decoded, (c: Config) => None)
  }

  function Enabled(c: Config, st: Host.Store): (r: bool)
    ensures r <==> c.enabled && !Host.IsSet(st, "no-legacy-aws")
  {
    FlagEnabled(c.enabled, st, FlagName)
  }

  /** The only failure is an empty HOME; missing files are skipped, so there are at most two
      mounts, credentials before config. */
  function Initialize(fs: Host.Fs, env: Host.Env): (r: Outcome)
    ensures r.err == None <==> Host.Getenv(env, "HOME") != ""
    ensures r.err != None ==> r == Outcome(NewOptionSet(), Some("environment variable $HOME is not set"))
    ensures var home := Host.Getenv(env, "HOME");
      var cred := UnderHome(home, Credentials);
      var conf := UnderHome(home, AwsConfig);
      home != "" ==>
        r.opts.mounts == (if Host.Exists(fs, cred) then [Engine.VolumeMount(cred, "/root/" + Credentials, "ro")] else [])
                       + (if Host.Exists(fs, conf) then [Engine.VolumeMount(conf, "/root/" + AwsConfig, "ro")] else [])
    ensures |r.opts.mounts| <= 2
  {
    var home := Host.Getenv(env, "HOME");
    if home == "" then Outcome(NewOptionSet(), Some("environment variable $HOME is not set"))
    else
      var ms := MountExisting(fs, home, [Credentials, AwsConfig]);
      AddVolumeMountsInOrder(NewOptionSet(), ms);
      MountExistingTwo(fs, home, Credentials, AwsConfig);
      Outcome(AddVolumeMounts(NewOptionSet(), ms), None)
  }
}

=== FILE: feat_backplane.dfy ===
/** The backplane feature: mounts the backplane CLI configuration and points the container's
    BACKPLANE_CONFIG at it. */
module BackplaneFeature {
  import opened Wrappers
  import Host
  import Engine
  import opened Features

  const FlagName := "no-backplane"
  const Section := "features.backplane"
  const EnvKey := "BACKPLANE_CONFIG"
  const ConfigDest := "/root/.config/backplane/config.json"

  /** The feature's section: enabled, config_file. */
  datatype Config = Config(enabled: bool, configFile: string)

  const Defaults := Config(true, ".config/backplane/config.json")

  const ExitOnError := false

  function Configure(st: Host.Store, decoded: Result<Config>): (r: Configured<Config>)
    ensures r.userHasConfig <==> Host.IsSet(st, "features.backplane")
    ensures !r.userHasConfig ==> r.config == Some(Config(true, ".config/backplane/config.json")) && r.err == None
    ensures r.userHasConfig ==> (r.err == None <==> decoded.Ok?)
  {
    Features.Configure(st, Section, Defaults, decoded, (c: Config) => None)
  }

  function Enabled(c: Config, st: Host.Store): (r: bool)
    ensures r <==> c.enabled && !Host.IsSet(st, "no-backplane")
  {
    FlagEnabled(c.enabled, st, FlagName)
  }

  /** The host file to mount: a non-empty BACKPLANE_CONFIG in the host environment is taken as
      is, otherwise config_file is looked up as given and under HOME. */
  function ConfigPath(c: Config, fs: Host.Fs, env: Host.Env): (r: Result<string>)
    ensures Host.Getenv(env, EnvKey) != "" ==> r == Ok(Host.Getenv(env, EnvKey))
    ensures Host.Getenv(env, EnvKey) == "" ==> r == StatFileLocations(fs, Host.Getenv(env, "HOME"), c.configFile)
  {
    var b := Host.Getenv(env, EnvKey);
    if b != "" then Ok(b) else StatFileLocations(fs, Host.Getenv(env, "HOME"), c.configFile)
  }

  /** The chosen file must exist; then one environment entry and one read-write mount, both
      naming the in-container path. A failure adds nothing. */
  function Initialize(c: Config, fs: Host.Fs, env: Host.Env): (r: Outcome)
    ensures r.err == None <==>
      (if Host.Getenv(env, EnvKey) != "" then Host.Exists(fs, Host.Getenv(env, EnvKey))
       else StatFileLocations(fs, Host.Getenv(env, "HOME"), c.configFile).Ok?)
    ensures r.err != None ==> r.opts == NewOptionSet()
    ensures r.err == None ==> r.opts.envs == [EnvVar("BACKPLANE_CONFIG", "/root/.config/backplane/config.json")]
    ensures r.err == None ==> |r.opts.mounts| == 1 && Host.Exists(fs, r.opts.mounts[0].source)
    ensures r.err == None ==> r.opts.mounts[0].destination == ConfigDest && r.opts.mounts[0].mountOptions == "rw"
    ensures r.err == None && Host.Getenv(env, EnvKey) != "" ==> r.opts.mounts[0].source == Host.Getenv(env, EnvKey)
  {
    match ConfigPath(c, fs, env)
    case Err(e) => Outcome(NewOptionSet(), Some(e))
    case Ok(p) =>
      if !Host.Exists(fs, p) then Outcome(NewOptionSet(), Some(Host.StatError(p)))
      else
        var o := AddEnvKeyVal(NewOptionSet(), EnvKey, ConfigDest);
        Outcome(AddVolumeMount(o, Engine.VolumeMount(p, ConfigDest, "rw")), None)
  }
}

=== FILE: feat_ca.dfy ===
/** The certificate-authorities feature: mounts the host's CA trust anchors read-only. */
module CertificateAuthoritiesFeature {
  import opened Wrappers
  import Host
  import Engine
  import opened Features

  const FlagName := "no-certificate-authorities"
  const Section := "features.certificate_authorities"
  const AnchorsPath := "/etc/pki/ca-trust/source/anchors"

  /** The feature's section: enabled, source_anchors. */
  datatype Config = Config(enabled: bool, sourcePath: string)

  const Defaults := Config(true, AnchorsPath)

  const ExitOnError := false

  function Configure(st: Host.Store, decoded: Result<Config>): (r: Configured<Config>)
    ensures r.userHasConfig <==> Host.IsSet(st, "features.certificate_authorities")
    ensures !r.userHasConfig ==> r.config == Some(Config(true, "/etc/pki/ca-trust/source/anchors")) && r.err == None
    ensures r.userHasConfig ==> (r.err == None <==> decoded.Ok?)
  {
    Features.Configure(st, Section, Defaults, decoded, (c: Config) => None)
  }

  function Enabled(c: Config, st: Host.Store): (r: bool)
    ensures r <==> c.enabled && !Host.IsSet(st, "no-certificate-authorities")
  {
    FlagEnabled(c.enabled, st, FlagName)
  }

  /** The configured source is used as is (no HOME fallback) and always lands on the standard
      anchors directory, read-only. */
  function Initialize(c: Config, fs: Host.Fs): (r: Outcome)
    ensures r.err == None <==> Host.Exists(fs, c.sourcePath)
    ensures r.err == None ==> r.opts.mounts == [Engine.VolumeMount(c.sourcePath, "/etc/pki/ca-trust/source/anchors", "ro")]
    ensures r.err != None ==>
      (r.opts == NewOptionSet() && r.err == Some("error: problem reading CA Anchors: " + c.sourcePath + ": " + Host.StatError(c.sourcePath)))
  {
    if !Host.Exists(fs, c.sourcePath) then
      Outcome(NewOptionSet(), Some("error: problem reading CA Anchors: " + c.sourcePath + ": " + Host.StatError(c.sourcePath)))
    else
      Outcome(AddVolumeMount(NewOptionSet(), Engine.VolumeMount(c.sourcePath, AnchorsPath, "ro")), None)
  }
}

=== FILE: feat_clusterenvs.dfy ===
/** The additional-cluster-envs feature's configuration and switch; its Initialize talks to OCM
    and is not part of this model. */
module ClusterEnvsFeature {
  import opened Wrappers
  import Host
  import opened Features

  const FlagName := "no-additional-cluster-envs"
  const Section := "features.additional_cluster_envs"

  /** The feature's section: enabled. */
  datatype Config = Config(enabled: bool)

  const Defaults := Config(true)

  const ExitOnError := false

  function Configure(st: Host.Store, decoded: Result<Config>): (r: Configured<Config>)
    ensures r.userHasConfig <==> Host.IsSet(st, "features.additional_cluster_envs")
    ensures !r.userHasConfig ==> r.config == Some(Config(true)) && r.err == None
    ensures r.userHasConfig ==> (r.err == None <==> decoded.Ok?)
  {
    Features.Configure(st, Section, Defaults, decoded, (c: Config) => None)
  }

  /** Needs a cluster-id key first of all, then the configuration and the flag. */
  function Enabled(c: Config, st: Host.Store): (r: bool)
    ensures !Host.IsSet(st, "cluster-id") ==> !r
    ensures r <==> Host.IsSet(st, "cluster-id") && c.enabled && !Host.IsSet(st, "no-additional-cluster-envs")
  {
    if !Host.IsSet(st, "cluster-id") then false
    else if !c.enabled then false
    else if Host.IsSet(st, FlagName) then false
    else c.enabled && !Host.IsSet(st, FlagName)
  }
}

=== FILE: feat_gcloud.dfy ===
/** The gcloud feature: mounts the Google Cloud CLI configuration directory. */
module GcloudFeature {
  import opened Wrappers
  import Host
  import Engine
  import opened Features

  const FlagName := "no-gcloud"
  const Section := "features.gcloud"
  const ConfigDest := "/root/.config/gcloud"
  const ValidMountOptions := ["ro", "rw", "z", "Z", "ro,z", "ro,Z", "rw,z", "rw,Z"]

  /** The feature's section: enabled, config_dir, config_mount. */
  datatype Config = Config(enabled: bool, configDir: string, mountOpts: string)

  const Defaults := Config(true, ".config/gcloud", "ro")

  const ExitOnError := false

  /** A plain mode, an SELinux relabel flag, or a mode followed by a relabel flag. */
  predicate GoodOption(m: string) {
    || m == "ro" || m == "rw" || m == "z" || m == "Z"
    || m == "ro,z" || m == "ro,Z" || m == "rw,z" || m == "rw,Z"
  }

  /** The rejection lists the accepted options. */
  function Validate(c: Config): (r: Option<string>)
    ensures r == None <==> GoodOption(c.mountOpts)
  {
    if c.mountOpts in ValidMountOptions then None
    else Some("invalid mount option. Valid options are " + Host.GoList(ValidMountOptions))
  }

  function Configure(st: Host.Store, decoded: Result<Config>): (r: Configured<Config>)
    ensures r.userHasConfig <==> Host.IsSet(st, "features.gcloud")
    ensures !r.userHasConfig ==> r.config == Some(Config(true, ".config/gcloud", "ro")) && r.err == None
    ensures r.err == None ==> r.config.Some? && GoodOption(r.config.value.mountOpts)
  {
    Features.Configure(st, Section, Defaults, decoded, Validate)
  }

  function Enabled(c: Config, st: Host.Store): (r: bool)
    ensures r <==> c.enabled && !Host.IsSet(st, "no-gcloud")
  {
    FlagEnabled(c.enabled, st, FlagName)
  }

  /** One mount of the located directory, always to the standard in-container path whatever
      config_dir names. */
  function Initialize(c: Config, fs: Host.Fs, env: Host.Env): (r: Outcome)
    ensures var found := StatFileLocations(fs, Host.Getenv(env, "HOME"), c.configDir);
      && (r.err == None <==> found.Ok?)
      && (found.Ok? ==> r.opts.mounts == [Engine.VolumeMount(found.value, "/root/.config/gcloud", c.mountOpts)])
      && (found.Err? ==> r.opts == NewOptionSet() && r.err == Some(found.msg))
  {
    match StatFileLocations(fs, Host.Getenv(env, "HOME"), c.configDir)
    case Err(e) => Outcome(NewOptionSet(), Some(e))
    case Ok(p) => Outcome(AddVolumeMount(NewOptionSet(), Engine.VolumeMount(p, ConfigDest, c.mountOpts)), None)
  }
}

=== FILE: feat_histories.dfy ===
/** The persistent-histories feature (opt-in): a per-cluster host directory mounted as the
    container's shell-history directory. */
module HistoriesFeature {
  import opened Wrappers
  import Host
  import Engine
  import opened Features

  const FlagName := "no-persistent-histories"
  const Section := "features.persistent_histories"
  const DestDir := "/root/.cluster-history"
  const HistFile := ".bash_history"
  const NotDirMsg := "persistent history storage path is not a directory"

  /** The feature's section: enabled, storage_dir. */
  datatype Config = Config(enabled: bool, storageDir: string)

  const Defaults := Config(false, ".config/ocm-container/per-cluster-persistent")

  function Configure(st: Host.Store, decoded: Result<Config>): (r: Configured<Config>)
    ensures r.userHasConfig <==> Host.IsSet(st, "features.persistent_histories")
    ensures !r.userHasConfig ==> r.config == Some(Config(false, ".config/ocm-container/per-cluster-persistent")) && r.err == None
    ensures r.userHasConfig ==> (r.err == None <==> decoded.Ok?)
  {
    Features.Configure(st, Section, Defaults, decoded, (c: Config) => None)
  }

  /** On only when configured on, not switched off, and given a non-empty cluster-id. */
  function Enabled(c: Config, st: Host.Store): (r: bool)
    ensures r <==> c.enabled && !Host.IsSet(st, "no-persistent-histories") && Host.IsSet(st, "cluster-id") && Host.GetString(st, "cluster-id") != ""
  {
    if !c.enabled then false
    else if Host.IsSet(st, FlagName) then false
    else if !Host.IsSet(st, "cluster-id") || Host.GetString(st, "cluster-id") == "" then false
    else true
  }

  /** The OCM side of Initialize, which is outside the model: creating the client, or
      resolving the given cluster to its ID. */
  datatype ClusterLookup = ClientFailed(err: string) | LookupFailed(err: string) | ClusterId(id: string)

  /** Initialize's result and the feature's critical-error flag afterwards (ExitOnError). */
  datatype Init = Init(out: Outcome, critical: bool)

  /** Initialize: cluster-id, then the OCM lookup, then the storage directory, then the
      per-cluster directory (`mkdir` reports MkdirAll's error for a path). Only a failure to
      create that directory is critical; every failure adds nothing. */
  function Initialize(c: Config, st: Host.Store, fs: Host.Fs, env: Host.Env, ocm: ClusterLookup, mkdir: string -> Option<string>, critical: bool): (r: Init)
    ensures Host.GetString(st, "cluster-id") == "" ==>
      r == Init(Outcome(NewOptionSet(), Some("cluster-id is required for persistent histories")), critical)
    ensures r.out.err != None ==> r.out.opts == NewOptionSet()
    ensures r.critical <==> (critical || (r.out.err != None && Host.GetString(st, "cluster-id") != "" && ocm.ClusterId? &&
                                          StatStorageDir(fs, Host.Getenv(env, "HOME"), c.storageDir, NotDirMsg).path.Ok?))
    ensures r.out.err == None ==> ocm.ClusterId? && Host.GetString(st, "cluster-id") != ""
    ensures r.out.err == None ==>
      var dir := StatStorageDir(fs, Host.Getenv(env, "HOME"), c.storageDir, NotDirMsg).path;
      && dir.Ok? && Host.IsDir(fs, dir.value)
      && mkdir(Host.PathJoin(dir.value, ocm.id)) == None
      && r.out.opts.mounts == [Engine.VolumeMount(Host.PathJoin(dir.value, ocm.id), DestDir, "rw")]
      && r.out.opts.envs == [EnvVar("HISTFILE", "/root/.cluster-history/.bash_history")]
  {
    if Host.GetString(st, "cluster-id") == "" then
      Init(Outcome(NewOptionSet(), Some("cluster-id is required for persistent histories")), critical)
    else match ocm
      case ClientFailed(e) => Init(Outcome(NewOptionSet(), Some("error creating OCM client: " + e)), critical)
      case LookupFailed(e) => Init(Outcome(NewOptionSet(), Some("error getting cluster ID from OCM: " + e)), critical)
      case ClusterId(id) =>
        match StatStorageDir(fs, Host.Getenv(env, "HOME"), c.storageDir, NotDirMsg).path
        case Err(e) => Init(Outcome(NewOptionSet(), Some("error locating storage directory: " + e)), critical)
        case Ok(dir) =>
          var mount := Host.PathJoin(dir, id);
          match mkdir(mount)
          case Some(e) => Init(Outcome(NewOptionSet(), Some("error creating persistent histories directory: " + e)), true)
          case None =>
            var o := AddVolumeMount(NewOptionSet(), Engine.VolumeMount(mount, DestDir, "rw"));
            assert DestDir + "/" + HistFile == "/root/.cluster-history/.bash_history";
            Init(Outcome(AddEnv(o, EnvVar("HISTFILE", DestDir + "/" + HistFile)), None), critical)
  }

  /** Unlike the image cache, a storage path that is not a directory is an ordinary error. */
  lemma {:induction false} NotDirNotCritical(c: Config, st: Host.Store, fs: Host.Fs, env: Host.Env, id: string, mkdir: string -> Option<string>)
    requires Host.GetString(st, "cluster-id") != ""
    requires StatStorageDir(fs, Host.Getenv(env, "HOME"), c.storageDir, NotDirMsg).notDir
    ensures var r := Initialize(c, st, fs, env, ClusterId(id), mkdir, false);
      !r.critical && r.out.err == Some("error locating storage directory: " + NotDirMsg)
  {
    var d := StatStorageDir(fs, Host.Getenv(env, "HOME"), c.storageDir, NotDirMsg);
    assert d.path == Err(NotDirMsg);
  }
}

=== FILE: feat_imagecache.dfy ===
/** The image-cache feature (opt-in): mounts a host directory as the container's image store. */
module ImageCacheFeature {
  import opened Wrappers
  import opened Strs
  import Host
  import Engine
  import opened Features

  const FlagName := "no-image-cache"
  const Section := "features.image_cache"
  const DestDir := "/var/lib/containers/storage/"
  const NotDirMsg := "image cache storage path is not a directory"

  /** The feature's section: enabled, storage_dir. */
  datatype Config = Config(enabled: bool, storageDir: string)

  const Defaults := Config(false, ".config/ocm-container/images")

  function Configure(st: Host.Store, decoded: Result<Config>): (r: Configured<Config>)
    ensures r.userHasConfig <==> Host.IsSet(st, "features.image_cache")
    ensures !r.userHasConfig ==> r.config == Some(Config(false, ".config/ocm-container/images")) && r.err == None
    ensures r.userHasConfig ==> (r.err == None <==> decoded.Ok?)
  {
    Features.Configure(st, Section, Defaults, decoded, (c: Config) => None)
  }

  function Enabled(c: Config, st: Host.Store): (r: bool)
    ensures r <==> c.enabled && !Host.IsSet(st, "no-image-cache")
  {
    FlagEnabled(c.enabled, st, FlagName)
  }

  /** Initialize's result and the feature's critical-error flag afterwards (ExitOnError). */
  datatype Init = Init(out: Outcome, critical: bool)

  /** One read-write mount of the located directory; a failed lookup is wrapped, adds nothing,
      and is critical only when the chosen candidate is not a directory. */
  function Initialize(c: Config, fs: Host.Fs, env: Host.Env, critical: bool): (r: Init)
    ensures var d := StatStorageDir(fs, Host.Getenv(env, "HOME"), c.storageDir, NotDirMsg);
      && (r.out.err == None <==> d.path.Ok?)
      && (d.path.Ok? ==> r.out.opts.mounts == [Engine.VolumeMount(d.path.value, DestDir, "rw")] && r.critical == critical)
      && (d.path.Err? ==> r.out.opts == NewOptionSet() && r.out.err == Some("error locating storage directory: " + d.path.msg))
      && (r.critical <==> critical || d.notDir)
    ensures r.out.err == None ==> Host.IsDir(fs, r.out.opts.mounts[0].source)
    ensures c.storageDir != "" && Host.Exists(fs, c.storageDir) && !Host.IsDir(fs, c.storageDir) ==>
      r.critical && r.out.err == Some("error locating storage directory: " + NotDirMsg)
  {
    var d := StatStorageDir(fs, Host.Getenv(env, "HOME"), c.storageDir, NotDirMsg);
    match d.path
    case Err(e) => Init(Outcome(NewOptionSet(), Some("error locating storage directory: " + e)), critical || d.notDir)
    case Ok(p) => Init(Outcome(AddVolumeMount(NewOptionSet(), Engine.VolumeMount(p, DestDir, "rw")), None), critical)
  }

  /** When neither candidate exists the error names both, and the flag is left as it was. */
  lemma {:induction false} NotFoundNotCritical(c: Config, fs: Host.Fs, env: Host.Env, critical: bool)
    requires c.storageDir != "" && !Host.Exists(fs, c.storageDir)
    requires !Host.Exists(fs, Host.PathJoin(Host.Getenv(env, "HOME"), c.storageDir))
    ensures var p := c.storageDir;
      var r := Initialize(c, fs, env, critical);
      && r.critical == critical
      && r.out.err == Some("error locating storage directory: " +
           ("could not find " + p + " in any of: " + Host.GoList([p, Host.PathJoin(Host.Getenv(env, "HOME"), p)])))
  {
    var d := StatStorageDir(fs, Host.Getenv(env, "HOME"), c.storageDir, NotDirMsg);
    assert !d.notDir;
  }
}

=== FILE: feat_jira.dfy ===
/** The jira feature: mounts the jira CLI configuration file and forwards the API token from the
    host environment. */
module JiraFeature {
  import opened Wrappers
  import Host
  import Engine
  import opened Features

  const FlagName := "no-jira"
  const Section := "features.jira"
  const TokenKey := "JIRA_API_TOKEN"
  const AuthTypeKey := "JIRA_AUTH_TYPE"
  const DefaultAuthType := "bearer"
  const ConfigFileDest := "/root/.config/.jira/.config.yml"
  const ValidMountOptions := ["ro", "rw"]

  /** The feature's section: enabled, config_file, config_mount. */
  datatype Config = Config(enabled: bool, filePath: string, mountOpts: string)

  const Defaults := Config(true, ".config/.jira/.config.yml", "ro")

  /** Never a reason to stop the launcher. */
  const ExitOnError := false

  function Validate(c: Config): (r: Option<string>)
    ensures r == None <==> RoOrRw(c.mountOpts)
    ensures r.Some? ==> r.value == "invalid mount option. Valid options are [ro rw]"
  {
    if c.mountOpts in ValidMountOptions then None
    else Some("invalid mount option. Valid options are " + Host.GoList(ValidMountOptions))
  }

  function Configure(st: Host.Store, decoded: Result<Config>): (r: Configured<Config>)
    ensures r.userHasConfig <==> Host.IsSet(st, "features.jira")
    ensures !r.userHasConfig ==> r.config == Some(Config(true, ".config/.jira/.config.yml", "ro")) && r.err == None
    ensures r.userHasConfig && decoded.Err? ==> r.config == None && r.err.Some?
    ensures r.err == None ==> r.config.Some? && RoOrRw(r.config.value.mountOpts)
  {
    Features.Configure(st, Section, Defaults, decoded, Validate)
  }

  function Enabled(c: Config, st: Host.Store): (r: bool)
    ensures r <==> c.enabled && !Host.IsSet(st, "no-jira")
  {
    FlagEnabled(c.enabled, st, FlagName)
  }

  /** The token entries: none without a token in the host environment; otherwise the token
      passed through, then the auth type passed through when set or fixed to "bearer". */
  function TokenEnvs(o: OptionSet, env: Host.Env): OptionSet {
    if Host.Getenv(env, TokenKey) == "" then o
    else
      var o1 := AddEnvKey(o, TokenKey);
      if Host.Getenv(env, AuthTypeKey) != "" then AddEnvKey(o1, AuthTypeKey)
      else AddEnvKeyVal(o1, AuthTypeKey, DefaultAuthType)
  }

  /** Initialize with the configuration file mounted under the given options. The token
      entries are added before the file is looked up, so they survive a failed lookup. */
  function Mounting(c: Config, fs: Host.Fs, env: Host.Env, mountOptions: string): (r: Outcome)
    ensures Host.Getenv(env, TokenKey) == "" ==> r.opts.envs == []
    ensures Host.Getenv(env, TokenKey) != "" ==>
      r.opts.envs == [EnvVar(TokenKey, ""), EnvVar(AuthTypeKey, if Host.Getenv(env, AuthTypeKey) != "" then "" else DefaultAuthType)]
    ensures var found := StatFileLocations(fs, Host.Getenv(env, "HOME"), c.filePath);
      && (r.err == None <==> found.Ok?)
      && (found.Ok? ==> r.opts.mounts == [Engine.VolumeMount(found.value, ConfigFileDest, mountOptions)])
      && (found.Err? ==> r.opts.mounts == [] && r.err == Some(found.msg))
    ensures r.opts.portMap == map[] && r.opts.hooks == []
  {
    var o := TokenEnvs(NewOptionSet(), env);
    match StatFileLocations(fs, Host.Getenv(env, "HOME"), c.filePath)
    case Err(e) => Outcome(o, Some(e))
    case Ok(p) => Outcome(AddVolumeMount(o, Engine.VolumeMount(p, ConfigFileDest, mountOptions)), None)
  }

  /** Initialize as the code stands: the mount's options are left empty, so the validated
      config_mount never reaches the container. */
  function InitializeAsWritten(c: Config, fs: Host.Fs, env: Host.Env): (r: Outcome)
    ensures r.err == None ==> |r.opts.mounts| == 1 && r.opts.mounts[0].mountOptions == ""
  {
    Mounting(c, fs, env, "")
  }

  /** A configured "rw" is dropped: the mount comes out with no options at all. */
  lemma MountOptionsDropped()
    ensures var c := Config(true, "/cfg.yml", "rw");
      var r := InitializeAsWritten(c, map["/cfg.yml" := Host.File], map[]);
      r.err == None && r.opts.mounts[0].mountOptions != c.mountOpts
  {
    var c := Config(true, "/cfg.yml", "rw");
    var fs := map["/cfg.yml" := Host.File];
    assert StatFileLocations(fs, Host.Getenv(map[], "HOME"), c.filePath) == Ok("/cfg.yml");
  }

  /** Initialize with the configured options on the mount. */
  function Initialize(c: Config, fs: Host.Fs, env: Host.Env): (r: Outcome)
    ensures r.err == None ==> |r.opts.mounts| == 1 && r.opts.mounts[0].mountOptions == c.mountOpts
    ensures r.err == None ==> r.opts.mounts[0].destination == "/root/.config/.jira/.config.yml"
    ensures r.err == None ==> Host.Exists(fs, r.opts.mounts[0].source)
    ensures r.err != None ==> r.opts.mounts == []
    ensures r.err == None <==> c.filePath != "" && (Host.Exists(fs, c.filePath) || Host.Exists(fs, UnderHome(Host.Getenv(env, "HOME"), c.filePath)))
  {
    Mounting(c, fs, env, c.mountOpts)
  }

  /** Whatever configuration Configure accepts, Initialize mounts read-only or read-write. */
  lemma {:induction false} AcceptedMountsRoOrRw(st: Host.Store, decoded: Result<Config>, fs: Host.Fs, env: Host.Env)
    requires Configure(st, decoded).err == None
    ensures var c := Configure(st, decoded).config.value;
      forall m :: m in Initialize(c, fs, env).opts.mounts ==> RoOrRw(m.mountOptions)
  {
    var c := Configure(st, decoded).config.value;
    assert RoOrRw(c.mountOpts);
  }
}

=== FILE: feat_opsutils.dfy ===
/** The ops-utils feature: mounts a user's directory of operations scripts. */
module OpsUtilsFeature {
  import opened Wrappers
  import Host
  import Engine
  import opened Features

  const FlagName := "no-ops-utils"
  const Section := "features.ops_utils"
  const DestinationDir := "/root/ops-utils"

  /** The feature's section: enabled, source_dir, mount_options. */
  datatype Config = Config(enabled: bool, sourceDir: string, mountOptions: string)

  const Defaults := Config(true, "", "ro")

  /** An initialisation failure stops the launcher. */
  const ExitOnError := true

  function Validate(c: Config): (r: Option<string>)
    ensures r == None <==> RoOrRw(c.mountOptions)
    ensures r.Some? ==> r.value == "mount_options must be either 'ro' or 'rw', got: " + c.mountOptions
  {
    if c.mountOptions != "ro" && c.mountOptions != "rw" then
      Some("mount_options must be either 'ro' or 'rw', got: " + c.mountOptions)
    else None
  }

  function Configure(st: Host.Store, decoded: Result<Config>): (r: Configured<Config>)
    ensures r.userHasConfig <==> Host.IsSet(st, "features.ops_utils")
    ensures !r.userHasConfig ==> r.config == Some(Config(true, "", "ro")) && r.err == None
    ensures r.err == None ==> r.config.Some? && RoOrRw(r.config.value.mountOptions)
  {
    Features.Configure(st, Section, Defaults, decoded, Validate)
  }

  /** Opt-in by configuration: off unless the user configured a source directory. */
  function Enabled(c: Config, st: Host.Store, userHasConfig: bool): (r: bool)
    ensures r <==> c.enabled && !Host.IsSet(st, "no-ops-utils") && userHasConfig && c.sourceDir != ""
  {
    if !c.enabled then false
    else if Host.IsSet(st, FlagName) then false
    else if !userHasConfig then false
    else if c.sourceDir == "" then false
    else true
  }

  /** The source directory is taken exactly as configured (no HOME fallback). */
  function Initialize(c: Config, fs: Host.Fs): (r: Outcome)
    ensures r.err == None <==> Host.Exists(fs, c.sourceDir)
    ensures r.err == None ==> r.opts.mounts == [Engine.VolumeMount(c.sourceDir, "/root/ops-utils", c.mountOptions)]
    ensures r.err != None ==>
      (r.opts == NewOptionSet() && r.err == Some("error: problem reading Ops Utils directory: " + c.sourceDir + ": " + Host.StatError(c.sourceDir)))
  {
    if !Host.Exists(fs, c.sourceDir) then
      Outcome(NewOptionSet(), Some("error: problem reading Ops Utils directory: " + c.sourceDir + ": " + Host.StatError(c.sourceDir)))
    else
      Outcome(AddVolumeMount(NewOptionSet(), Engine.VolumeMount(c.sourceDir, DestinationDir, c.mountOptions)), None)
  }
}

=== FILE: feat_osdctl.dfy ===
/** The osdctl feature: mounts the osdctl configuration and, when present, the vault token. */
module OsdctlFeature {
  import opened Wrappers
  import Host
  import Engine
  import opened Features

  const FlagName := "no-osdctl"
  const Section := "features.osdctl"
  const ConfigDest := "/root/.config/osdctl"
  const TokenDest := "/root/.vault-token"

  /** The feature's section: enabled, config_file, token_file, config_mount_options,
      token_mount_options. */
  datatype Config = Config(enabled: bool, configFile: string, tokenFile: string, configMountOptions: string, tokenMountOptions: string)

  const Defaults := Config(true, ".config/osdctl", ".vault-token", "ro", "rw")

  /** The configuration file's options are checked before the token's. */
  function Validate(c: Config): (r: Option<string>)
    ensures r == None <==> RoOrRw(c.configMountOptions) && RoOrRw(c.tokenMountOptions)
    ensures !RoOrRw(c.configMountOptions) ==>
      r == Some("config_mount_options must be either 'ro' or 'rw', got: " + c.configMountOptions)
    ensures RoOrRw(c.configMountOptions) && !RoOrRw(c.tokenMountOptions) ==>
      r == Some("token_mount_options must be either 'ro' or 'rw', got: " + c.tokenMountOptions)
  {
    if c.configMountOptions != "ro" && c.configMountOptions != "rw" then
      Some("config_mount_options must be either 'ro' or 'rw', got: " + c.configMountOptions)
    else if c.tokenMountOptions != "ro" && c.tokenMountOptions != "rw" then
      Some("token_mount_options must be either 'ro' or 'rw', got: " + c.tokenMountOptions)
    else None
  }

  function Configure(st: Host.Store, decoded: Result<Config>): (r: Configured<Config>)
    ensures r.userHasConfig <==> Host.IsSet(st, "features.osdctl")
    ensures !r.userHasConfig ==> r.config == Some(Config(true, ".config/osdctl", ".vault-token", "ro", "rw")) && r.err == None
    ensures r.err == None ==> r.config.Some? && RoOrRw(r.config.value.configMountOptions) && RoOrRw(r.config.value.tokenMountOptions)
  {
    Features.Configure(st, Section, Defaults, decoded, Validate)
  }

  /** Opt-in by configuration: off unless the user configured the feature with a file. */
  function Enabled(c: Config, st: Host.Store, userHasConfig: bool): (r: bool)
    ensures r <==> c.enabled && !Host.IsSet(st, "no-osdctl") && userHasConfig && c.configFile != ""
  {
    if !c.enabled then false
    else if Host.IsSet(st, FlagName) then false
    else if !userHasConfig then false
    else if c.configFile == "" then false
    else true
  }

  /** Initialize's result and the feature's critical-error flag afterwards (ExitOnError). */
  datatype Init = Init(out: Outcome, critical: bool)

  /** A missing configuration file is an error, critical only for a user who configured the
      feature; the token is optional and its absence is not an error. */
  function Initialize(c: Config, fs: Host.Fs, env: Host.Env, userHasConfig: bool, critical: bool): (r: Init)
    ensures var home := Host.Getenv(env, "HOME");
      var cp := StatFileLocations(fs, home, c.configFile);
      var tp := StatFileLocations(fs, home, c.tokenFile);
      && (cp.Err? ==> r.out == Outcome(NewOptionSet(), Some(cp.msg)) && r.critical == (critical || userHasConfig))
      && (cp.Ok? ==> r.out.err == None && r.critical == critical)
      && (cp.Ok? && tp.Err? ==> r.out.opts.mounts == [Engine.VolumeMount(cp.value, ConfigDest, c.configMountOptions)])
      && (cp.Ok? && tp.Ok? ==>
            r.out.opts.mounts == [Engine.VolumeMount(cp.value, ConfigDest, c.configMountOptions),
                                  Engine.VolumeMount(tp.value, TokenDest, c.tokenMountOptions)])
    ensures r.out.opts.envs == []
  {
    var home := Host.Getenv(env, "HOME");
    match StatFileLocations(fs, home, c.configFile)
    case Err(e) => Init(Outcome(NewOptionSet(), Some(e)), if userHasConfig then true else critical)
    case Ok(cp) =>
      var o := AddVolumeMount(NewOptionSet(), Engine.VolumeMount(cp, ConfigDest, c.configMountOptions));
      match StatFileLocations(fs, home, c.tokenFile)
      case Ok(tp) => Init(Outcome(AddVolumeMount(o, Engine.VolumeMount(tp, TokenDest, c.tokenMountOptions)), None), critical)
      case Err(_) => Init(Outcome(o, None), critical)
  }

  /** From a fresh feature, ExitOnError after a failed Initialize holds exactly when the user
      configured the feature; after a successful one it never holds. */
  lemma {:induction false} CriticalIffUserConfig(c: Config, fs: Host.Fs, env: Host.Env, userHasConfig: bool)
    ensures var r := Initialize(c, fs, env, userHasConfig, false);
      r.critical <==> r.out.err.Some? && userHasConfig
  {
    var r := Initialize(c, fs, env, userHasConfig, false);
    var cp := StatFileLocations(fs, Host.Getenv(env, "HOME"), c.configFile);
    if cp.Ok? {
      assert r.out.err == None && !r.critical;
    } else {
      assert r.out.err.Some? && r.critical == userHasConfig;
    }
  }
}

=== FILE: feat_pagerduty.dfy ===
/** The pagerduty feature: mounts the PagerDuty CLI configuration. It has no Configure step and
    no flag: Initialize decodes its own section and ignores a decoding error. */
module PagerdutyFeature {
  import opened Wrappers
  import Host
  import Engine
  import opened Features

  const TokenDest := "/root/.config/pagerduty-cli/config.json"
  const ValidMountOptions := ["ro", "rw"]

  /** The feature's section: config_file, config_mount. */
  datatype Config = Config(token: string, mount: string)

  const Defaults := Config(".config/pagerduty-cli/config.json", "rw")

  const Enabled := true
  const ExitOnError := false

  /** HandleError always warns. */
  const HandleError := [Warn]

  function Validate(c: Config): (r: Option<string>)
    ensures r == None <==> RoOrRw(c.mount)
    ensures r.Some? ==> r.value == "invalid mount option. Valid options are [ro rw]"
  {
    if c.mount in ValidMountOptions then None
    else Some("invalid mount option. Valid options are " + Host.GoList(ValidMountOptions))
  }

  /** The XDG side of the lookup, outside the model: the XDG path xdg.ConfigFile proposes for
      the file (its error is ignored), and what xdg.SearchConfigFile finds for that path. */
  datatype Xdg = Xdg(configFile: string, search: Result<string>)

  /** Three candidates in order: as given, under HOME, then the XDG search; there is no check
      for an empty path. The error lists the three paths tried. */
  function StatConfigFileLocations(fs: Host.Fs, home: string, p: string, xdg: Xdg): (r: Result<string>)
    ensures Host.Exists(fs, p) ==> r == Ok(p)
    ensures !Host.Exists(fs, p) && Host.Exists(fs, UnderHome(home, p)) ==> r == Ok(UnderHome(home, p))
    ensures !Host.Exists(fs, p) && !Host.Exists(fs, UnderHome(home, p)) ==>
      r == (match xdg.search
            case Ok(found) => Ok(found)
            case Err(_) => Err("could not find " + p + " in any of: " + Host.GoList([p, UnderHome(home, p), xdg.configFile])))
  {
    if Host.Exists(fs, p) then Ok(p)
    else if Host.Exists(fs, UnderHome(home, p)) then Ok(UnderHome(home, p))
    else match xdg.search
      case Ok(found) => Ok(found)
      case Err(_) => Err("could not find " + p + " in any of: " + Host.GoList([p, UnderHome(home, p), xdg.configFile]))
  }

  /** `cfg` is the defaults after decoding the section over them. Validation comes before any
      lookup; every failure adds nothing. */
  function Initialize(cfg: Config, fs: Host.Fs, env: Host.Env, xdg: Xdg): (r: Outcome)
    ensures !RoOrRw(cfg.mount) ==> r == Outcome(NewOptionSet(), Some("invalid mount option. Valid options are [ro rw]"))
    ensures var found := StatConfigFileLocations(fs, Host.Getenv(env, "HOME"), cfg.token, xdg);
      RoOrRw(cfg.mount) ==>
        && (r.err == None <==> found.Ok?)
        && (found.Ok? ==> r.opts.mounts == [Engine.VolumeMount(found.value, TokenDest, cfg.mount)])
        && (found.Err? ==> r == Outcome(NewOptionSet(), Some(found.msg)))
    ensures r.err == None ==> |r.opts.mounts| == 1 && RoOrRw(r.opts.mounts[0].mountOptions)
  {
    match Validate(cfg)
    case Some(e) => Outcome(NewOptionSet(), Some(e))
    case None =>
      match StatConfigFileLocations(fs, Host.Getenv(env, "HOME"), cfg.token, xdg)
      case Err(e) => Outcome(NewOptionSet(), Some(e))
      case Ok(p) => Outcome(AddVolumeMount(NewOptionSet(), Engine.VolumeMount(p, TokenDest, cfg.mount)), None)
  }
}

=== FILE: feat_personalization.dfy ===
/** The personalization feature: mounts a user's shell personalisation, a directory or a
    single script. */
module PersonalizationFeature {
  import opened Wrappers
  import Host
  import Engine
  import opened Features

  const FlagName := "no-personalization"
  const Section := "features.personalization"
  const DestinationDir := "/root/.config/personalizations.d"
  const DestinationFile := "/root/.config/personalizations.d/personalizations.sh"

  /** The feature's section: enabled, source, mount_options. */
  datatype Config = Config(enabled: bool, source: string, mountOptions: string)

  const Defaults := Config(true, "", "ro")

  const ExitOnError := false

  function Validate(c: Config): (r: Option<string>)
    ensures r == None <==> RoOrRw(c.mountOptions)
    ensures r.Some? ==> r.value == "mount_options must be either 'ro' or 'rw', got: " + c.mountOptions
  {
    if c.mountOptions != "ro" && c.mountOptions != "rw" then
      Some("mount_options must be either 'ro' or 'rw', got: " + c.mountOptions)
    else None
  }

  function Configure(st: Host.Store, decoded: Result<Config>): (r: Configured<Config>)
    ensures r.userHasConfig <==> Host.IsSet(st, "features.personalization")
    ensures !r.userHasConfig ==> r.config == Some(Config(true, "", "ro")) && r.err == None
    ensures r.err == None ==> r.config.Some? && RoOrRw(r.config.value.mountOptions)
  {
    Features.Configure(st, Section, Defaults, decoded, Validate)
  }

  /** Opt-in by configuration: off unless the user configured a source. */
  function Enabled(c: Config, st: Host.Store, userHasConfig: bool): (r: bool)
    ensures r <==> c.enabled && !Host.IsSet(st, "no-personalization") && userHasConfig && c.source != ""
  {
    if !c.enabled then false
    else if Host.IsSet(st, FlagName) then false
    else if !userHasConfig then false
    else if c.source == "" then false
    else true
  }

  /** isDirectory: false together with the stat error for a missing path. */
  function IsDirectory(fs: Host.Fs, p: string): (r: (bool, Option<string>))
    ensures r.1.Some? <==> !Host.Exists(fs, p)
    ensures r.0 <==> Host.IsDir(fs, p)
  {
    if !Host.Exists(fs, p) then (false, Some(Host.StatError(p))) else (Host.IsDir(fs, p), None)
  }

  /** A directory is mounted as the personalisation directory, a file as its one script; the
      source and the options pass through, and a missing source adds nothing. */
  function Initialize(c: Config, fs: Host.Fs): (r: Outcome)
    ensures r.err != None <==> !Host.Exists(fs, c.source)
    ensures r.err != None ==>
      (r.opts == NewOptionSet() && r.err == Some("error: problem reading personalization directory or file: " + c.source + ": " + Host.StatError(c.source)))
    ensures Host.IsDir(fs, c.source) ==> r.opts.mounts == [Engine.VolumeMount(c.source, DestinationDir, c.mountOptions)]
    ensures Host.Exists(fs, c.source) && !Host.IsDir(fs, c.source) ==>
      r.opts.mounts == [Engine.VolumeMount(c.source, DestinationFile, c.mountOptions)]
  {
    var (isDir, err) := IsDirectory(fs, c.source);
    if err.Some? then
      Outcome(NewOptionSet(), Some("error: problem reading personalization directory or file: " + c.source + ": " + err.value))
    else if isDir then
      Outcome(AddVolumeMount(NewOptionSet(), Engine.VolumeMount(c.source, DestinationDir, c.mountOptions)), None)
    else
      Outcome(AddVolumeMount(NewOptionSet(), Engine.VolumeMount(c.source, DestinationFile, c.mountOptions)), None)
  }
}

=== FILE: feat_ports.dfy ===
/** The ports feature: publishes the console port and, once the container runs, records the
    host port it was published on inside the container. */
module PortsFeature {
  import opened Wrappers
  import Strs
  import Host
  import opened Features

  const FlagName := "no-ports"
  const Section := "features.ports"

  /** One named port: enabled, host-port. */
  datatype PortConfig = PortConfig(enabled: bool, port: int)

  /** The feature's section: enabled, console. */
  datatype Config = Config(enabled: bool, console: PortConfig)

  const Defaults := Config(true, PortConfig(true, 9999))

  const ExitOnError := false

  function Configure(st: Host.Store, decoded: Result<Config>): (r: Configured<Config>)
    ensures r.userHasConfig <==> Host.IsSet(st, "features.ports")
    ensures !r.userHasConfig ==> r.config == Some(Config(true, PortConfig(true, 9999))) && r.err == None
    ensures r.userHasConfig ==> (r.err == None <==> decoded.Ok?)
  {
    Features.Configure(st, Section, Defaults, decoded, (c: Config) => None)
  }

  function Enabled(c: Config, st: Host.Store): (r: bool)
    ensures r <==> c.enabled && !Host.IsSet(st, "no-ports")
  {
    FlagEnabled(c.enabled, st, FlagName)
  }

  /** The console port is published under the name "console" whether or not the console is
      enabled, one hook is registered, and nothing can fail. */
  function Initialize(c: Config): (r: Outcome)
    ensures r.err == None
    ensures r.opts.portMap == map["console" := c.console.port]
    ensures r.opts.hooks == [ConsolePortHook(c.console.port)]
    ensures r.opts.mounts == [] && r.opts.envs == []
  {
    var o := RegisterPortMap(NewOptionSet(), map["console" := c.console.port]);
    Outcome(RegisterPostStartExecHook(o, ConsolePortHook(c.console.port)), None)
  }

  /** The container-inspect template that yields the host port published for `port`/tcp. */
  function LookupTemplate(port: int): string {
    "{{(index (index .NetworkSettings.Ports \"" + Strs.IntToString(port) + "/tcp\") 0).HostPort}}"
  }

  /** Running the hook: `inspect` is the container runtime's Inspect. A failure is passed on;
      otherwise the blocking command that writes the host port to /tmp/portmap. */
  function RunHook(h: Hook, inspect: string -> Result<string>): (r: Result<seq<string>>)
    ensures inspect(LookupTemplate(h.port)).Err? ==> r == Err(inspect(LookupTemplate(h.port)).msg)
    ensures inspect(LookupTemplate(h.port)).Ok? ==>
      r.Ok? && |r.value| == 3 && r.value[0] == "/bin/bash" && r.value[1] == "-c"
      && r.value[2] == "echo \"" + inspect(LookupTemplate(h.port)).value + "\" > /tmp/portmap"
  {
    match inspect(LookupTemplate(h.port))
    case Err(e) => Err(e)
    case Ok(hostPort) => Ok(["/bin/bash", "-c", "echo \"" + hostPort + "\" > /tmp/portmap"])
  }

  /** Unlike the other features, exactly one line: a warning for a user who configured the
      feature, a debug line otherwise. */
  function HandleError(userHasConfig: bool): (ls: seq<Level>)
    ensures |ls| == 1 && (ls[0] == Warn <==> userHasConfig)
  {
    if userHasConfig then [Warn] else [Debug]
  }
}

=== FILE: features.dfy ===
/** The option set a feature contributes to the container, and the steps every feature module
    shares: reading its configuration section, finding a file on the host, choosing how loudly
    to report an initialisation error. */
module Features {
  import opened Wrappers
  import Host
  import Engine

  type VolumeMount = Engine.VolumeMount

  /** An environment entry for the container; an empty value passes the host's value through. */
  datatype EnvVar = EnvVar(key: string, value: string)

  /** A post-start hook. The only hook any feature registers is the ports feature's lookup of
      the host port published for a container port, so a hook is that container port. */
  datatype Hook = ConsolePortHook(port: int)

  /** What a feature asks of the container: mounts, environment, published ports, hooks. */
  datatype OptionSet = OptionSet(mounts: seq<VolumeMount>, envs: seq<EnvVar>, portMap: map<string, int>, hooks: seq<Hook>)

  /** What a feature's Initialize hands back: the option set built so far and the error, if any
      (Go returns both, so a failing feature may still carry environment entries). */
  datatype Outcome = Outcome(opts: OptionSet, err: Option<string>)

  function NewOptionSet(): (o: OptionSet)
    ensures |o.mounts| == 0 && |o.envs| == 0 && |o.portMap| == 0 && |o.hooks| == 0
  {
    OptionSet([], [], map[], [])
  }

  /** Appends one mount: it becomes the last one, the earlier ones stay as they were. */
  function AddVolumeMount(o: OptionSet, m: VolumeMount): (r: OptionSet)
    ensures |r.mounts| == |o.mounts| + 1 && r.mounts[|o.mounts|] == m
    ensures r.mounts[..|o.mounts|] == o.mounts
    ensures r.envs == o.envs && r.portMap == o.portMap && r.hooks == o.hooks
  {
    o.(mounts := o.mounts + [m])
  }

  /** Several AddVolumeMount calls in a row. */
  function AddVolumeMounts(o: OptionSet, ms: seq<VolumeMount>): OptionSet
    decreases |ms|
  {
    if |ms| == 0 then o else AddVolumeMount(AddVolumeMounts(o, ms[..|ms| - 1]), ms[|ms| - 1])
  }

  /** Repeated additions keep their order after the mounts already present. */
  lemma {:induction false} AddVolumeMountsInOrder(o: OptionSet, ms: seq<VolumeMount>)
    ensures AddVolumeMounts(o, ms).mounts == o.mounts + ms
    ensures AddVolumeMounts(o, ms).envs == o.envs
    decreases |ms|
  {
    if |ms| > 0 {
      AddVolumeMountsInOrder(o, ms[..|ms| - 1]);
      assert ms == ms[..|ms| - 1] + [ms[|ms| - 1]];
    }
  }

  /** An environment entry that passes the host's value of `k` through. */
  function AddEnvKey(o: OptionSet, k: string): (r: OptionSet)
    ensures r.envs == o.envs + [EnvVar(k, "")]
    ensures r.mounts == o.mounts && r.portMap == o.portMap && r.hooks == o.hooks
  {
    o.(envs := o.envs + [EnvVar(k, "")])
  }

  /** An environment entry with a fixed value. */
  function AddEnvKeyVal(o: OptionSet, k: string, v: string): (r: OptionSet)
    ensures r.envs == o.envs + [EnvVar(k, v)]
    ensures r.mounts == o.mounts && r.portMap == o.portMap && r.hooks == o.hooks
  {
    AddEnv(o, EnvVar(k, v))
  }

  function AddEnv(o: OptionSet, e: EnvVar): (r: OptionSet)
    ensures |r.envs| == |o.envs| + 1 && r.envs[|o.envs|] == e && r.envs[..|o.envs|] == o.envs
    ensures r.mounts == o.mounts && r.portMap == o.portMap && r.hooks == o.hooks
  {
    o.(envs := o.envs + [e])
  }

  /** Adds published ports; a name already present takes the new port. */
  function RegisterPortMap(o: OptionSet, ports: map<string, int>): (r: OptionSet)
    ensures r.portMap.Keys == o.portMap.Keys + ports.Keys
    ensures forall n :: n in ports ==> r.portMap[n] == ports[n]
    ensures r.mounts == o.mounts && r.envs == o.envs && r.hooks == o.hooks
  {
    o.(portMap := o.portMap + ports)
  }

  function RegisterPostStartExecHook(o: OptionSet, h: Hook): (r: OptionSet)
    ensures |r.hooks| == |o.hooks| + 1 && r.hooks[|o.hooks|] == h && r.hooks[..|o.hooks|] == o.hooks
    ensures r.mounts == o.mounts && r.envs == o.envs && r.portMap == o.portMap
  {
    o.(hooks := o.hooks + [h])
  }

  /** A feature's state after Configure: its configuration (None when decoding failed, since
      the field is then never assigned), whether the user configured it, and Configure's error. */
  datatype Configured<C> = Configured(config: Option<C>, userHasConfig: bool, err: Option<string>)

  /** Configure, shared by all feature modules: without the feature's section the defaults are
      kept and nothing is checked; with it the user is marked as having a configuration before
      decoding, and a decoded configuration is kept even when it then fails validation.
      `decoded` is the defaults overlaid with the section's values, or the decoder's error. */
  function Configure<C>(st: Host.Store, section: string, defaults: C, decoded: Result<C>, validate: C -> Option<string>): (r: Configured<C>)
    ensures r.userHasConfig <==> Host.IsSet(st, section)
    ensures !Host.IsSet(st, section) ==> r.config == Some(defaults) && r.err == None
    ensures Host.IsSet(st, section) && decoded.Err? ==> r.config == None && r.err == Some(decoded.msg)
    ensures Host.IsSet(st, section) && decoded.Ok? ==> r.config == Some(decoded.value) && r.err == validate(decoded.value)
    ensures r.err == None && r.userHasConfig ==> r.config.Some? && validate(r.config.value) == None
  {
    if !Host.IsSet(st, section) then Configured(Some(defaults), false, None)
    else match decoded
      case Err(e) => Configured(None, true, Some(e))
      case Ok(cfg) => Configured(Some(cfg), true, validate(cfg))
  }

  /** The usual Enabled: switched on in the configuration and not switched off by the
      feature's command-line flag, whatever value the flag holds. */
  function FlagEnabled(enabled: bool, st: Host.Store, flag: string): (r: bool)
    ensures r <==> enabled && !Host.IsSet(st, flag)
  {
    if !enabled then false
    else if Host.IsSet(st, flag) then false
    else true
  }

  /** The HOME-relative candidate for a configured path (plain concatenation, as in the code). */
  function UnderHome(home: string, p: string): string {
    home + "/" + p
  }

  /** The shared file lookup: a non-empty path is tried as given, then under HOME; the first
      that exists wins, and otherwise the error lists both candidates. */
  function StatFileLocations(fs: Host.Fs, home: string, p: string): (r: Result<string>)
    ensures p == "" ==> r == Err("no filepath provided")
    ensures r.Ok? <==> p != "" && (Host.Exists(fs, p) || Host.Exists(fs, UnderHome(home, p)))
    ensures r.Ok? ==> Host.Exists(fs, r.value) && (r.value == p || r.value == UnderHome(home, p))
    ensures p != "" && Host.Exists(fs, p) ==> r == Ok(p)
    ensures r.Err? && p != "" ==>
      r.msg == "could not find " + p + " in any of: " + Host.GoList([p, UnderHome(home, p)])
  {
    if p == "" then Err("no filepath provided")
    else if Host.Exists(fs, p) then Ok(p)
    else if Host.Exists(fs, UnderHome(home, p)) then Ok(UnderHome(home, p))
    else Err("could not find " + p + " in any of: " + Host.GoList([p, UnderHome(home, p)]))
  }

  /** The storage-directory lookup's verdict, and whether it stopped at an existing
      non-directory (which some features treat as critical). */
  datatype DirLookup = DirLookup(path: Result<string>, notDir: bool)

  /** The shared storage-directory lookup: as given, then filepath.Join(HOME, path); the first
      candidate that exists is chosen, and it must be a directory. */
  function StatStorageDir(fs: Host.Fs, home: string, p: string, notDirMsg: string): (r: DirLookup)
    ensures p == "" ==> r == DirLookup(Err("no storage directory provided"), false)
    ensures r.path.Ok? ==> Host.IsDir(fs, r.path.value) && (r.path.value == p || r.path.value == Host.PathJoin(home, p))
    ensures r.path.Ok? <==> p != "" && (if Host.Exists(fs, p) then Host.IsDir(fs, p) else Host.IsDir(fs, Host.PathJoin(home, p)))
    ensures r.notDir <==> p != "" && (if Host.Exists(fs, p) then !Host.IsDir(fs, p) else Host.Exists(fs, Host.PathJoin(home, p)) && !Host.IsDir(fs, Host.PathJoin(home, p)))
    ensures r.notDir ==> r.path == Err(notDirMsg)
    ensures p != "" && !Host.Exists(fs, p) && !Host.Exists(fs, Host.PathJoin(home, p)) ==>
      r == DirLookup(Err("could not find " + p + " in any of: " + Host.GoList([p, Host.PathJoin(home, p)])), false)
  {
    if p == "" then DirLookup(Err("no storage directory provided"), false)
    else if Host.Exists(fs, p) then
      if !Host.IsDir(fs, p) then DirLookup(Err(notDirMsg), true) else DirLookup(Ok(p), false)
    else
      var q := Host.PathJoin(home, p);
      if Host.Exists(fs, q) then
        if !Host.IsDir(fs, q) then DirLookup(Err(notDirMsg), true) else DirLookup(Ok(q), false)
      else DirLookup(Err("could not find " + p + " in any of: " + Host.GoList([p, q])), false)
  }

  /** The AWS files loop: each HOME-relative file that exists is mounted read-only at the same
      relative place under /root, in the order given; a missing one is skipped. */
  function MountExisting(fs: Host.Fs, home: string, files: seq<string>): (ms: seq<VolumeMount>)
    ensures |ms| <= |files|
    ensures forall m :: m in ms ==> m.mountOptions == "ro" && Host.Exists(fs, m.source)
    decreases |files|
  {
    if |files| == 0 then []
    else
      var src := UnderHome(home, files[0]);
      (if Host.Exists(fs, src) then [Engine.VolumeMount(src, "/root/" + files[0], "ro")] else [])
        + MountExisting(fs, home, files[1..])
  }

  /** The loop over two files, spelled out. */
  lemma MountExistingTwo(fs: Host.Fs, home: string, a: string, b: string)
    ensures MountExisting(fs, home, [a, b])
      == (if Host.Exists(fs, UnderHome(home, a)) then [Engine.VolumeMount(UnderHome(home, a), "/root/" + a, "ro")] else [])
       + (if Host.Exists(fs, UnderHome(home, b)) then [Engine.VolumeMount(UnderHome(home, b), "/root/" + b, "ro")] else [])
  {
    assert [a, b][1..] == [b] && [b][1..] == [];
  }

  /** A log level of the error report. */
  datatype Level = Warn | Debug

  /** The usual HandleError: a warning only for a user who configured the feature, and the
      debug line always. */
  function HandleError(userHasConfig: bool): (ls: seq<Level>)
    ensures Debug in ls && ls[|ls| - 1] == Debug
    ensures Warn in ls <==> userHasConfig
  {
    (if userHasConfig then [Warn] else []) + [Debug]
  }

  /** True when the mount option is one of the two plain modes. */
  predicate RoOrRw(m: string) {
    m == "ro" || m == "rw"
  }
}

=== FILE: featureset.dfy ===
/** The older constructor-style feature packages: each builds its mounts (and environment)
    directly from HOME and the filesystem. */
module FeatureSet {
  import opened Wrappers
  import Engine

  /** The read-write switch of the older packages. */
  function BoolToMountOpt(rw: bool): (m: string)
    ensures m == "rw" <==> rw
    ensures m == "ro" <==> !rw
  {
    if rw then "rw" else "ro"
  }

  /** A package result holding only mounts, with New's error. */
  datatype Mounts = Mounts(mounts: seq<Engine.VolumeMount>, err: Option<string>)
}

/** pkg/featureSet/jira: mounts the jira directory and finds the API token, in the
    environment or in the token file. */
module LegacyJira {
  import opened Wrappers
  import Host
  import Engine
  import opened FeatureSet

  const TokenEnv := "JIRA_API_TOKEN"
  const AuthTypeEnv := "JIRA_AUTH_TYPE"

  /** What reading and decoding the token file gives, which is outside the model: an open or
      read error, a JSON error, or the file's "token" string. (A "token" that is missing or not
      a string makes the code panic and is not modelled.) */
  datatype TokenFile = Unreadable(err: string) | Malformed(err: string) | Parsed(token: string)

  datatype Config = Config(env: map<string, string>, mounts: seq<Engine.VolumeMount>)

  function TokenPath(home: string): string {
    home + "/.config/.jira/token.json"
  }

  /** New: the directory mount comes first and stays whatever happens next. Both variables in
      the environment are copied and the file is not read; otherwise the token comes from the
      file with auth type "bearer", and any failure to get a non-empty one is an error. */
  function New(home: string, rw: bool, env: Host.Env, fs: Host.Fs, file: TokenFile): (r: (Config, Option<string>))
    ensures r.0.mounts == [Engine.VolumeMount(home + "/.config/.jira", "/root/.config/.jira", BoolToMountOpt(rw))]
    ensures Host.Getenv(env, TokenEnv) != "" && Host.Getenv(env, AuthTypeEnv) != "" ==>
      r.1 == None && r.0.env == map[TokenEnv := Host.Getenv(env, TokenEnv), AuthTypeEnv := Host.Getenv(env, AuthTypeEnv)]
    ensures (Host.Getenv(env, TokenEnv) == "" || Host.Getenv(env, AuthTypeEnv) == "") && !Host.Exists(fs, TokenPath(home)) ==>
      r.1 == Some("error: problem reading Jira token file: " + TokenPath(home) + ": " + Host.StatError(TokenPath(home)))
    ensures (Host.Getenv(env, TokenEnv) == "" || Host.Getenv(env, AuthTypeEnv) == "") && Host.Exists(fs, TokenPath(home)) ==>
      match file
      case Unreadable(e) => r.1 == Some("error: problem reading Jira token file: " + TokenPath(home) + ": " + e)
      case Malformed(e) => r.1 == Some(e)
      case Parsed(t) =>
        && r.0.env == map[TokenEnv := t, AuthTypeEnv := "bearer"]
        && (r.1 == None <==> t != "")
    ensures r.1 == None ==> TokenEnv in r.0.env && r.0.env[TokenEnv] != "" && AuthTypeEnv in r.0.env
  {
    var mounts := [Engine.VolumeMount(home + "/.config/.jira", "/root/.config/.jira", BoolToMountOpt(rw))];
    var token := Host.Getenv(env, TokenEnv);
    var authType := Host.Getenv(env, AuthTypeEnv);
    if token != "" && authType != "" then
      (Config(map[TokenEnv := token, AuthTypeEnv := authType], mounts), None)
    else
      var t := TokenPath(home);
      if !Host.Exists(fs, t) then
        (Config(map[], mounts), Some("error: problem reading Jira token file: " + t + ": " + Host.StatError(t)))
      else match file
        case Unreadable(e) => (Config(map[], mounts), Some("error: problem reading Jira token file: " + t + ": " + e))
        case Malformed(e) => (Config(map[], mounts), Some(e))
        case Parsed(tok) =>
          var c := Config(map[TokenEnv := tok, AuthTypeEnv := "bearer"], mounts);
          if tok == "" then (c, Some("error: Jira token not found in env or file: " + t)) else (c, None)
  }
}

/** pkg/featureSet/personalization */
module LegacyPersonalization {
  import opened Wrappers
  import Host
  import Engine
  import opened FeatureSet

  const DestinationDir := "/root/.config/personalizations.d"

  /** A directory becomes the personalisation directory, a file its one script. */
  function New(source: string, rw: bool, fs: Host.Fs): (r: Mounts)
    ensures r.err != None <==> !Host.Exists(fs, source)
    ensures r.err != None ==> r.mounts == []
    ensures Host.IsDir(fs, source) ==> r.mounts == [Engine.VolumeMount(source, "/root/.config/personalizations.d", BoolToMountOpt(rw))]
    ensures Host.Exists(fs, source) && !Host.IsDir(fs, source) ==>
      r.mounts == [Engine.VolumeMount(source, DestinationDir + "/personalizations.sh", BoolToMountOpt(rw))]
  {
    if !Host.Exists(fs, source) then
      Mounts([], Some("error: problem reading personalization directory or file: " + source + ": " + Host.StatError(source) + ","))
    else if Host.IsDir(fs, source) then
      Mounts([Engine.VolumeMount(source, DestinationDir, BoolToMountOpt(rw))], None)
    else
      Mounts([Engine.VolumeMount(source, DestinationDir + "/personalizations.sh", BoolToMountOpt(rw))], None)
  }
}

/** pkg/featureSet/aws */
module LegacyAws {
  import opened Wrappers
  import Host
  import Engine
  import Features
  import opened FeatureSet

  const Credentials := ".aws/credentials"
  const AwsConfig := ".aws/config"

  /** Never an error: each of the two files is mounted read-only iff it exists under HOME,
      credentials first. */
  function New(home: string, fs: Host.Fs): (r: Mounts)
    ensures r.err == None && |r.mounts| <= 2
    ensures var cred := home + "/" + Credentials;
      var conf := home + "/" + AwsConfig;
      r.mounts == (if Host.Exists(fs, cred) then [Engine.VolumeMount(cred, "/root/" + Credentials, "ro")] else [])
                + (if Host.Exists(fs, conf) then [Engine.VolumeMount(conf, "/root/" + AwsConfig, "ro")] else [])
  {
    Features.MountExistingTwo(fs, home, Credentials, AwsConfig);
    Mounts(Features.MountExisting(fs, home, [Credentials, AwsConfig]), None)
  }
}

/** pkg/featureSet/certificateAuthorities */
module LegacyCertificateAuthorities {
  import opened Wrappers
  import Host
  import Engine
  import opened FeatureSet

  const AnchorsPath := "/etc/pki/ca-trust/source/anchors"

  /** An empty path selects the standard anchors directory; the mount always lands there. */
  function New(hostCaPath: string, fs: Host.Fs): (r: Mounts)
    ensures var source := if hostCaPath == "" then AnchorsPath else hostCaPath;
      && (r.err != None <==> !Host.Exists(fs, source))
      && (r.err != None ==> r.mounts == [])
      && (r.err == None ==> r.mounts == [Engine.VolumeMount(source, "/etc/pki/ca-trust/source/anchors", "ro")])
  {
    var source := if hostCaPath == "" then AnchorsPath else hostCaPath;
    if !Host.Exists(fs, source) then
      Mounts([], Some("error: problem reading CA Anchors: " + source + ": " + Host.StatError(source) + ", err"))
    else Mounts([Engine.VolumeMount(source, AnchorsPath, "ro")], None)
  }
}

/** pkg/featureSet/gcloud */
module LegacyGcloud {
  import opened Wrappers
  import Host
  import Engine
  import opened FeatureSet

  /** Never an error: without the config directory nothing; with it, the directory read-only
      and its logs directory read-write, the latter not checked. */
  function New(home: string, fs: Host.Fs): (r: Mounts)
    ensures r.err == None
    ensures !Host.Exists(fs, home + "/.config/gcloud") ==> r.mounts == []
    ensures Host.Exists(fs, home + "/.config/gcloud") ==>
      r.mounts == [Engine.VolumeMount(home + "/.config/gcloud", "/root/.config/gcloud", "ro"),
                   Engine.VolumeMount(home + "/.config/gcloud/logs", "/root/.config/gcloud/logs", "rw")]
  {
    if !Host.Exists(fs, home + "/.config/gcloud") then Mounts([], None)
    else
      Mounts([Engine.VolumeMount(home + "/.config/gcloud", "/root/.config/gcloud", "ro"),
              Engine.VolumeMount(home + "/.config/gcloud/logs", "/root/.config/gcloud/logs", "rw")], None)
  }
}

/** pkg/featureSet/pagerduty */
module LegacyPagerduty {
  import opened Wrappers
  import Host
  import Engine
  import opened FeatureSet

  datatype Config = Config(token: string, mounts: seq<Engine.VolumeMount>)

  /** The token path is fixed under HOME and kept even when it does not exist. */
  function New(home: string, rw: bool, fs: Host.Fs): (r: (Config, Option<string>))
    ensures r.0.token == home + "/.config/pagerduty-cli/config.json"
    ensures r.1 != None <==> !Host.Exists(fs, r.0.token)
    ensures r.1 != None ==> r.0.mounts == []
    ensures r.1 == None ==> r.0.mounts == [Engine.VolumeMount(r.0.token, "/root/.config/pagerduty-cli/config.json", BoolToMountOpt(rw))]
  {
    var token := home + "/.config/pagerduty-cli/config.json";
    if !Host.Exists(fs, token) then
      (Config(token, []), Some("error: problem reading PagerDuty token file: " + token + ": " + Host.StatError(token) + ", err"))
    else (Config(token, [Engine.VolumeMount(token, "/root/.config/pagerduty-cli/config.json", BoolToMountOpt(rw))]), None)
  }
}

/** pkg/featureSet/osdctl */
module LegacyOsdctl {
  import opened Wrappers
  import Host
  import Engine
  import opened FeatureSet

  /** Never an error and never a filesystem check: the osdctl directory, read-only. */
  function New(home: string): (r: Mounts)
    ensures r.err == None && |r.mounts| == 1
    ensures r.mounts[0].source == home + "/.config/osdctl"
    ensures r.mounts[0].destination == "/root/.config/osdctl" && r.mounts[0].mountOptions == "ro"
  {
    Mounts([Engine.VolumeMount(home + "/" + ".config/osdctl", "/root/" + ".config/osdctl", "ro")], None)
  }
}

/** pkg/featureSet/persistentHistories */
module LegacyHistories {
  import opened Wrappers
  import Host
  import Engine

  const HistFile := "/root/per-cluster/.bash_history"
  const DestDir := "/root/per-cluster"

  /** `env` is None while the Go map is nil. */
  datatype Config = Config(env: Option<map<string, string>>, mounts: seq<Engine.VolumeMount>)

  /** How a call ends: it returns, or it panics. */
  datatype Ran = Returned(config: Config, err: Option<string>) | Panicked

  /** The per-cluster directory: filepath.Join of HOME, the per-cluster subdirectory and the
      cluster id. The join cleans its result, so the subdirectory's leading slash stays even
      when HOME is empty, its trailing slash goes, and an empty cluster id adds nothing
      (HOME is taken to be clean already, without a trailing slash). */
  function SourceDir(home: string, clusterId: string): string {
    var base := home + "/.config/ocm-container/per-cluster-persistent";
    if clusterId == "" then base else base + "/" + clusterId
  }

  /** New as written: after the directory is made, the history variable is stored into the
      configuration's map, which was never allocated, so the call panics. `mkdir` stands for
      os.MkdirAll and gives its error. */
  function NewAsWritten(home: string, clusterId: string, mkdir: string -> Option<string>): (r: Ran)
    ensures mkdir(SourceDir(home, clusterId)).Some? ==>
      r == Returned(Config(None, []), mkdir(SourceDir(home, clusterId)))
    ensures mkdir(SourceDir(home, clusterId)).None? ==> r == Panicked
  {
    var mount := SourceDir(home, clusterId);
    match mkdir(mount)
    case Some(e) => Returned(Config(None, []), Some(e))
    case None => Panicked
  }

  /** New as evidently intended: the directory is mounted read-write and HISTFILE points at the
      history file inside it. */
  function New(home: string, clusterId: string, mkdir: string -> Option<string>): (r: Ran)
    ensures r.Returned?
    ensures r.err == mkdir(SourceDir(home, clusterId))
    ensures r.err.Some? ==> r.config == Config(None, [])
    ensures r.err.None? ==> r.config.env == Some(map["HISTFILE" := "/root/per-cluster/.bash_history"])
    ensures r.err.None? ==> r.config.mounts == [Engine.VolumeMount(SourceDir(home, clusterId), "/root/per-cluster", "rw")]
  {
    var mount := SourceDir(home, clusterId);
    match mkdir(mount)
    case Some(e) => Returned(Config(None, []), Some(e))
    case None => Returned(Config(Some(map["HISTFILE" := HistFile]), [Engine.VolumeMount(mount, DestDir, "rw")]), None)
  }

  /** Whenever the directory can be made, the code as written never gets to return it, while
      the corrected New returns the mount. */
  lemma SuccessPanics(home: string, clusterId: string, mkdir: string -> Option<string>)
    requires mkdir(SourceDir(home, clusterId)) == None
    ensures NewAsWritten(home, clusterId, mkdir) == Panicked
    ensures New(home, clusterId, mkdir).Returned? && New(home, clusterId, mkdir).err == None
  {
  }

  /** The deprecated switch: any non-empty PERSISTENT_CLUSTER_HISTORIES turns it on (and prints
      the deprecation notice, which is not modelled). */
  function DeprecatedConfig(env: Host.Env): (r: bool)
    ensures r <==> Host.Getenv(env, "PERSISTENT_CLUSTER_HISTORIES") != ""
  {
    Host.Getenv(env, "PERSISTENT_CLUSTER_HISTORIES") != ""
  }
}

/** pkg/featureSet/persistentImages */
module LegacyImages {
  import opened Wrappers
  import Host
  import Engine
  import opened FeatureSet

  const DestDir := "/var/lib/containers/storage/"

  /** filepath.Join of HOME and the image cache subdirectory, cleaned as in
      LegacyHistories.SourceDir: the leading slash stays when HOME is empty. */
  function SourceDir(home: string): string {
    home + "/.cache/ocm-container/images"
  }

  /** `client` is the error from creating the OCM client (unused beyond that), `mkdir` stands for
      os.MkdirAll. The client is tried first; either failure is returned unchanged. */
  function New(home: string, client: Option<string>, mkdir: string -> Option<string>): (r: Mounts)
    ensures client.Some? ==> r == Mounts([], client)
    ensures client.None? ==> r.err == mkdir(SourceDir(home))
    ensures r.err == None ==> r.mounts == [Engine.VolumeMount(SourceDir(home), "/var/lib/containers/storage/", "rw")]
    ensures r.err != None ==> r.mounts == []
  {
    if client.Some? then Mounts([], client)
    else
      var mount := SourceDir(home);
      match mkdir(mount)
      case Some(e) => Mounts([], Some(e))
      case None => Mounts([Engine.VolumeMount(mount, DestDir, "rw")], None)
  }
}

=== FILE: flags.dfy ===
/** Command-line flag descriptions and the required-flag check run before a command. The
    flag table itself and its binding into viper are not modelled. */
module Flags {
  import opened Wrappers
  import opened Strs
  import Host

  /** A flag description; `value` is its default, as text. The Go field holding a pointer
      to the bound variable is left out. */
  datatype CliFlag = CliFlag(
    name: string,
    shorthand: string,
    flagType: string,
    value: string,
    helpMsg: string,
    deprecationMsg: string,
    hidden: bool)

  /** The spellings strconv.ParseBool accepts. */
  const TrueWords: set<string> := {"1", "t", "T", "TRUE", "true", "True"}
  const FalseWords: set<string> := {"0", "f", "F", "FALSE", "false", "False"}

  /** strconv.ParseBool; any other spelling is a syntax error. */
  function ParseBool(s: string): (r: Result<bool>)
    ensures r == Ok(true) <==> s in TrueWords
    ensures r == Ok(false) <==> s in FalseWords
    ensures r.Err? <==> s !in TrueWords && s !in FalseWords
  {
    if s in TrueWords then Ok(true)
    else if s in FalseWords then Ok(false)
    else Err("strconv.ParseBool: parsing \"" + s + "\": invalid syntax")
  }

  /** ParseBool reads back what FormatBool writes. */
  lemma ParseFormatBool(b: bool)
    ensures ParseBool(FormatBool(b)) == Ok(b)
  {
  }

  /** StringValue: the default text, unchanged. */
  function StringValue(f: CliFlag): (r: string)
    ensures r == f.value
  {
    f.value
  }

  /** BoolValue: the parsed default, false when it does not parse. */
  function BoolValue(f: CliFlag): (r: bool)
    ensures r <==> f.value in TrueWords
    ensures ParseBool(f.value).Ok? ==> r == ParseBool(f.value).value
  {
    match ParseBool(f.value)
    case Ok(b) => b
    case Err(_) => false
  }

  /** HelpString: help text and deprecation note, lower-cased. */
  function HelpString(f: CliFlag): (r: string)
    ensures |r| == |f.helpMsg| + |f.deprecationMsg|
    ensures forall i :: 0 <= i < |r| ==> !('A' <= r[i] <= 'Z')
    ensures forall i :: 0 <= i < |f.helpMsg| ==> r[i] == LowerChar(f.helpMsg[i])
    ensures forall i :: 0 <= i < |f.deprecationMsg| ==> r[|f.helpMsg| + i] == LowerChar(f.deprecationMsg[i])
  {
    var s := f.helpMsg + f.deprecationMsg;
    assert forall i :: 0 <= i < |f.deprecationMsg| ==> s[|f.helpMsg| + i] == f.deprecationMsg[i];
    ToLower(s)
  }

  /** Lower-casing again changes nothing. */
  lemma HelpStringIdempotent(f: CliFlag)
    ensures ToLower(HelpString(f)) == HelpString(f)
  {
  }

  /** The flags each subcommand requires, keyed by the command's use-name. */
  const RequiredFlags: map<string, seq<string>> := map["ocm-container" := ["engine", "ocm-url"], "build" := ["engine"]]

  /** A required flag is missing when it is neither set nor has a non-empty string. */
  predicate Missing(st: Host.Store, flag: string) {
    !Host.IsSet(st, flag) && Host.GetString(st, flag) == ""
  }

  function MissingError(flag: string): string {
    "required flag " + flag + " not set"
  }

  /** The first missing flag of `flags`, in order. */
  function FirstMissing(flags: seq<string>, st: Host.Store): (r: Option<string>)
    ensures r.None? <==> forall i :: 0 <= i < |flags| ==> !Missing(st, flags[i])
    ensures r.Some? ==>
      exists i :: 0 <= i < |flags| && flags[i] == r.value && Missing(st, r.value) && (forall j :: 0 <= j < i ==> !Missing(st, flags[j]))
    decreases |flags|
  {
    if |flags| == 0 then None
    else if Missing(st, flags[0]) then Some(flags[0])
    else
      var r := FirstMissing(flags[1..], st);
      assert forall i :: 1 <= i < |flags| ==> flags[1..][i - 1] == flags[i];
      r
  }

  /** checkFlags' requirement rule: the error for the first missing required flag, and no
      error for a command without requirements. */
  function CheckFlags(use: string, st: Host.Store): (r: Option<string>)
    ensures use !in RequiredFlags ==> r.None?
    ensures use in RequiredFlags ==>
      (r.None? <==> forall i :: 0 <= i < |RequiredFlags[use]| ==> !Missing(st, RequiredFlags[use][i]))
    ensures r.Some? ==> exists f :: f in RequiredFlags[use] && Missing(st, f) && r == Some(MissingError(f))
  {
    if use !in RequiredFlags then None
    else
      match FirstMissing(RequiredFlags[use], st)
      case None => None
      case Some(f) => Some(MissingError(f))
  }

  /** With no engine configured, the launcher reports the engine first even when the OCM URL
      is missing as well. */
  lemma EngineCheckedFirst(st: Host.Store)
    requires Missing(st, "engine")
    ensures CheckFlags("ocm-container", st) == Some(MissingError("engine"))
  {
  }
}

=== FILE: githubdl.dfy ===
/** The build-time release downloader: picks a checksum manifest and a binary out of a
    GitHub release's assets, checks the binary's digest against the manifest line for the
    platform, and writes the binary only when every step succeeded. It also has a quota
    mode that reports exhausted API rate limits.

    HTTP is the `fetch` oracle (URL and headers to a response whose JSON body is already
    parsed, or to a raised transport error), UTF-8 decoding is the `decode` oracle and the hex digest is the `digest`
    oracle standing for SHA-256 (FIPS 180-4) and MD5 (RFC 1321). A Python exception that
    the script does not catch is `Raised`. */
module GithubDl {
  import opened Wrappers
  import opened Strs
  import opened PyStrings
  import Host

  newtype Byte = b: int | 0 <= b < 256
  type Bytes = seq<Byte>

  /** The outcome of a Python call: its return value, or an uncaught exception. */
  datatype Py<+T> = Returned(value: T) | Raised

  datatype HashAlg = Sha256 | Md5

  /** One release asset; either JSON key may be missing. */
  datatype Asset = Asset(name: Option<string>, downloadUrl: Option<string>)

  /** One entry of the rate-limit document's `resources` object. */
  datatype Limit = Limit(limit: int, remaining: int, reset: int)

  /** An HTTP response: status, raw body, and the two JSON views the script reads
      (`assets` of a release, `resources` of the rate-limit document; None when the key
      is missing). */
  datatype Response = Response(
    status: int,
    content: Bytes,
    assets: Option<seq<Asset>>,
    resources: Option<seq<(string, Limit)>>)

  /** requests.get: a response, or `Raised` when no response arrives (a refused connection,
      a timeout). */
  type Fetch = (string, map<string, string>) -> Py<Response>
  type Decode = Bytes -> Option<string>
  type Digest = (HashAlg, Bytes) -> string

  const RateLimitUrl := "https://api.github.com/rate_limit"

  const QuotaHeaders: map<string, string> :=
    map["Accept" := "application/vnd.github+json", "X-GitHub-Api-Version" := "2022-11-28"]

  /** Python truthiness of an optional string. */
  predicate Truthy(o: Option<string>) {
    o.Some? && o.value != ""
  }

  /** Two strings that agree up to ASCII case, the second given in lower case. */
  predicate CaseVariant(s: string, lower: string) {
    |s| == |lower| && forall i :: 0 <= i < |s| ==> LowerChar(s[i]) == lower[i]
  }

  /** The algorithm hint: one trailing lower-case "sum" is removed, then the rest is
      lower-cased; only "sha256" and "md5" are supported. */
  function NormalizeAlgorithm(raw: string): (r: Option<HashAlg>)
    ensures r == Some(Sha256) <==>
      CaseVariant(raw, "sha256") || (HasSuffix(raw, "sum") && CaseVariant(raw[..|raw| - 3], "sha256"))
    ensures r == Some(Md5) <==>
      CaseVariant(raw, "md5") || (HasSuffix(raw, "sum") && CaseVariant(raw[..|raw| - 3], "md5"))
  {
    var algorithm := ToLower(RemoveSuffix(raw, "sum"));
    NoSumSuffix(raw);
    if algorithm == "sha256" then Some(Sha256)
    else if algorithm == "md5" then Some(Md5)
    else None
  }

  /** A word that is a case variant of "sha256" or "md5" does not end in "sum". */
  lemma NoSumSuffix(raw: string)
    ensures CaseVariant(raw, "sha256") ==> !HasSuffix(raw, "sum")
    ensures CaseVariant(raw, "md5") ==> !HasSuffix(raw, "sum")
  {
    if CaseVariant(raw, "sha256") {
      assert LowerChar(raw[5]) == '6';
      assert raw[|raw| - 3..][2] == raw[5] != 'm';
    }
    if CaseVariant(raw, "md5") {
      assert LowerChar(raw[2]) == '5';
      assert raw[|raw| - 3..][2] == raw[2] != 'm';
    }
  }

  /** The hint examples: lower-case and upper-case names, with a lower-case "sum". */
  lemma AlgorithmHintsAccepted()
    ensures NormalizeAlgorithm("sha256") == Some(Sha256)
    ensures NormalizeAlgorithm("SHA256") == Some(Sha256)
  {
    assert CaseVariant("sha256", "sha256");
    assert LowerChar('S') == 's' && LowerChar('H') == 'h' && LowerChar('A') == 'a';
    assert CaseVariant("SHA256", "sha256");
  }

  lemma AlgorithmHintsSumSuffix()
    ensures NormalizeAlgorithm("sha256sum") == Some(Sha256)
    ensures NormalizeAlgorithm("MD5sum") == Some(Md5)
  {
    assert CaseVariant("sha256sum"[..6], "sha256");
    assert CaseVariant("MD5sum"[..3], "md5");
  }

  /** "SHA256SUM" is not accepted, because its "SUM" is upper case; "sha1" is unsupported. */
  lemma AlgorithmHintsRejected()
    ensures NormalizeAlgorithm("SHA256SUM") == None
    ensures NormalizeAlgorithm("sha1") == None
  {
    assert !CaseVariant("SHA256SUM", "sha256");
    assert !HasSuffix("SHA256SUM", "sum");
    assert !CaseVariant("SHA256SUM", "md5");
    assert !HasSuffix("sha1", "sum");
    assert LowerChar("sha1"[3]) == '1';
  }

  /** validate_binary: the checksum line must split into exactly two fields (else the
      unpacking raises); the result is whether the supported algorithm's hex digest of the
      binary equals the first field. */
  function ValidateBinary(binary: Bytes, checksum: string, rawAlgorithm: string, digest: Digest): (r: Py<bool>)
    ensures r.Raised? <==> |Split(checksum)| != 2
    ensures r == Returned(true) <==>
      |Split(checksum)| == 2 && NormalizeAlgorithm(rawAlgorithm).Some? &&
      digest(NormalizeAlgorithm(rawAlgorithm).value, binary) == Split(checksum)[0]
  {
    var fields := Split(checksum);
    if |fields| != 2 then Raised
    else
      match NormalizeAlgorithm(rawAlgorithm)
      case None => Returned(false)
      case Some(alg) => Returned(digest(alg, binary) == fields[0])
  }

  /** get_url_with_authentication's headers: a bearer token when the token is truthy,
      then the additional headers, which win on a clash. */
  function AuthHeaders(token: Option<string>, extra: map<string, string>): (h: map<string, string>)
    ensures forall k :: k in extra ==> k in h && h[k] == extra[k]
    ensures Truthy(token) && "Authorization" !in extra ==>
      "Authorization" in h && h["Authorization"] == "Bearer " + token.value
    ensures forall k :: k in h && k !in extra ==> k == "Authorization" && Truthy(token)
  {
    if Truthy(token) then map["Authorization" := "Bearer " + token.value] + extra else extra
  }

  /** get_url_with_authentication: a transport error of requests.get propagates; a
      response is returned only with status 200, else None. */
  function GetWithAuth(fetch: Fetch, url: string, token: Option<string>, extra: map<string, string>): (r: Py<Option<Response>>)
    ensures r.Raised? <==> fetch(url, AuthHeaders(token, extra)).Raised?
    ensures r.Returned? ==> (r.value.Some? <==> fetch(url, AuthHeaders(token, extra)).value.status == 200)
    ensures r.Returned? && r.value.Some? ==> r.value.value == fetch(url, AuthHeaders(token, extra)).value
  {
    match fetch(url, AuthHeaders(token, extra))
    case Raised => Raised
    case Returned(resp) => Returned(if resp.status != 200 then None else Some(resp))
  }

  /** list_assets, given what get_url_with_authentication gave: the release's `assets`
      list, [] when the body has none; a transport error propagates, and calling `.json()`
      on a failed fetch (None) raises. */
  function ListAssets(resp: Py<Option<Response>>): (r: Py<seq<Asset>>)
    ensures r.Raised? <==> resp.Raised? || resp.value.None?
    ensures resp.Returned? && resp.value.Some? && resp.value.value.assets.Some? ==> r == Returned(resp.value.value.assets.value)
    ensures resp.Returned? && resp.value.Some? && resp.value.value.assets.None? ==> r == Returned([])
  {
    match resp
    case Raised => Raised
    case Returned(None) => Raised
    case Returned(Some(res)) => Returned(res.assets.GetOr([]))
  }

  /** extract_browser_download_url: the URL of the first asset named exactly `target`,
      and "" when none is. */
  function ExtractUrl(assets: seq<Asset>, target: string): (r: Option<string>)
    ensures (forall j :: 0 <= j < |assets| ==> assets[j].name != Some(target)) ==> r == Some("")
    ensures forall i :: (0 <= i < |assets| && assets[i].name == Some(target) &&
      (forall j :: 0 <= j < i ==> assets[j].name != Some(target))) ==> r == assets[i].downloadUrl
    decreases |assets|
  {
    if |assets| == 0 then Some("")
    else if assets[0].name == Some(target) then assets[0].downloadUrl
    else
      var r := ExtractUrl(assets[1..], target);
      assert forall i :: 1 <= i < |assets| ==> assets[1..][i - 1] == assets[i];
      r
  }

  /** The lines containing `platform`, in order. */
  function Matching(lines: seq<string>, platform: string): (r: seq<string>)
    ensures |r| <= |lines|
    ensures forall x :: x in r <==> x in lines && Contains(x, platform)
    decreases |lines|
  {
    if |lines| == 0 then []
    else
      var rest := Matching(lines[1..], platform);
      assert forall x :: x in lines <==> x == lines[0] || x in lines[1..];
      if Contains(lines[0], platform) then [lines[0]] + rest else rest
  }

  /** The filter keeps every occurrence of a matching line and drops every other line. */
  lemma {:induction false} MatchingCounts(lines: seq<string>, platform: string)
    ensures forall x ::
      multiset(Matching(lines, platform))[x] == (if Contains(x, platform) then multiset(lines)[x] else 0)
    decreases |lines|
  {
    if |lines| > 0 {
      MatchingCounts(lines[1..], platform);
      assert lines == [lines[0]] + lines[1..];
      assert multiset(lines) == multiset([lines[0]]) + multiset(lines[1..]);
    }
  }

  /** Two different lines containing the platform give at least two matches, even when
      they are the same text. */
  lemma {:induction false} MatchingTwo(lines: seq<string>, platform: string, i: nat, j: nat)
    requires i < j < |lines| && Contains(lines[i], platform) && Contains(lines[j], platform)
    ensures |Matching(lines, platform)| >= 2
    decreases |lines|
  {
    var rest := Matching(lines[1..], platform);
    if i == 0 {
      assert lines[1..][j - 1] == lines[j];
      assert lines[j] in rest;
    } else {
      assert lines[1..][i - 1] == lines[i] && lines[1..][j - 1] == lines[j];
      MatchingTwo(lines[1..], platform, i - 1, j - 1);
    }
  }

  /** When exactly the line at `k` contains the platform, it is the only match. */
  lemma {:induction false} MatchingSole(lines: seq<string>, platform: string, k: nat)
    requires k < |lines| && Contains(lines[k], platform)
    requires forall j :: 0 <= j < |lines| && j != k ==> !Contains(lines[j], platform)
    ensures Matching(lines, platform) == [lines[k]]
    decreases |lines|
  {
    if k == 0 {
      MatchingNone(lines[1..], platform);
    } else {
      MatchingSole(lines[1..], platform, k - 1);
    }
  }

  lemma {:induction false} MatchingNone(lines: seq<string>, platform: string)
    requires forall j :: 0 <= j < |lines| ==> !Contains(lines[j], platform)
    ensures Matching(lines, platform) == []
    decreases |lines|
  {
    if |lines| > 0 {
      MatchingNone(lines[1..], platform);
    }
  }

  /** The platform's line of a decoded manifest: the sole line containing the platform,
      stripped, and "" when no line or more than one does. */
  function ChecksumLine(text: string, platform: string): (r: string)
    ensures |Matching(SplitLines(text), platform)| != 1 ==> r == ""
    ensures r != "" ==> exists k :: 0 <= k < |SplitLines(text)| && Contains(SplitLines(text)[k], platform) && r == Strip(SplitLines(text)[k])
  {
    var matches := Matching(SplitLines(text), platform);
    if |matches| != 1 then ""
    else
      assert matches[0] in matches;
      Strip(matches[0])
  }

  /** A manifest in which two lines name the platform is ambiguous and yields "". */
  lemma ChecksumLineAmbiguous(text: string, platform: string, i: nat, j: nat)
    requires i < |SplitLines(text)| && j < |SplitLines(text)| && i != j
    requires Contains(SplitLines(text)[i], platform) && Contains(SplitLines(text)[j], platform)
    ensures ChecksumLine(text, platform) == ""
  {
    if i < j {
      MatchingTwo(SplitLines(text), platform, i, j);
    } else {
      MatchingTwo(SplitLines(text), platform, j, i);
    }
  }

  /** A manifest in which exactly one line names the platform yields that line, stripped. */
  lemma ChecksumLineSole(text: string, platform: string, k: nat)
    requires k < |SplitLines(text)| && Contains(SplitLines(text)[k], platform)
    requires forall j :: 0 <= j < |SplitLines(text)| && j != k ==> !Contains(SplitLines(text)[j], platform)
    ensures ChecksumLine(text, platform) == Strip(SplitLines(text)[k])
  {
    MatchingSole(SplitLines(text), platform, k);
  }

  /** get_checksum. A missing manifest asset, an empty body or a platform that does not
      match exactly one line gives ""; a transport error, a failed fetch (None.content) or a
      body that is not UTF-8 raises. */
  function GetChecksum(assets: seq<Asset>, checksumFile: string, platform: string, token: Option<string>,
                       fetch: Fetch, decode: Decode): (r: Py<string>)
    ensures !Truthy(ExtractUrl(assets, checksumFile)) ==> r == Returned("")
    ensures r.Returned? && r.value != "" ==>
      var resp := GetWithAuth(fetch, ExtractUrl(assets, checksumFile).value, token, map[]);
      resp.Returned? && resp.value.Some? && |resp.value.value.content| > 0 && decode(resp.value.value.content).Some? &&
      r.value == ChecksumLine(decode(resp.value.value.content).value, platform)
    ensures Truthy(ExtractUrl(assets, checksumFile)) ==>
      fetch(ExtractUrl(assets, checksumFile).value, AuthHeaders(token, map[])).Raised? ==> r == Raised
    ensures Truthy(ExtractUrl(assets, checksumFile)) && fetch(ExtractUrl(assets, checksumFile).value, AuthHeaders(token, map[])).Returned? ==>
      var resp := fetch(ExtractUrl(assets, checksumFile).value, AuthHeaders(token, map[])).value;
      && (resp.status != 200 ==> r == Raised)
      && (resp.status == 200 && |resp.content| == 0 ==> r == Returned(""))
      && (resp.status == 200 && |resp.content| > 0 && decode(resp.content).None? ==> r == Raised)
      && (resp.status == 200 && |resp.content| > 0 && decode(resp.content).Some? ==>
            r == Returned(ChecksumLine(decode(resp.content).value, platform)))
  {
    var url := ExtractUrl(assets, checksumFile);
    if !Truthy(url) then Returned("")
    else
      match GetWithAuth(fetch, url.value, token, map[])
      case Raised => Raised
      case Returned(None) => Raised
      case Returned(Some(resp)) =>
        if |resp.content| == 0 then Returned("")
        else
          match decode(resp.content)
          case None => Raised
          case Some(text) => Returned(ChecksumLine(text, platform))
  }

  /** get_binary: downloads the asset named by the checksum line's second field; a line
      with fewer than two fields or a transport error raises, and a missing asset, failed
      fetch or empty body gives b"". */
  function GetBinary(assets: seq<Asset>, checksum: string, token: Option<string>, fetch: Fetch): (r: Py<Bytes>)
    ensures r.Raised? <==> (|Split(checksum)| < 2 ||
      (Truthy(ExtractUrl(assets, Split(checksum)[1])) &&
       fetch(ExtractUrl(assets, Split(checksum)[1]).value, AuthHeaders(token, map[])).Raised?))
    ensures r.Returned? && |r.value| > 0 ==>
      var url := ExtractUrl(assets, Split(checksum)[1]);
      Truthy(url) && fetch(url.value, AuthHeaders(token, map[])).Returned? &&
      fetch(url.value, AuthHeaders(token, map[])).value.status == 200 &&
      r.value == fetch(url.value, AuthHeaders(token, map[])).value.content
    ensures |Split(checksum)| >= 2 ==>
      var url := ExtractUrl(assets, Split(checksum)[1]);
      && (!Truthy(url) ==> r == Returned([]))
      && (Truthy(url) && fetch(url.value, AuthHeaders(token, map[])).Returned? ==>
            var resp := fetch(url.value, AuthHeaders(token, map[])).value;
            && (resp.status != 200 ==> r == Returned([]))
            && (resp.status == 200 ==> r == Returned(resp.content)))
  {
    var fields := Split(checksum);
    if |fields| < 2 then Raised
    else
      var url := ExtractUrl(assets, fields[1]);
      if !Truthy(url) then Returned([])
      else
        match GetWithAuth(fetch, url.value, token, map[])
        case Raised => Raised
        case Returned(None) => Returned([])
        case Returned(Some(resp)) => Returned(resp.content)
  }

  /** The quota error text of one resource. */
  function QuotaDetail(l: Limit): string {
    "total: " + IntToString(l.limit) + ", remaining: " + IntToString(l.remaining) +
    ", reset: " + IntToString(l.reset)
  }

  /** The (name, detail) pairs of the resources whose limit is 0, in document order. */
  function ZeroLimits(resources: seq<(string, Limit)>): (r: seq<(string, string)>)
    ensures |r| <= |resources|
    decreases |resources|
  {
    if |resources| == 0 then []
    else
      var rest := ZeroLimits(resources[1..]);
      if resources[0].1.limit == 0 then [(resources[0].0, QuotaDetail(resources[0].1))] + rest
      else rest
  }

  /** Every pair reported comes from a resource whose limit is 0. */
  lemma {:induction false} ZeroLimitsSound(resources: seq<(string, Limit)>)
    ensures forall e :: e in ZeroLimits(resources) ==>
      exists i :: 0 <= i < |resources| && resources[i].1.limit == 0 && e == (resources[i].0, QuotaDetail(resources[i].1))
    decreases |resources|
  {
    if |resources| > 0 {
      var tail := resources[1..];
      ZeroLimitsSound(tail);
      forall e | e in ZeroLimits(resources)
        ensures exists i :: 0 <= i < |resources| && resources[i].1.limit == 0 && e == (resources[i].0, QuotaDetail(resources[i].1))
      {
        if e in ZeroLimits(tail) {
          var k :| 0 <= k < |tail| && tail[k].1.limit == 0 && e == (tail[k].0, QuotaDetail(tail[k].1));
          assert tail[k] == resources[k + 1];
        } else {
          assert resources[0].1.limit == 0 && e == (resources[0].0, QuotaDetail(resources[0].1));
        }
      }
    }
  }

  /** Every resource whose limit is 0 is reported. */
  lemma {:induction false} ZeroLimitsComplete(resources: seq<(string, Limit)>)
    ensures forall i :: 0 <= i < |resources| && resources[i].1.limit == 0 ==>
      (resources[i].0, QuotaDetail(resources[i].1)) in ZeroLimits(resources)
    decreases |resources|
  {
    if |resources| > 0 {
      var tail := resources[1..];
      ZeroLimitsComplete(tail);
      forall i | 0 <= i < |resources| && resources[i].1.limit == 0
        ensures (resources[i].0, QuotaDetail(resources[i].1)) in ZeroLimits(resources)
      {
        if i > 0 {
          assert tail[i - 1] == resources[i];
        }
      }
    }
  }

  /** Nothing is reported exactly when no limit is 0. */
  lemma ZeroLimitsEmpty(resources: seq<(string, Limit)>)
    ensures |ZeroLimits(resources)| == 0 <==> forall i :: 0 <= i < |resources| ==> resources[i].1.limit != 0
  {
    ZeroLimitsSound(resources);
    ZeroLimitsComplete(resources);
    if |ZeroLimits(resources)| > 0 {
      assert ZeroLimits(resources)[0] in ZeroLimits(resources);
    }
  }

  /** get_quota: None for a non-200 response or when no limit is 0, else the exhausted
      resources; a transport error, or a document without `resources` (KeyError), raises. */
  function GetQuota(token: Option<string>, fetch: Fetch): (r: Py<Option<seq<(string, string)>>>)
    ensures fetch(RateLimitUrl, AuthHeaders(token, QuotaHeaders)).Raised? ==> r == Raised
    ensures (fetch(RateLimitUrl, AuthHeaders(token, QuotaHeaders)).Returned? &&
      fetch(RateLimitUrl, AuthHeaders(token, QuotaHeaders)).value.status != 200) ==> r == Returned(None)
    ensures r.Returned? && r.value.Some? ==> |r.value.value| > 0
    ensures r.Returned? && r.value.Some? ==>
      fetch(RateLimitUrl, AuthHeaders(token, QuotaHeaders)).Returned? &&
      var doc := fetch(RateLimitUrl, AuthHeaders(token, QuotaHeaders)).value;
      doc.status == 200 && doc.resources.Some? &&
      forall e :: e in r.value.value ==>
        exists i :: 0 <= i < |doc.resources.value| && doc.resources.value[i].1.limit == 0 && e.0 == doc.resources.value[i].0
    ensures r.Returned? && r.value.Some? ==>
      r.value.value == ZeroLimits(fetch(RateLimitUrl, AuthHeaders(token, QuotaHeaders)).value.resources.value)
    ensures fetch(RateLimitUrl, AuthHeaders(token, QuotaHeaders)).Returned? ==>
      var doc := fetch(RateLimitUrl, AuthHeaders(token, QuotaHeaders)).value;
      doc.status == 200 ==>
        && (doc.resources.None? ==> r == Raised)
        && (doc.resources.Some? && |ZeroLimits(doc.resources.value)| == 0 ==> r == Returned(None))
        && (doc.resources.Some? && |ZeroLimits(doc.resources.value)| > 0 ==> r == Returned(Some(ZeroLimits(doc.resources.value))))
  {
    match GetWithAuth(fetch, RateLimitUrl, token, QuotaHeaders)
    case Raised => Raised
    case Returned(None) => Returned(None)
    case Returned(Some(resp)) =>
      match resp.resources
      case None => Raised
      case Some(res) =>
        var errors := ZeroLimits(res);
        ZeroLimitsSound(res);
        if |errors| == 0 then Returned(None) else Returned(Some(errors))
  }

  /** A reported list holds exactly the exhausted resources of the fetched document, each
      with its detail text. */
  lemma GetQuotaReports(token: Option<string>, fetch: Fetch, errs: seq<(string, string)>)
    requires GetQuota(token, fetch) == Returned(Some(errs))
    ensures fetch(RateLimitUrl, AuthHeaders(token, QuotaHeaders)).Returned?
    ensures var res := fetch(RateLimitUrl, AuthHeaders(token, QuotaHeaders)).value.resources.value;
      forall e :: e in errs <==>
        exists i :: 0 <= i < |res| && res[i].1.limit == 0 && e == (res[i].0, QuotaDetail(res[i].1))
  {
    var res := fetch(RateLimitUrl, AuthHeaders(token, QuotaHeaders)).value.resources.value;
    ZeroLimitsSound(res);
    ZeroLimitsComplete(res);
  }

  /** The subcommand, with argparse already done. */
  datatype Command =
    | Quota
    | Download(url: string, checksumFile: string, algorithm: string, platform: string)

  /** The process exit status and the file written, if any. */
  datatype Outcome = Outcome(exit: int, written: Option<(string, Bytes)>)

  /** GITHUB_TOKEN when set and non-empty. */
  function TokenOf(env: Host.Env): (t: Option<string>)
    ensures Truthy(t) <==> Host.Getenv(env, "GITHUB_TOKEN") != ""
    ensures t.Some? ==> t.value == Host.Getenv(env, "GITHUB_TOKEN")
  {
    var v := Host.Getenv(env, "GITHUB_TOKEN");
    if v != "" then Some(v) else None
  }

  /** main for the quota subcommand: exit 1 iff some limit is 0 (or the script crashed). */
  function QuotaMain(token: Option<string>, fetch: Fetch): (r: Outcome)
    ensures r.written.None?
    ensures r.exit == 0 <==> GetQuota(token, fetch) == Returned(None)
    ensures r.exit == 0 || r.exit == 1
  {
    match GetQuota(token, fetch)
    case Raised => Outcome(1, None)
    case Returned(None) => Outcome(0, None)
    case Returned(Some(_)) => Outcome(1, None)
  }

  /** A non-200 rate-limit response is reported but exits 0. */
  lemma QuotaFetchFailureExitsZero(token: Option<string>, fetch: Fetch)
    requires fetch(RateLimitUrl, AuthHeaders(token, QuotaHeaders)).Returned?
    requires fetch(RateLimitUrl, AuthHeaders(token, QuotaHeaders)).value.status != 200
    ensures QuotaMain(token, fetch) == Outcome(0, None)
  {
  }

  /** A transport error on the rate-limit request escapes main: exit 1. */
  lemma QuotaTransportErrorExitsOne(token: Option<string>, fetch: Fetch)
    requires fetch(RateLimitUrl, AuthHeaders(token, QuotaHeaders)).Raised?
    ensures QuotaMain(token, fetch) == Outcome(1, None)
  {
  }

  /** Quota mode exits 1 exactly when the document lists a resource with limit 0. */
  lemma {:induction false} QuotaZeroLimitExitsOne(token: Option<string>, fetch: Fetch)
    requires fetch(RateLimitUrl, AuthHeaders(token, QuotaHeaders)).Returned?
    requires fetch(RateLimitUrl, AuthHeaders(token, QuotaHeaders)).value.status == 200
    requires fetch(RateLimitUrl, AuthHeaders(token, QuotaHeaders)).value.resources.Some?
    ensures QuotaMain(token, fetch).exit == 1 <==>
      exists i :: 0 <= i < |fetch(RateLimitUrl, AuthHeaders(token, QuotaHeaders)).value.resources.value| &&
        fetch(RateLimitUrl, AuthHeaders(token, QuotaHeaders)).value.resources.value[i].1.limit == 0
  {
    var doc := fetch(RateLimitUrl, AuthHeaders(token, QuotaHeaders)).value;
    var res := doc.resources.value;
    var errors := ZeroLimits(res);
    assert GetWithAuth(fetch, RateLimitUrl, token, QuotaHeaders) == Returned(Some(doc));
    assert GetQuota(token, fetch) == (if |errors| == 0 then Returned(None) else Returned(Some(errors)));
    ZeroLimitsEmpty(res);
  }

  /** main for the download subcommand: each falsy step exits 1, and the binary is written
      under the checksum line's second field only after it validated. */
  function DownloadMain(cmd: Command, token: Option<string>, fetch: Fetch, decode: Decode, digest: Digest): (r: Outcome)
    requires cmd.Download?
    ensures r.exit == 0 <==> r.written.Some?
    ensures r.exit == 0 || r.exit == 1
    ensures r.written.Some? ==>
      var assets := ListAssets(GetWithAuth(fetch, cmd.url, token, map[]));
      assets.Returned? && |assets.value| > 0 &&
      var checksum := GetChecksum(assets.value, cmd.checksumFile, cmd.platform, token, fetch, decode);
      checksum.Returned? && checksum.value != "" &&
      NormalizeAlgorithm(cmd.algorithm).Some? &&
      |r.written.value.1| > 0 &&
      Split(checksum.value) == [digest(NormalizeAlgorithm(cmd.algorithm).value, r.written.value.1), r.written.value.0]
    ensures r.written.Some? ==>
      var assets := ListAssets(GetWithAuth(fetch, cmd.url, token, map[]));
      assets.Returned? &&
      var checksum := GetChecksum(assets.value, cmd.checksumFile, cmd.platform, token, fetch, decode);
      checksum.Returned? &&
      GetBinary(assets.value, checksum.value, token, fetch) == Returned(r.written.value.1)
  {
    match ListAssets(GetWithAuth(fetch, cmd.url, token, map[]))
    case Raised => Outcome(1, None)
    case Returned(assets) =>
      if |assets| == 0 then Outcome(1, None)
      else
        match GetChecksum(assets, cmd.checksumFile, cmd.platform, token, fetch, decode)
        case Raised => Outcome(1, None)
        case Returned(checksum) =>
          if checksum == "" then Outcome(1, None)
          else
            match GetBinary(assets, checksum, token, fetch)
            case Raised => Outcome(1, None)
            case Returned(binary) =>
              if |binary| == 0 then Outcome(1, None)
              else
                match ValidateBinary(binary, checksum, cmd.algorithm, digest)
                case Raised => Outcome(1, None)
                case Returned(ok) =>
                  if !ok then Outcome(1, None)
                  else Outcome(0, Some((Split(checksum)[1], binary)))
  }

  /** The script's entry point, after argument parsing. */
  function RunScript(cmd: Command, env: Host.Env, fetch: Fetch, decode: Decode, digest: Digest): (r: Outcome)
    ensures cmd.Quota? ==> r.written.None?
    ensures r.exit == 0 || r.exit == 1
    ensures cmd.Download? ==> (r.exit == 0 <==> r.written.Some?)
  {
    var token := TokenOf(env);
    match cmd
    case Quota => QuotaMain(token, fetch)
    case Download(_, _, _, _) => DownloadMain(cmd, token, fetch, decode, digest)
  }

  /** When every step succeeds, the download exits 0 and writes the downloaded binary under
      the checksum line's second field. */
  lemma DownloadSucceeds(cmd: Command, token: Option<string>, fetch: Fetch, decode: Decode, digest: Digest,
                         a: seq<Asset>, c: string, b: Bytes)
    requires cmd.Download?
    requires ListAssets(GetWithAuth(fetch, cmd.url, token, map[])) == Returned(a) && |a| > 0
    requires GetChecksum(a, cmd.checksumFile, cmd.platform, token, fetch, decode) == Returned(c) && c != ""
    requires GetBinary(a, c, token, fetch) == Returned(b) && |b| > 0
    requires ValidateBinary(b, c, cmd.algorithm, digest) == Returned(true)
    ensures |Split(c)| == 2
    ensures DownloadMain(cmd, token, fetch, decode, digest) == Outcome(0, Some((Split(c)[1], b)))
  {
  }

  /** The same from the script's entry point, with the token taken from GITHUB_TOKEN. */
  lemma RunScriptDownloads(cmd: Command, env: Host.Env, fetch: Fetch, decode: Decode, digest: Digest,
                           a: seq<Asset>, c: string, b: Bytes)
    requires cmd.Download?
    requires ListAssets(GetWithAuth(fetch, cmd.url, TokenOf(env), map[])) == Returned(a) && |a| > 0
    requires GetChecksum(a, cmd.checksumFile, cmd.platform, TokenOf(env), fetch, decode) == Returned(c) && c != ""
    requires GetBinary(a, c, TokenOf(env), fetch) == Returned(b) && |b| > 0
    requires ValidateBinary(b, c, cmd.algorithm, digest) == Returned(true)
    ensures |Split(c)| == 2
    ensures RunScript(cmd, env, fetch, decode, digest) == Outcome(0, Some((Split(c)[1], b)))
  {
    DownloadSucceeds(cmd, TokenOf(env), fetch, decode, digest, a, c, b);
  }
}

=== FILE: host.dfy ===
/** The launcher's environment, passed explicitly: the filesystem, environment variables
    and the viper configuration store. */
module Host {
  import opened Strs

  /** What `Stat` reports for an existing path. */
  datatype Kind = File | Dir

  /** The filesystem seen by `os.Stat` / `afero.Stat`: a path exists iff it is a key. */
  type Fs = map<string, Kind>

  predicate Exists(fs: Fs, p: string) {
    p in fs
  }

  predicate IsDir(fs: Fs, p: string) {
    p in fs && fs[p] == Dir
  }

  /** The text of the error `Stat` returns for a missing path (the OS error, abstracted). */
  function StatError(p: string): string {
    "stat " + p + ": no such file or directory"
  }

  /** Process environment; `os.Getenv` of an unset variable is "". */
  type Env = map<string, string>

  function Getenv(env: Env, k: string): string {
    if k in env then env[k] else ""
  }

  /** The viper configuration store: which keys are set, and their string and bool views. */
  datatype Store = Store(keys: set<string>, strings: map<string, string>, bools: map<string, bool>)

  predicate IsSet(st: Store, k: string) {
    k in st.keys
  }

  /** viper.GetString: "" for a key without a string value. */
  function GetString(st: Store, k: string): string {
    if k in st.strings then st.strings[k] else ""
  }

  /** viper.GetBool: false for a key without a bool value. */
  function GetBool(st: Store, k: string): bool {
    k in st.bools && st.bools[k]
  }

  /** filepath.Join of two elements, without Clean: an empty side is dropped. */
  function PathJoin(a: string, b: string): string {
    if a == "" then b else if b == "" then a else a + "/" + b
  }

  /** fmt's rendering of a []string with %s or %v: "[a b c]". */
  function GoList(xs: seq<string>): string {
    "[" + Join(xs, " ") + "]"
  }
}

=== FILE: hostpkgs.dfy ===
/** pkg/backplane: the older backplane configuration constructor. */
module BackplanePkg {
  import opened Wrappers
  import Host
  import Engine

  datatype Config = Config(env: Option<map<string, string>>, mounts: seq<Engine.VolumeMount>)

  /** The source: a non-empty BACKPLANE_CONFIG as is (HOME ignored), else the file under HOME. */
  function Source(home: string, env: Host.Env): (b: string)
    ensures Host.Getenv(env, "BACKPLANE_CONFIG") != "" ==> b == Host.Getenv(env, "BACKPLANE_CONFIG")
    ensures Host.Getenv(env, "BACKPLANE_CONFIG") == "" ==> b == home + "/.config/backplane/config.json"
  {
    var b := Host.Getenv(env, "BACKPLANE_CONFIG");
    if b == "" then home + "/" + ".config/backplane/config.json" else b
  }

  /** A missing source leaves the environment nil and adds no mount. On success the in-container
      variable holds the relative path, and the one mount is read-write. */
  function New(home: string, env: Host.Env, fs: Host.Fs): (r: (Config, Option<string>))
    ensures r.1 != None <==> !Host.Exists(fs, Source(home, env))
    ensures r.1 != None ==> r.0 == Config(None, [])
    ensures r.1 == None ==> r.0.env == Some(map["BACKPLANE_CONFIG" := ".config/backplane/config.json"])
    ensures r.1 == None ==> r.0.mounts == [Engine.VolumeMount(Source(home, env), "/root/.config/backplane/config.json", "rw")]
  {
    var b := Source(home, env);
    if !Host.Exists(fs, b) then
      (Config(None, []), Some("error: problem reading backplane config: " + b + ": " + Host.StatError(b)))
    else
      (Config(Some(map["BACKPLANE_CONFIG" := ".config/backplane/config.json"]),
              [Engine.VolumeMount(b, "/root/.config/backplane/config.json", "rw")]), None)
  }
}

/** pkg/pagerduty: the older PagerDuty constructor, with a single mount field. */
module PagerdutyPkg {
  import opened Wrappers
  import Host
  import Engine

  /** `mount` is None while the field holds its zero value. */
  datatype Config = Config(token: string, mount: Option<Engine.VolumeMount>)

  /** The token path is fixed under HOME; on success it is mounted read-only. */
  function New(home: string, fs: Host.Fs): (r: (Config, Option<string>))
    ensures r.0.token == home + "/.config/pagerduty-cli/config.json"
    ensures r.1 != None <==> !Host.Exists(fs, r.0.token)
    ensures r.1 != None ==> r.0.mount == None
    ensures r.1 == None ==> r.0.mount == Some(Engine.VolumeMount(r.0.token, "/root/.config/pagerduty-cli/config.json", "ro"))
  {
    var token := home + "/.config/pagerduty-cli/config.json";
    if !Host.Exists(fs, token) then
      (Config(token, None), Some("error: problem reading PagerDuty token file: " + token + ": " + Host.StatError(token) + ", err"))
    else (Config(token, Some(Engine.VolumeMount(token, "/root/.config/pagerduty-cli/config.json", "ro"))), None)
  }
}

/** pkg/scratch: mounts a scratch directory. */
module Scratch {
  import opened Wrappers
  import Host
  import Engine
  import FeatureSet

  /** The source passes through to /root/scratch under the read-write switch. */
  function New(source: string, rw: bool, fs: Host.Fs): (r: FeatureSet.Mounts)
    ensures r.err != None <==> !Host.Exists(fs, source)
    ensures r.err != None ==> r.mounts == []
    ensures r.err == None ==> r.mounts == [Engine.VolumeMount(source, "/root/scratch", FeatureSet.BoolToMountOpt(rw))]
  {
    if !Host.Exists(fs, source) then
      FeatureSet.Mounts([], Some("error: problem reading scratch directory: " + source + ": " + Host.StatError(source) + ","))
    else FeatureSet.Mounts([Engine.VolumeMount(source, "/root/scratch", FeatureSet.BoolToMountOpt(rw))], None)
  }
}

=== FILE: logger.dfy ===
/** Logger set-up: which level the configuration asks for, and whether colours are off.
    The formatter is reduced to its two settings. */
module Logger {
  import opened Wrappers
  import Host

  datatype Level = Debug | Info | Warn | Error

  const InvalidLevel: string := "Invalid log level. Valid values are 'debug', 'info', 'warning', 'error'"

  /** The name logrus gives each level. */
  function LevelName(l: Level): string {
    match l
    case Debug => "debug"
    case Info => "info"
    case Warn => "warning"
    case Error => "error"
  }

  /** parseLogLevel: the level and, for an unknown name, the error beside a Warn level. */
  function ParseLogLevel(s: string): (r: (Level, Option<string>))
    ensures r.1.None? <==> s in {"debug", "info", "warn", "warning", "err", "error"}
    ensures r.1.Some? ==> r == (Warn, Some(InvalidLevel))
    ensures s == "warn" || s == "warning" ==> r.0 == Warn
    ensures s == "err" || s == "error" ==> r.0 == Error
  {
    match s
    case "debug" => (Debug, None)
    case "info" => (Info, None)
    case "warn" => (Warn, None)
    case "warning" => (Warn, None)
    case "err" => (Error, None)
    case "error" => (Error, None)
    case _ => (Warn, Some(InvalidLevel))
  }

  /** Every level's own name parses back to it. */
  lemma ParseLevelName(l: Level)
    ensures ParseLogLevel(LevelName(l)) == (l, None)
  {
  }

  /** setLogLevel: `log-level` wins over `log.level`; with neither, Warn. */
  function SetLogLevel(st: Host.Store): (r: (Level, Option<string>))
    ensures Host.IsSet(st, "log-level") ==> r == ParseLogLevel(Host.GetString(st, "log-level"))
    ensures !Host.IsSet(st, "log-level") && Host.IsSet(st, "log.level") ==> r == ParseLogLevel(Host.GetString(st, "log.level"))
    ensures !Host.IsSet(st, "log-level") && !Host.IsSet(st, "log.level") ==> r == (Warn, None)
  {
    if Host.IsSet(st, "log-level") then ParseLogLevel(Host.GetString(st, "log-level"))
    else if Host.IsSet(st, "log.level") then ParseLogLevel(Host.GetString(st, "log.level"))
    else (Warn, None)
  }

  /** The logger's configuration: the level and the formatter's two switches. */
  datatype LogState = LogState(level: Level, disableTimestamp: bool, disableColors: bool)

  /** Colours are off with `--no-color`, or when `log.color` is set to false. */
  function NoColor(st: Host.Store): (r: bool)
    ensures r <==> Host.GetBool(st, "no-color") || (Host.IsSet(st, "log.color") && !Host.GetBool(st, "log.color"))
  {
    Host.GetBool(st, "no-color") || (Host.IsSet(st, "log.color") && !Host.GetBool(st, "log.color"))
  }

  /** InitializeLogger: a bad level name returns its error and leaves the logger as it was;
      otherwise timestamps go off, colours follow NoColor and the level is set. */
  function InitializeLogger(st: Host.Store, before: LogState): (r: (LogState, Option<string>))
    ensures r.1.Some? <==> SetLogLevel(st).1.Some?
    ensures r.1.Some? ==> r.0 == before && r.1 == Some(InvalidLevel)
    ensures r.1.None? ==> r.0 == LogState(SetLogLevel(st).0, true, NoColor(st))
  {
    var (level, err) := SetLogLevel(st);
    if err.Some? then (before, err)
    else (LogState(level, true, NoColor(st)), None)
  }

  /** A configuration that names no level at all logs at Warn and never fails. */
  lemma DefaultLevelIsWarn(st: Host.Store, before: LogState)
    requires !Host.IsSet(st, "log-level") && !Host.IsSet(st, "log.level")
    ensures InitializeLogger(st, before).1.None?
    ensures InitializeLogger(st, before).0.level == Warn
  {
  }

  /** The flag takes precedence: a valid `log-level` hides even a bad `log.level`. */
  lemma FlagHidesConfig(st: Host.Store, before: LogState)
    requires Host.IsSet(st, "log-level") && ParseLogLevel(Host.GetString(st, "log-level")).1.None?
    ensures InitializeLogger(st, before) ==
      (LogState(ParseLogLevel(Host.GetString(st, "log-level")).0, true, NoColor(st)), None)
  {
  }
}

=== FILE: maps.dfy ===
/** Building a Go map by assigning key/value pairs in turn, so that a later pair for the same
    key overwrites an earlier one. */
module Maps {

  function FromPairs<K, V>(ps: seq<(K, V)>): (m: map<K, V>)
    decreases |ps|
  {
    if |ps| == 0 then map[]
    else FromPairs(ps[..|ps| - 1])[ps[|ps| - 1].0 := ps[|ps| - 1].1]
  }

  /** A key is present iff some pair assigns it. */
  lemma {:induction false} FromPairsKeys<K, V>(ps: seq<(K, V)>, k: K)
    ensures k in FromPairs(ps) <==> exists i :: 0 <= i < |ps| && ps[i].0 == k
    decreases |ps|
  {
    if |ps| > 0 {
      var init := ps[..|ps| - 1];
      FromPairsKeys(init, k);
      assert forall i :: 0 <= i < |init| ==> init[i] == ps[i];
      if ps[|ps| - 1].0 != k && k in FromPairs(ps) {
        var i :| 0 <= i < |init| && init[i].0 == k;
        assert ps[i].0 == k;
      }
    }
  }

  /** The value is the one of the last pair for that key. */
  lemma {:induction false} FromPairsLast<K, V>(ps: seq<(K, V)>, i: nat)
    requires i < |ps|
    requires forall j :: i < j < |ps| ==> ps[j].0 != ps[i].0
    ensures ps[i].0 in FromPairs(ps) && FromPairs(ps)[ps[i].0] == ps[i].1
    decreases |ps|
  {
    if i < |ps| - 1 {
      var init := ps[..|ps| - 1];
      assert init[i] == ps[i];
      FromPairsLast(init, i);
    }
  }

  /** When every pair for `k` carries `v`, the map holds `v` at `k` if it holds `k` at all. */
  lemma {:induction false} FromPairsUniform<K, V>(ps: seq<(K, V)>, k: K, v: V)
    requires forall i :: 0 <= i < |ps| && ps[i].0 == k ==> ps[i].1 == v
    ensures k in FromPairs(ps) ==> FromPairs(ps)[k] == v
    decreases |ps|
  {
    if |ps| > 0 {
      var init := ps[..|ps| - 1];
      assert forall i :: 0 <= i < |init| ==> init[i] == ps[i];
      FromPairsUniform(init, k, v);
    }
  }

  /** `order` lists the keys of `m` once each: the order in which Go's range over the map
      happened to visit them. */
  predicate IsKeyOrder<K, V>(order: seq<K>, m: map<K, V>) {
    && (forall k :: k in m ==> k in order)
    && (forall k :: k in order ==> k in m)
    && (forall i, j :: 0 <= i < j < |order| ==> order[i] != order[j])
  }

  lemma KeyOrderLength<K, V>(order: seq<K>, m: map<K, V>)
    requires IsKeyOrder(order, m)
    ensures |order| == |m|
  {
    var ks := set i | 0 <= i < |order| :: order[i];
    assert ks == m.Keys;
    DistinctCard(order);
  }

  lemma {:induction false} DistinctCard<T>(s: seq<T>)
    requires forall i, j :: 0 <= i < j < |s| ==> s[i] != s[j]
    ensures |set i | 0 <= i < |s| :: s[i]| == |s|
    decreases |s|
  {
    if |s| > 0 {
      var t := s[..|s| - 1];
      DistinctCard(t);
      var a := set i | 0 <= i < |t| :: t[i];
      var b := set i | 0 <= i < |s| :: s[i];
      assert b == a + {s[|s| - 1]};
      assert s[|s| - 1] !in a;
    }
  }

  lemma {:induction false} DistinctMultiset<T>(a: seq<T>)
    requires forall i, j :: 0 <= i < j < |a| ==> a[i] != a[j]
    ensures forall x :: multiset(a)[x] == if x in a then 1 else 0
    decreases |a|
  {
    if |a| > 0 {
      var init := a[..|a| - 1];
      DistinctMultiset(init);
      assert a == init + [a[|a| - 1]];
      assert a[|a| - 1] !in init;
    }
  }

  /** Two walks of the same map visit the same keys, as often. */
  lemma KeyOrdersPermute<K, V>(o1: seq<K>, o2: seq<K>, m: map<K, V>)
    requires IsKeyOrder(o1, m) && IsKeyOrder(o2, m)
    ensures multiset(o1) == multiset(o2)
  {
    DistinctMultiset(o1);
    DistinctMultiset(o2);
    assert forall x :: multiset(o1)[x] == multiset(o2)[x];
  }
}

=== FILE: ocm.dfy ===
/** The OCM environment names: the four API URLs, the aliases users may type for them,
    the short alias of each URL, and the file name of the launcher's copy of the OCM
    configuration. Authentication and the OCM API are not modelled. */
module Ocm {
  const ProductionUrl: string := "https://api.openshift.com"
  const StagingUrl: string := "https://api.stage.openshift.com"
  const IntegrationUrl: string := "https://api.integration.openshift.com"
  const ProductionGovUrl: string := "https://api.openshiftusgov.com"

  const CanonicalUrls: set<string> := {ProductionUrl, StagingUrl, IntegrationUrl, ProductionGovUrl}

  /** The aliases listed in the help text. */
  const SupportedUrls: seq<string> := ["prod", "stage", "int", "prodgov"]

  const ShortUrl: map<string, string> := map[
    ProductionUrl := "prod",
    StagingUrl := "stage",
    IntegrationUrl := "int",
    ProductionGovUrl := "prodgov"]

  const UrlAliases: map<string, string> := map[
    "production" := ProductionUrl,
    "prod" := ProductionUrl,
    "prd" := ProductionUrl,
    ProductionUrl := ProductionUrl,
    "staging" := StagingUrl,
    "stage" := StagingUrl,
    "stg" := StagingUrl,
    StagingUrl := StagingUrl,
    "integration" := IntegrationUrl,
    "int" := IntegrationUrl,
    IntegrationUrl := IntegrationUrl,
    "productiongov" := ProductionGovUrl,
    "prodgov" := ProductionGovUrl,
    "prdgov" := ProductionGovUrl,
    ProductionGovUrl := ProductionGovUrl]

  /** url: the API URL an alias names; "" (the map's zero value) for anything else. */
  function Url(s: string): (r: string)
    ensures s in UrlAliases ==> r in CanonicalUrls
    ensures s !in UrlAliases ==> r == ""
  {
    if s in UrlAliases then UrlAliases[s] else ""
  }

  /** alias: the short name of an API URL; "" for anything else. */
  function Alias(s: string): (r: string)
    ensures s in CanonicalUrls <==> r != ""
  {
    if s in ShortUrl then ShortUrl[s] else ""
  }

  /** Each API URL is its own alias. */
  lemma UrlFixesCanonical(u: string)
    requires u in CanonicalUrls
    ensures Url(u) == u
  {
  }

  /** The short alias of each API URL leads back to it, and each alias of the help text
      is the short alias of the URL it names. */
  lemma AliasRoundTrip(u: string, a: string)
    requires u in CanonicalUrls
    requires a in SupportedUrls
    ensures Url(Alias(u)) == u
    ensures Url(a) != "" && Alias(Url(a)) == a
  {
  }

  /** Exactly the API URLs have short aliases. */
  lemma ShortUrlKeys()
    ensures ShortUrl.Keys == CanonicalUrls
    ensures UrlAliases.Values == CanonicalUrls
  {
    assert UrlAliases[ProductionUrl] == ProductionUrl;
    assert UrlAliases[StagingUrl] == StagingUrl;
    assert UrlAliases[IntegrationUrl] == IntegrationUrl;
    assert UrlAliases[ProductionGovUrl] == ProductionGovUrl;
  }

  /** The launcher's copy of the OCM configuration sits next to the original, named after
      the environment's short alias; a URL outside the table leaves the name ending in a
      bare dot. */
  function CachedConfigName(dir: string, configUrl: string): (r: string)
    ensures configUrl == ProductionUrl ==> r == dir + "/ocm.json.ocm-container.prod"
    ensures configUrl == StagingUrl ==> r == dir + "/ocm.json.ocm-container.stage"
    ensures configUrl == IntegrationUrl ==> r == dir + "/ocm.json.ocm-container.int"
    ensures configUrl == ProductionGovUrl ==> r == dir + "/ocm.json.ocm-container.prodgov"
    ensures configUrl !in CanonicalUrls ==> r == dir + "/ocm.json.ocm-container."
  {
    dir + "/ocm.json.ocm-container." + Alias(configUrl)
  }

  /** New's choice of environment: with $OCM_CONFIG set, the URL already in the loaded
      configuration is kept; otherwise `--ocm-url` is resolved through the alias table. */
  function ChooseUrl(ocmConfigEnv: string, loadedUrl: string, ocmUrlFlag: string): (r: string)
    ensures ocmConfigEnv != "" ==> r == loadedUrl
    ensures ocmConfigEnv == "" ==> r == Url(ocmUrlFlag)
  {
    if ocmConfigEnv != "" then loadedUrl else Url(ocmUrlFlag)
  }
}

=== FILE: ocmcontainer.dfy ===
/** The launcher's decisions that need no container: reading the cluster and the command
    from the positional arguments, and the feature switches built from negative flags. */
module OcmContainer {
  import opened Wrappers
  import opened Strs
  import Host

  const ErrClusterAndUnderscoreArgs: string :=
    "specifying a cluster with --cluster-id and using an underscore in the first argument are mutually exclusive"

  /** The arguments with every `--` removed, the rest kept in order. */
  function DropDashes(xs: seq<string>): (r: seq<string>)
    ensures |r| <= |xs|
    decreases |xs|
  {
    if |xs| == 0 then []
    else (if xs[0] == "--" then [] else [xs[0]]) + DropDashes(xs[1..])
  }

  /** DropDashes keeps exactly the other arguments. */
  lemma {:induction false} DropDashesMembers(xs: seq<string>)
    ensures "--" !in DropDashes(xs)
    ensures forall x :: x in DropDashes(xs) <==> x in xs && x != "--"
    decreases |xs|
  {
    if |xs| > 0 {
      DropDashesMembers(xs[1..]);
      assert xs == [xs[0]] + xs[1..];
    }
  }

  /** Without any `--`, nothing is dropped. */
  lemma {:induction false} DropDashesNone(xs: seq<string>)
    requires "--" !in xs
    ensures DropDashes(xs) == xs
    decreases |xs|
  {
    if |xs| > 0 {
      assert "--" !in xs[1..] by {
        forall i | 0 <= i < |xs[1..]| ensures xs[1..][i] != "--" {
          assert xs[1..][i] == xs[i + 1];
        }
      }
      DropDashesNone(xs[1..]);
      assert xs == [xs[0]] + xs[1..];
    }
  }

  /** parseArgs: the cluster and the command to run, from `--cluster-id` and the
      positional arguments. */
  function ParseArgs(args: seq<string>, cluster: string): (r: Result<(string, string)>)
    ensures cluster != "" && |args| == 0 ==> r == Ok((cluster, ""))
    ensures cluster != "" && |args| > 0 && args[0] != "_" ==> r == Ok((cluster, Join(args, " ")))
    ensures cluster != "" && |args| > 0 && args[0] == "_" ==> r == Err(ErrClusterAndUnderscoreArgs)
    ensures cluster == "" && |args| == 0 ==> r == Ok(("", ""))
    ensures cluster == "" && |args| == 1 ==> r == Ok((args[0], ""))
    ensures cluster == "" && |args| > 1 ==>
      r == Ok((if args[0] == "_" then "" else args[0], Join(DropDashes(args[1..]), " ")))
    ensures r.Err? <==> cluster != "" && |args| > 0 && args[0] == "_"
  {
    if cluster != "" && |args| == 0 then Ok((cluster, ""))
    else if cluster != "" && args[0] != "_" then Ok((cluster, Join(args, " ")))
    else if cluster != "" && args[0] == "_" then Err(ErrClusterAndUnderscoreArgs)
    else if |args| == 1 then Ok((args[0], ""))
    else if |args| > 1 then
      Ok((if args[0] == "_" then "" else args[0], Join(DropDashes(args[1..]), " ")))
    else Ok(("", ""))
  }

  /** A lone positional argument is taken as the cluster as it is, even "_"; only with
      more arguments does "_" stand for no cluster. */
  lemma LoneUnderscoreIsCluster()
    ensures ParseArgs(["_"], "") == Ok(("_", ""))
    ensures ParseArgs(["_", "ls"], "") == Ok(("", "ls"))
  {
  }

  /** With no `--cluster-id`, the command never carries a `--`: each word of it is a
      positional argument after the first. */
  lemma ParseArgsCommandWords(args: seq<string>)
    requires |args| > 1
    ensures ParseArgs(args, "").Ok?
    ensures var cmd := DropDashes(args[1..]);
      && ParseArgs(args, "").value.1 == Join(cmd, " ")
      && "--" !in cmd
      && (forall x :: x in cmd <==> x in args[1..] && x != "--")
  {
    DropDashesMembers(args[1..]);
  }

  /** lookUpNegativeName: the `no-` flag that switches a feature off. */
  function NegativeName(flag: string): (r: string)
    ensures HasPrefix(r, "no-") && r[3..] == flag
  {
    "no-" + flag
  }

  /** verboseOutput: `--debug` is a deprecated spelling of `--verbose`. */
  function VerboseOutput(verbose: bool, debug: bool): (r: bool)
    ensures r <==> verbose || debug
  {
    verbose || debug
  }

  /** featureEnabled: a feature is on unless its `no-` flag is true. */
  function FeatureEnabled(st: Host.Store, flag: string): (r: bool)
    ensures r <==> !Host.GetBool(st, "no-" + flag)
  {
    !Host.GetBool(st, NegativeName(flag))
  }

  /** A feature is on by default and `--no-<f>=true` turns it off; the feature's own
      positive name plays no part in the decision. */
  lemma FeatureSwitch(st: Host.Store, flag: string, b: bool)
    ensures NegativeName(flag) !in st.bools ==> FeatureEnabled(st, flag)
    ensures NegativeName(flag) in st.bools && st.bools[NegativeName(flag)] ==> !FeatureEnabled(st, flag)
    ensures FeatureEnabled(st.(bools := st.bools[flag := b]), flag) == FeatureEnabled(st, flag)
  {
    assert |NegativeName(flag)| != |flag|;
  }
}

=== FILE: pystrings.dfy ===
/** The parts of Python's `str` used by the release downloader: `split()` and `strip()`
    with no argument, `splitlines()`, and `removesuffix`. */
module PyStrings {
  import opened Strs

  /** The characters for which Python's `str.isspace()` holds. */
  const Whitespace: set<char> :=
    {' ', '\t', '\n', '\U{000B}', '\U{000C}', '\r', '\U{001C}', '\U{001D}',
     '\U{001E}', '\U{001F}', '\U{0085}', '\U{00A0}', '\U{1680}', '\U{2000}', '\U{2001}', '\U{2002}',
     '\U{2003}', '\U{2004}', '\U{2005}', '\U{2006}', '\U{2007}', '\U{2008}', '\U{2009}', '\U{200A}',
     '\U{2028}', '\U{2029}', '\U{202F}', '\U{205F}', '\U{3000}'}

  /** The characters `str.splitlines()` breaks at ("\r\n" counts as one break). */
  const LineBreaks: set<char> :=
    {'\n', '\r', '\U{000B}', '\U{000C}', '\U{001C}', '\U{001D}', '\U{001E}', '\U{0085}',
     '\U{2028}', '\U{2029}'}

  predicate NoSpace(w: string) {
    forall i :: 0 <= i < |w| ==> w[i] !in Whitespace
  }

  predicate AllSpace(w: string) {
    forall i :: 0 <= i < |w| ==> w[i] in Whitespace
  }

  /** Length of the longest prefix of `s` that holds no character of `cs`. */
  function Span(s: string, cs: set<char>): (n: nat)
    ensures n <= |s|
    ensures forall i :: 0 <= i < n ==> s[i] !in cs
    ensures n < |s| ==> s[n] in cs
    decreases |s|
  {
    if |s| == 0 || s[0] in cs then 0 else 1 + Span(s[1..], cs)
  }

  /** `s.split()`: the maximal runs of non-whitespace characters, in order. */
  function Split(s: string): (ws: seq<string>)
    ensures forall k :: 0 <= k < |ws| ==> |ws[k]| > 0 && NoSpace(ws[k])
    decreases |s|
  {
    if |s| == 0 then []
    else if s[0] in Whitespace then Split(s[1..])
    else
      var n := Span(s, Whitespace);
      [s[..n]] + Split(s[n..])
  }

  /** `s.strip()`: drops leading and trailing whitespace. */
  function Strip(s: string): (r: string)
    ensures |r| == 0 || (r[0] !in Whitespace && r[|r| - 1] !in Whitespace)
  {
    TrimRight(TrimLeft(s, Whitespace), Whitespace)
  }

  /** `s.splitlines()`: the lines of `s` without their line breaks; a final break does not
      start an empty line. */
  function SplitLines(s: string): (ls: seq<string>)
    ensures forall k :: 0 <= k < |ls| ==> forall i :: 0 <= i < |ls[k]| ==> ls[k][i] !in LineBreaks
    ensures |s| == 0 <==> |ls| == 0
    decreases |s|
  {
    if |s| == 0 then []
    else
      var n := Span(s, LineBreaks);
      if n == |s| then [s]
      else if s[n] == '\r' && n + 1 < |s| && s[n + 1] == '\n' then [s[..n]] + SplitLines(s[n + 2..])
      else [s[..n]] + SplitLines(s[n + 1..])
  }

  /** `s.removesuffix(p)`: case-sensitive; drops one trailing `p` when present. */
  function RemoveSuffix(s: string, p: string): string {
    TrimSuffix(s, p)
  }

  /** Splitting a word on its own, with whitespace around it. */
  lemma {:induction false} SplitOneWord(lead: string, w: string, rest: string)
    requires AllSpace(lead) && |w| > 0 && NoSpace(w)
    requires |rest| == 0 || rest[0] in Whitespace
    ensures Split(lead + w + rest) == [w] + Split(rest)
    decreases |lead|
  {
    if |lead| == 0 {
      var s := w + rest;
      assert lead + w + rest == s;
      assert s[0] == w[0] && s[0] !in Whitespace;
      var n := Span(s, Whitespace);
      SpanWord(w, rest);
      assert s[..n] == w;
      assert s[n..] == rest;
    } else {
      assert (lead + w + rest)[0] == lead[0];
      assert (lead + w + rest)[1..] == lead[1..] + w + rest;
      SplitOneWord(lead[1..], w, rest);
    }
  }

  lemma {:induction false} SpanWord(w: string, rest: string)
    requires NoSpace(w)
    requires |rest| == 0 || rest[0] in Whitespace
    ensures Span(w + rest, Whitespace) == |w|
    decreases |w|
  {
    if |w| == 0 {
      assert w + rest == rest;
    } else {
      assert (w + rest)[0] == w[0];
      assert (w + rest)[1..] == w[1..] + rest;
      SpanWord(w[1..], rest);
    }
  }

  lemma {:induction false} SplitAllSpace(s: string)
    requires AllSpace(s)
    ensures Split(s) == []
    decreases |s|
  {
    if |s| > 0 {
      SplitAllSpace(s[1..]);
    }
  }

  /** A checksum-manifest line "<digest><spaces><name>", with any whitespace around it,
      splits into exactly the digest and the name. */
  lemma {:induction false} TwoFields(lead: string, a: string, sep: string, b: string, trail: string)
    requires AllSpace(lead) && AllSpace(sep) && AllSpace(trail) && |sep| > 0
    requires |a| > 0 && NoSpace(a) && |b| > 0 && NoSpace(b)
    ensures Split(lead + a + sep + b + trail) == [a, b]
  {
    var rest := sep + b + trail;
    assert lead + a + sep + b + trail == lead + a + rest;
    assert rest[0] == sep[0];
    SplitOneWord(lead, a, rest);
    SplitOneWord(sep, b, trail);
    SplitAllSpace(trail);
  }
}

=== FILE: root.dfy ===
/** The root command's own logic: splitting the process arguments at the first `--`, and
    the exit status a failed run ends with. Cobra and viper wiring is not modelled. */
module Root {
  import opened Wrappers
  import Subprocess

  /** A Go `[]string`, where a nil slice and an empty one differ. */
  datatype Slice = Nil | Items(items: seq<string>)
  {
    function Elems(): seq<string> {
      if Nil? then [] else items
    }
  }

  /** The position of the first `--`, or |xs| when there is none. */
  function FirstDashes(xs: seq<string>): (i: nat)
    ensures i <= |xs|
    ensures forall j :: 0 <= j < i ==> xs[j] != "--"
    ensures i < |xs| ==> xs[i] == "--"
    decreases |xs|
  {
    if |xs| == 0 then 0
    else if xs[0] == "--" then 0
    else 1 + FirstDashes(xs[1..])
  }

  /** splitArgs: the arguments for cobra and the command for the container. */
  function SplitArgs(args: seq<string>): (r: (Slice, Slice))
  {
    if |args| < 2 then (Nil, Nil)
    else
      var rest := args[1..];
      var i := FirstDashes(rest);
      if i == |rest| then (Items(rest), Nil)
      else (Items(rest[..i]), Items(rest[i + 1..]))
  }

  /** Without at least one argument after the program name there is nothing to split. */
  lemma SplitArgsShort(args: seq<string>)
    requires |args| < 2
    ensures SplitArgs(args) == (Nil, Nil)
  {
  }

  /** With no `--`, cobra gets everything after the program name and there is no command. */
  lemma SplitArgsNoDashes(args: seq<string>)
    requires |args| >= 2 && "--" !in args[1..]
    ensures SplitArgs(args) == (Items(args[1..]), Nil)
  {
  }

  lemma SplitAround<T>(xs: seq<T>, i: nat)
    requires i < |xs|
    ensures xs[..i] + [xs[i]] + xs[i + 1..] == xs
  {
    assert xs == xs[..i] + xs[i..];
    assert xs[i..] == [xs[i]] + xs[i + 1..];
  }

  /** Cutting around the first `--` and gluing back with it loses nothing. */
  lemma DashesSplit(xs: seq<string>)
    requires "--" in xs
    ensures FirstDashes(xs) < |xs|
    ensures xs[..FirstDashes(xs)] + ["--"] + xs[FirstDashes(xs) + 1..] == xs
    ensures "--" !in xs[..FirstDashes(xs)]
  {
    var i := FirstDashes(xs);
    var k :| 0 <= k < |xs| && xs[k] == "--";
    assert i <= k;
    SplitAround(xs, i);
  }

  /** With a `--`, the two halves put back together around it give exactly the arguments
      after the program name; the cobra half holds no `--`, so the split is at the first
      one, and later ones stay in the command. Both halves are non-nil slices; the command
      is empty exactly when the first `--` is the last argument. */
  lemma SplitArgsDashes(args: seq<string>)
    requires |args| >= 2 && "--" in args[1..]
    ensures SplitArgs(args).0.Items? && SplitArgs(args).1.Items?
    ensures SplitArgs(args).0.items + ["--"] + SplitArgs(args).1.items == args[1..]
    ensures "--" !in SplitArgs(args).0.items
    ensures |SplitArgs(args).1.items| == 0 <==> |SplitArgs(args).0.items| == |args| - 2
  {
    DashesSplit(args[1..]);
  }

  /** The error a command run ends with: a failed subprocess, or anything else. */
  datatype RunError = ExecFailed(e: Subprocess.ExecErr) | OtherError(msg: string)

  /** Execute's exit status: a failed subprocess passes its own exit code on, any other
      error exits 1, and success returns normally (status 0). */
  function ExitStatus(err: Option<RunError>): (code: int)
    ensures err.None? ==> code == 0
    ensures err.Some? && err.value.ExecFailed? ==> code == err.value.e.exitCode
    ensures err.Some? && err.value.OtherError? ==> code == 1
  {
    match err
    case None => 0
    case Some(ExecFailed(e)) => Subprocess.Code(e)
    case Some(OtherError(_)) => 1
  }
}

=== FILE: sorting.dfy ===
/** Go's sort.Strings over the byte-wise order `Strs.LessEq`, as an insertion sort on
    sequences, with the facts that make its result unique: the order is total, so a sorted
    permutation of a list is determined by the list's multiset. */
module Sorting {
  import opened Strs

  predicate Sorted(s: seq<string>)
    decreases |s|
  {
    |s| < 2 || (LessEq(s[0], s[1]) && Sorted(s[1..]))
  }

  lemma {:induction false} LessEqRefl(a: string)
    ensures LessEq(a, a)
    decreases |a|
  {
    if |a| > 0 {
      LessEqRefl(a[1..]);
    }
  }

  lemma {:induction false} LessEqTotal(a: string, b: string)
    ensures LessEq(a, b) || LessEq(b, a)
    decreases |a|
  {
    if |a| > 0 && |b| > 0 && a[0] == b[0] {
      LessEqTotal(a[1..], b[1..]);
    }
  }

  lemma {:induction false} LessEqAntisym(a: string, b: string)
    requires LessEq(a, b) && LessEq(b, a)
    ensures a == b
    decreases |a|
  {
    if |a| > 0 {
      LessEqAntisym(a[1..], b[1..]);
      assert a == [a[0]] + a[1..] && b == [b[0]] + b[1..];
    }
  }

  lemma {:induction false} LessEqTrans(a: string, b: string, c: string)
    requires LessEq(a, b) && LessEq(b, c)
    ensures LessEq(a, c)
    decreases |a|
  {
    if |a| > 0 && a[0] == b[0] && b[0] == c[0] {
      LessEqTrans(a[1..], b[1..], c[1..]);
    }
  }

  /** Puts `x` before the first element it does not exceed. */
  function Insert(x: string, s: seq<string>): (r: seq<string>)
    ensures |r| == |s| + 1
    ensures multiset(r) == multiset(s) + multiset{x}
    decreases |s|
  {
    if |s| == 0 || LessEq(x, s[0]) then [x] + s
    else
      assert s == [s[0]] + s[1..];
      [s[0]] + Insert(x, s[1..])
  }

  /** sort.Strings */
  function Sort(s: seq<string>): (r: seq<string>)
    ensures |r| == |s|
    ensures multiset(r) == multiset(s)
    decreases |s|
  {
    if |s| == 0 then []
    else
      assert s == [s[0]] + s[1..];
      Insert(s[0], Sort(s[1..]))
  }

  lemma {:induction false} InsertSorted(x: string, s: seq<string>)
    requires Sorted(s)
    ensures Sorted(Insert(x, s))
    ensures |s| > 0 ==> Insert(x, s)[0] == x || Insert(x, s)[0] == s[0]
    decreases |s|
  {
    if |s| == 0 || LessEq(x, s[0]) {
    } else {
      LessEqTotal(x, s[0]);
      InsertSorted(x, s[1..]);
      var t := Insert(x, s[1..]);
      if |s| > 1 {
        assert LessEq(s[0], s[1]);
      }
      assert LessEq(s[0], t[0]);
    }
  }

  /** The result of Sort is in order. */
  lemma {:induction false} SortSorted(s: seq<string>)
    ensures Sorted(Sort(s))
    decreases |s|
  {
    if |s| > 0 {
      SortSorted(s[1..]);
      InsertSorted(s[0], Sort(s[1..]));
    }
  }

  /** The first element of a sorted list is below all the others. */
  lemma {:induction false} SortedHead(s: seq<string>)
    requires Sorted(s) && |s| > 0
    ensures forall x :: x in s ==> LessEq(s[0], x)
    decreases |s|
  {
    LessEqRefl(s[0]);
    if |s| > 1 {
      SortedHead(s[1..]);
      forall x | x in s
        ensures LessEq(s[0], x)
      {
        if x != s[0] {
          assert x in s[1..];
          LessEqTrans(s[0], s[1], x);
        }
      }
    }
  }

  /** Two sorted lists with the same elements are equal: sorting forgets the input order. */
  lemma {:induction false} SortedUnique(a: seq<string>, b: seq<string>)
    requires Sorted(a) && Sorted(b) && multiset(a) == multiset(b)
    ensures a == b
    decreases |a|
  {
    assert |a| == |multiset(a)| == |multiset(b)| == |b|;
    if |a| > 0 {
      SortedSameHead(a, b);
      TailMultiset(a);
      TailMultiset(b);
      SortedUnique(a[1..], b[1..]);
      assert a == [a[0]] + a[1..] && b == [b[0]] + b[1..];
    }
  }

  /** Two sorted lists with the same elements start alike. */
  lemma SortedSameHead(a: seq<string>, b: seq<string>)
    requires Sorted(a) && Sorted(b) && multiset(a) == multiset(b) && |a| > 0 && |b| > 0
    ensures a[0] == b[0]
  {
    assert a[0] in multiset(b) && b[0] in multiset(a);
    SortedHead(a);
    SortedHead(b);
    LessEqAntisym(a[0], b[0]);
  }

  lemma TailMultiset<T>(a: seq<T>)
    requires |a| > 0
    ensures multiset(a[1..]) == multiset(a) - multiset{a[0]}
  {
    assert a == [a[0]] + a[1..];
  }

  /** Sorting keeps exactly the elements of the list. */
  lemma SortMembers(s: seq<string>, x: string)
    ensures x in Sort(s) <==> x in s
  {
    assert x in Sort(s) <==> x in multiset(Sort(s));
    assert x in s <==> x in multiset(s);
  }

  /** Sorting a reordering of a list gives the same list. */
  lemma SortPermutationFree(a: seq<string>, b: seq<string>)
    requires multiset(a) == multiset(b)
    ensures Sort(a) == Sort(b)
  {
    SortSorted(a);
    SortSorted(b);
    SortedUnique(Sort(a), Sort(b));
  }

  /** The list of `f`'s values over `s`, in order. */
  function MapSeq<A, B>(f: A -> B, s: seq<A>): (r: seq<B>)
    ensures |r| == |s|
    ensures forall i :: 0 <= i < |s| ==> r[i] == f(s[i])
  {
    seq(|s|, i requires 0 <= i < |s| => f(s[i]))
  }

  lemma MapSeqAppend<A, B>(f: A -> B, u: seq<A>, v: seq<A>)
    ensures MapSeq(f, u + v) == MapSeq(f, u) + MapSeq(f, v)
  {
  }

  lemma MultisetRemove<T>(b: seq<T>, j: nat)
    requires j < |b|
    ensures multiset(b[..j] + b[j + 1..]) == multiset(b) - multiset{b[j]}
  {
    var b1, b2 := b[..j], b[j + 1..];
    assert b == b1 + ([b[j]] + b2);
    assert multiset(b) == multiset(b1) + (multiset{b[j]} + multiset(b2));
    assert multiset(b1 + b2) == multiset(b1) + multiset(b2);
  }

  /** The mapped list splits where the list does. */
  lemma MapSeqSplit<A, B>(f: A -> B, b: seq<A>, j: nat)
    requires j < |b|
    ensures MapSeq(f, b) == MapSeq(f, b[..j]) + ([f(b[j])] + MapSeq(f, b[j + 1..]))
  {
    var b1, b2 := b[..j], b[j + 1..];
    var m, rhs := MapSeq(f, b), MapSeq(f, b1) + ([f(b[j])] + MapSeq(f, b2));
    assert |rhs| == |m|;
    forall i | 0 <= i < |m|
      ensures m[i] == rhs[i]
    {
      if i > j {
        assert b2[i - j - 1] == b[i];
      }
    }
  }

  lemma MultisetMiddle<T>(u: seq<T>, x: T, v: seq<T>)
    ensures multiset(u + ([x] + v)) == multiset(u + v) + multiset{x}
  {
  }

  /** Taking one element out of a list takes its image out of the mapped list. */
  lemma MapSeqRemove<A, B>(f: A -> B, b: seq<A>, j: nat)
    requires j < |b|
    ensures multiset(MapSeq(f, b)) == multiset(MapSeq(f, b[..j] + b[j + 1..])) + multiset{f(b[j])}
  {
    MapSeqSplit(f, b, j);
    MapSeqAppend(f, b[..j], b[j + 1..]);
    MultisetMiddle(MapSeq(f, b[..j]), f(b[j]), MapSeq(f, b[j + 1..]));
  }

  /** Mapping two reorderings of a list gives two reorderings of the image. */
  lemma {:induction false} MapSeqPermute<A, B>(f: A -> B, a: seq<A>, b: seq<A>)
    requires multiset(a) == multiset(b)
    ensures multiset(MapSeq(f, a)) == multiset(MapSeq(f, b))
    decreases |a|
  {
    if |a| == 0 {
      assert |b| == |multiset(b)| == 0;
    } else {
      var j := PermuteHead(a, b);
      MapSeqPermute(f, a[1..], b[..j] + b[j + 1..]);
      MapSeqRemove(f, b, j);
      MapSeqCons(f, a);
    }
  }

  /** Where the head of a list sits in a reordering of it, and what is left around it. */
  lemma PermuteHead<T>(a: seq<T>, b: seq<T>) returns (j: nat)
    requires |a| > 0 && multiset(a) == multiset(b)
    ensures j < |b| && b[j] == a[0]
    ensures multiset(a[1..]) == multiset(b[..j] + b[j + 1..])
  {
    assert a == [a[0]] + a[1..];
    assert a[0] in multiset(b);
    j :| 0 <= j < |b| && b[j] == a[0];
    MultisetRemove(b, j);
    assert multiset(a) == multiset{a[0]} + multiset(a[1..]);
  }

  lemma MapSeqCons<A, B>(f: A -> B, a: seq<A>)
    requires |a| > 0
    ensures multiset(MapSeq(f, a)) == multiset{f(a[0])} + multiset(MapSeq(f, a[1..]))
  {
    assert MapSeq(f, a) == [f(a[0])] + MapSeq(f, a[1..]);
  }
}

=== FILE: strs.dfy ===
/** String operations of Go's `strings` and `strconv` packages used by the launcher,
    over `string` (= seq<char>). Case mapping is ASCII only. */
module Strs {
  import opened Wrappers

  predicate HasPrefix(s: string, p: string) {
    |p| <= |s| && s[..|p|] == p
  }

  predicate HasSuffix(s: string, p: string) {
    |p| <= |s| && s[|s| - |p|..] == p
  }

  /** strings.TrimPrefix: drops one leading `p` when present. */
  function TrimPrefix(s: string, p: string): (r: string)
    ensures HasPrefix(s, p) ==> s == p + r
    ensures !HasPrefix(s, p) ==> r == s
  {
    if HasPrefix(s, p) then s[|p|..] else s
  }

  /** strings.TrimSuffix: drops one trailing `p` when present. */
  function TrimSuffix(s: string, p: string): (r: string)
    ensures HasSuffix(s, p) ==> s == r + p
    ensures !HasSuffix(s, p) ==> r == s
  {
    if HasSuffix(s, p) then s[..|s| - |p|] else s
  }

  /** strings.Contains: `sub` occurs somewhere in `s`. */
  predicate Contains(s: string, sub: string)
    decreases |s|
  {
    HasPrefix(s, sub) || (|s| > 0 && Contains(s[1..], sub))
  }

  /** strings.Join */
  function Join(parts: seq<string>, sep: string): string
    decreases |parts|
  {
    if |parts| == 0 then ""
    else if |parts| == 1 then parts[0]
    else parts[0] + sep + Join(parts[1..], sep)
  }

  function LowerChar(c: char): char {
    if 'A' <= c <= 'Z' then (c as int + 32) as char else c
  }

  function UpperChar(c: char): char {
    if 'a' <= c <= 'z' then (c as int - 32) as char else c
  }

  /** strings.ToLower, restricted to ASCII letters. */
  function ToLower(s: string): (r: string)
    ensures |r| == |s|
    ensures forall i :: 0 <= i < |s| ==> r[i] == LowerChar(s[i])
  {
    seq(|s|, i requires 0 <= i < |s| => LowerChar(s[i]))
  }

  /** strings.ToUpper, restricted to ASCII letters. */
  function ToUpper(s: string): (r: string)
    ensures |r| == |s|
    ensures forall i :: 0 <= i < |s| ==> r[i] == UpperChar(s[i])
  {
    seq(|s|, i requires 0 <= i < |s| => UpperChar(s[i]))
  }

  /** strings.ReplaceAll for a one-character pattern and replacement. */
  function ReplaceChar(s: string, a: char, b: char): (r: string)
    ensures |r| == |s|
    ensures forall i :: 0 <= i < |s| ==> r[i] == (if s[i] == a then b else s[i])
  {
    seq(|s|, i requires 0 <= i < |s| => if s[i] == a then b else s[i])
  }

  /** strings.TrimLeft: drops the longest prefix made of characters of `cutset`. */
  function TrimLeft(s: string, cutset: set<char>): (r: string)
    ensures |r| <= |s| && s[|s| - |r|..] == r
    ensures forall i :: 0 <= i < |s| - |r| ==> s[i] in cutset
    ensures |r| > 0 ==> r[0] !in cutset
    decreases |s|
  {
    if |s| > 0 && s[0] in cutset then TrimLeft(s[1..], cutset) else s
  }

  /** strings.TrimRight: drops the longest suffix made of characters of `cutset`. */
  function TrimRight(s: string, cutset: set<char>): (r: string)
    ensures |r| <= |s| && s[..|r|] == r
    ensures forall i :: |r| <= i < |s| ==> s[i] in cutset
    ensures |r| > 0 ==> r[|r| - 1] !in cutset
    decreases |s|
  {
    if |s| > 0 && s[|s| - 1] in cutset then TrimRight(s[..|s| - 1], cutset) else s
  }

  /** strings.Trim: both ends. */
  function Trim(s: string, cutset: set<char>): (r: string)
    ensures |r| > 0 ==> r[0] !in cutset && r[|r| - 1] !in cutset
  {
    TrimRight(TrimLeft(s, cutset), cutset)
  }

  /** What Trim keeps is one slice of `s`, with only cutset characters around it. */
  lemma TrimSlice(s: string, cutset: set<char>)
    ensures exists i, j ::
      && 0 <= i <= j <= |s| && Trim(s, cutset) == s[i..j]
      && (forall p :: 0 <= p < i ==> s[p] in cutset)
      && (forall p :: j <= p < |s| ==> s[p] in cutset)
  {
    var left := TrimLeft(s, cutset);
    var r := Trim(s, cutset);
    var i := |s| - |left|;
    var j := i + |r|;
    assert left == s[i..];
    assert r == left[..|r|];
    assert r == s[i..j];
    forall p | j <= p < |s|
      ensures s[p] in cutset
    {
      assert s[p] == left[p - i];
    }
  }

  /** Index of the first occurrence of `c`, or |s| when there is none. */
  function IndexOf(s: string, c: char): (i: nat)
    ensures i <= |s|
    ensures forall j :: 0 <= j < i ==> s[j] != c
    ensures i < |s| ==> s[i] == c
    decreases |s|
  {
    if |s| == 0 then 0 else if s[0] == c then 0 else 1 + IndexOf(s[1..], c)
  }

  /** strings.SplitN(s, sep, 2) for a one-character separator: the part before the first
      separator and, when there is a separator, the part after it. */
  function Cut(s: string, sep: char): (r: (string, Option<string>))
    ensures sep !in r.0
    ensures r.1.None? <==> sep !in s
    ensures r.1.None? ==> r.0 == s
    ensures r.1.Some? ==> s == r.0 + [sep] + r.1.value
  {
    var i := IndexOf(s, sep);
    if i == |s| then (s, None) else (s[..i], Some(s[i + 1..]))
  }

  function DigitChar(d: nat): char
    requires d < 10
  {
    "0123456789"[d]
  }

  function NatToString(n: nat): string
    decreases n
  {
    if n < 10 then [DigitChar(n)] else NatToString(n / 10) + [DigitChar(n % 10)]
  }

  /** strconv.Itoa / fmt's %d of an int. */
  function IntToString(n: int): string {
    if n < 0 then "-" + NatToString(-n) else NatToString(n)
  }

  /** strconv.FormatBool */
  function FormatBool(b: bool): string {
    if b then "true" else "false"
  }

  /** Byte-wise string order of Go's sort.Strings (code-point order, which UTF-8 preserves). */
  predicate LessEq(a: string, b: string)
    decreases |a|
  {
    |a| == 0 || (|b| > 0 && (a[0] < b[0] || (a[0] == b[0] && LessEq(a[1..], b[1..]))))
  }
}

=== FILE: subprocess.dfy ===
/** The error a failed container-engine command reports: its exit status and its standard
    error, with the engine's own `Error: ` framing removed. Running processes is not
    modelled. */
module Subprocess {
  import opened Strs

  /** The wrapped Go error is not used by `Error()` or `Code()` and is left out. */
  datatype ExecErr = ExecErr(exitCode: int, stdErr: string)

  /** `Error()`: one leading "Error: ", then one leading "error: ", then one trailing
      newline are removed, each only when present. */
  function ErrorText(e: ExecErr): (r: string)
    ensures |r| <= |e.stdErr|
    ensures !HasPrefix(e.stdErr, "Error: ") && !HasPrefix(e.stdErr, "error: ") && !HasSuffix(e.stdErr, "\n") ==>
      r == e.stdErr
  {
    TrimSuffix(TrimPrefix(TrimPrefix(e.stdErr, "Error: "), "error: "), "\n")
  }

  /** `Code()`: the exit status of the failed process. */
  function Code(e: ExecErr): (r: int)
    ensures r == e.exitCode
  {
    e.exitCode
  }

  /** The message is the standard error with the three affixes taken away in turn: the text
      is what remains between "Error: " when the standard error starts with it, "error: "
      when what follows starts with that, and a final newline when what is left ends with
      one. */
  lemma ErrorTextFraming(e: ExecErr)
    ensures exists p1, p2, nl ::
      (p1 == "" || p1 == "Error: ") && (p2 == "" || p2 == "error: ") && (nl == "" || nl == "\n") &&
      e.stdErr == p1 + (p2 + (ErrorText(e) + nl)) &&
      (p1 == "Error: " <==> HasPrefix(e.stdErr, "Error: ")) &&
      (p2 == "error: " <==> HasPrefix(e.stdErr[|p1|..], "error: ")) &&
      (nl == "\n" <==> HasSuffix(e.stdErr[|p1| + |p2|..], "\n"))
  {
    var s := e.stdErr;
    var p1 := if HasPrefix(s, "Error: ") then "Error: " else "";
    var s1 := TrimPrefix(s, "Error: ");
    var p2 := if HasPrefix(s1, "error: ") then "error: " else "";
    var s2 := TrimPrefix(s1, "error: ");
    var nl := if HasSuffix(s2, "\n") then "\n" else "";
    PeelPrefix(s, "Error: ");
    PeelPrefix(s1, "error: ");
    assert s2 == ErrorText(e) + nl;
    assert s == p1 + (p2 + (ErrorText(e) + nl));
  }

  /** Taking off a prefix that may be absent: what is taken, then what is left. */
  lemma PeelPrefix(s: string, p: string)
    ensures var q := if HasPrefix(s, p) then p else "";
      s == q + TrimPrefix(s, p) && s[|q|..] == TrimPrefix(s, p)
  {
  }

  /** Both prefixes are removed in turn, so "Error: error: x\n" reports "x". */
  lemma DoubleFraming(x: string)
    ensures ErrorText(ExecErr(1, "Error: error: " + x + "\n")) == x
  {
    var s := "Error: error: " + x + "\n";
    assert s[..7] == "Error: ";
    assert s[7..] == "error: " + x + "\n";
    assert s[7..][..7] == "error: ";
    assert s[7..][7..] == x + "\n";
  }
}

=== FILE: wrappers.dfy ===
/** Failure-carrying datatypes shared by every module of the model. */
module Wrappers {

  /** A value that may be absent; also stands for Go's nil slice and for a missing map key. */
  datatype Option<+T> = None | Some(value: T) {
    function GetOr(default: T): T {
      match this
      case Some(v) => v
      case None => default
    }
  }

  /** A successful value or an error message, for Go's `(T, error)` returns. */
  datatype Result<+T> = Ok(value: T) | Err(msg: string)
}
